=== FILE: README.md ===
# FuseMuse packets in Dafny

FuseMuse builds music out of "packets". Each packet plays one part of a
composition. A composition is a list of composition segments. Each segment
has a key signature, a tempo, a time signature and a list of measures. Each
measure holds positioned notes. Rhythm values are integers, and a whole note
is 384 units.

This project models the core of three packets and the data structures they
share.

- **Counterpoint packet** (`CounterpointPlayer`, `CounterpointNode`,
  `MelodicLineExtractor`, `LocatedNote`).
  - It first flattens the parent parts into one melodic line, the cantus
    firmus. It keeps one note per start time and can smooth pitches with
    their neighbours.
  - It then builds a counterpoint line one node per cantus-firmus note.
  - Each node offers 24 candidate pitches, starting at the cantus firmus's
    third-quartile pitch.
  - Each candidate is scored by the counterpoint rules (forbidden rules count
    3, the others count 1) and placed at acceptance level `min(score, 4)`.
  - Selection draws from the lowest non-empty level allowed by the current
    tolerance.
  - After 30 failed selections the search raises the tolerance. Each failure
    backs up one note.
  - `CounterpointSearch.Run` is the search as a function of the random
    draws: the state after `n` passes of the loop. The loop method is proved
    to compute it.
- **Markov packet** (`IntervalMarkovChainPacket`). This is only the string
  side: it finds the chain order from a state, builds the all-`~` start
  state, reads a data row into the table by shifting the from-state, and
  turns a state's last `<offset>X<duration>` token into a note. That last
  step includes the counter that stretches a triplet over three notes.
- **Support packet** (`SimpleSupport`).
  - It generates one part per distinct segment and reuses it when the
    segment occurs again.
  - A part has one chord per onset, an octave below the sounding pitches.
  - The onsets come from the segment's rhythm, or from a beat grid.
  - The pitch mode voices each chord as Basic (all pitches), Low (the lowest
    pitch) or Low+Alt (the lowest pitch plus the second or third, alternately).
- **Shared data structures**: `KeySignature`, `DiatonicKeySignature`,
  `TimeSignature`, `FMNote`, `MutableFMNote`, `FMMeasure` and
  `FMCompositionSegment`.

The model uses these conventions:

- Java exceptions are `Result.Fail` values. A library exception carries its class name. A bare `Exception` thrown by the source carries its message text.
- `null` is `Option.None`.
- Object identity (notes, segments) is an explicit id.
- Java `int` division and remainder are written out, truncating toward zero
  (`JavaLang.JavaDiv`, `JavaLang.JavaRem`).
- Random draws, the jMusic pitch constants and floating-point tests are
  parameters.

Modules and files:

| module | file | Java source |
|---|---|---|
| `Results` | results.dfy | exceptions and null |
| `JavaLang` | java_lang.dfy | `int` `/` and `%`, `Integer.parseInt` / `toString`, `indexOf` |
| `Sorting` | sorting.dfy | stable sort, as in `Collections.sort` / `List.sort` |
| `KeySignatures` | key_signature.dfy | KeySignature.java |
| `DiatonicKeys` | diatonic_key_signature.dfy | DiatonicKeySignature.java |
| `TimeSignatures` | time_signature.dfy | TimeSignature.java |
| `FMNotes` | fm_note.dfy | FMNote.java, MutableFMNote.java |
| `Measures` | fm_measure.dfy | FMMeasure.java |
| `CompositionSegments` | fm_composition_segment.dfy | FMCompositionSegment.java |
| `LocatedNotes` | located_note.dfy | LocatedNote.java |
| `MelodicLines` | melodic_line_extractor.dfy | MelodicLineExtractor.java |
| `Counterpoint` | counterpoint_node.dfy | CounterpointNode.java |
| `CounterpointSearch` | counterpoint_player.dfy | CounterpointPlayer.java |
| `MarkovChains` | markov_chain.dfy | IntervalMarkovChainPacket.java |
| `SimpleSupport` | simple_support.dfy | SimpleSupport.java |

## Model

| member | source | states |
|---|---|---|
| JavaLang.Abs | Packets/FM_Counter_Java_Packet/src/CounterpointNode.java:283-292 | `Math.abs`: the result is `x` or `-x` and never negative |
| JavaLang.JavaDiv | Packets/FM_Markov_Java_Packet/src/framework/ds/FMCompositionSegment.java:168 | Java `/` truncates toward zero. The quotient of the absolute values carries the sign of the operands and is 0 exactly when the dividend is smaller in magnitude |
| JavaLang.JavaRem | Packets/FM_Markov_Java_Packet/src/framework/ds/FMCompositionSegment.java:173 | Java `%` satisfies `a == b * (a / b) + a % b`. It is smaller in magnitude than the divisor and takes the sign of the dividend |
| JavaLang.NonNegativeDivision | Packets/FM_Markov_Java_Packet/src/framework/ds/FMCompositionSegment.java:168-173 | for a non-negative dividend and positive divisor, Java's `/` and `%` agree with Euclidean division |
| JavaLang.ExactJavaDiv | Packets/FM_Markov_Java_Packet/src/framework/ds/FMMeasure.java:39 | dividing an exact multiple `k * d` by `d` gives back `k`, for negative `k` too |
| JavaLang.DivBounds | Packets/FM_Markov_Java_Packet/src/framework/ds/FMCompositionSegment.java:168 | a non-negative quotient lies between 0 and the dividend, and is 0 exactly when the dividend is smaller than the divisor |
| JavaLang.IntToString | Packets/FM_Counter_Java_Packet/src/framework/ds/TimeSignature.java:79 | `Integer.toString` is a non-empty string of digits and `-` |
| JavaLang.NatToString | Packets/FM_Counter_Java_Packet/src/framework/ds/TimeSignature.java:79 | the decimal digits of a natural number are non-empty, all digits, and read back as the number |
| JavaLang.ParseInt | Packets/FM_Counter_Java_Packet/src/framework/ds/TimeSignature.java:48-49 | `Integer.parseInt`: the empty string fails. A result is a 32-bit value, read from digits after an optional sign, and is non-negative unless the sign is `-`. A string of ASCII digits gives its decimal value exactly when that fits in 32 bits |
| JavaLang.ParseIntToString | Packets/FM_Counter_Java_Packet/src/framework/ds/TimeSignature.java:48-49 | `parseInt(toString(n)) == n` for every 32-bit `n` |
| JavaLang.IndexOf | Packets/FM_Counter_Java_Packet/src/framework/ds/TimeSignature.java:41 | `indexOf` gives -1 exactly when the character is absent. Otherwise it gives a position holding the character with no earlier occurrence |
| JavaLang.LastIndexOf | Packets/FM_Markov_Java_Packet/src/IntervalMarkovChainPacket.java:161-163 | `lastIndexOf` gives -1 exactly when the character is absent. Otherwise it gives a position holding the character with no later occurrence |
| Sorting.InsertBy | Packets/FM_Counter_Java_Packet/src/MelodicLineExtractor.java:61 | insertion grows the list by one and puts the new element either first or after the old head |
| Sorting.InsertByInserts | Packets/FM_Counter_Java_Packet/src/MelodicLineExtractor.java:61 | insertion adds exactly the one element (multiset) and keeps a sorted list sorted |
| Sorting.SortBy | Packets/FM_Counter_Java_Packet/src/CounterpointNode.java:365-372 | sorting keeps the length |
| Sorting.SortBySorts | Packets/FM_Counter_Java_Packet/src/CounterpointNode.java:365-372 | the sorted list is ordered by the key and is a permutation of the input |
| Sorting.SortByKeepsElements | Packets/FM_Counter_Java_Packet/src/MelodicLineExtractor.java:61 | sorting neither adds nor drops elements |
| Sorting.SortedPermutationsAgree | Packets/FM_Counter_Java_Packet/src/CounterpointNode.java:365-374 | two sorted arrangements of the same elements agree key by key, so the element read at a fixed index of the sorted list has a well-defined key |
| KeySignatures.PitchClass | Packets/FM_Counter_Java_Packet/src/framework/ds/KeySignature.java:60 | `pitch % 12` in Java lies strictly between -12 and 12, and is the Euclidean remainder for non-negative pitches |
| KeySignatures.MatchesKey | Packets/FM_Counter_Java_Packet/src/framework/ds/KeySignature.java:57-65 | `matchesKey` holds exactly when some scale pitch has the same Java remainder mod 12 as the pitch |
| KeySignatures.MatchesFrom | Packets/FM_Counter_Java_Packet/src/framework/ds/KeySignature.java:58-64 | the scan from position `i` finds a match exactly when one exists at or after `i` |
| KeySignatures.MatchesKeyOctaveInvariant | Packets/FM_Counter_Java_Packet/src/framework/ds/KeySignature.java:59-60 | for non-negative pitches, an octave shift does not change key membership |
| KeySignatures.NegativePitchOctaveCounterexample | Packets/FM_Counter_Java_Packet/src/framework/ds/KeySignature.java:59-60 | below zero the octave claim fails: pitch 11 matches a scale holding 11, and pitch -1 does not |
| KeySignatures.ChordMatchesKey | Packets/FM_Counter_Java_Packet/src/framework/ds/KeySignature.java:75-82 | a chord matches exactly when every pitch matches, so the empty chord matches |
| KeySignatures.TonicIsDegreeZero | Packets/FM_Counter_Java_Packet/src/framework/ds/KeySignature.java:120-138 | the tonic is degree 0, which is the first scale pitch, and the scale size is the scale's length |
| KeySignatures.NthPitch | Packets/FM_Counter_Java_Packet/src/framework/ds/KeySignature.java:120-122 | the nth pitch is a scale pitch, so it matches the key |
| KeySignatures.Tonic | Packets/FM_Counter_Java_Packet/src/framework/ds/KeySignature.java:128-130 | the tonic is the first scale pitch and matches the key |
| KeySignatures.ScaleSize | Packets/FM_Counter_Java_Packet/src/framework/ds/KeySignature.java:136-138 | the size is the scale's length, and every index below it gives a pitch matching the key |
| DiatonicKeys.ModeIntervals | Packets/FM_Counter_Java_Packet/src/framework/ds/DiatonicKeySignature.java:512-620 | each of the seven mode tables has seven half or whole steps that add up to 12 |
| DiatonicKeys.ApplyMode | Packets/FM_Counter_Java_Packet/src/framework/ds/DiatonicKeySignature.java:512-620 | a mode helper sets the step table and the quality. All modes except Ionian and Aeolian reset sharpsOrFlats to 0. Nothing else changes |
| DiatonicKeys.CalculateScale | Packets/FM_Counter_Java_Packet/src/framework/ds/DiatonicKeySignature.java:672-680 | the scale has seven pitches starting at the tonic, and each one is the previous plus the matching step |
| DiatonicKeys.ScaleClosesOctave | Packets/FM_Counter_Java_Packet/src/framework/ds/DiatonicKeySignature.java:672-680 | when the steps add up to 12, the leading tone plus the seventh step is the tonic an octave up |
| DiatonicKeys.FromIntervals | Packets/FM_Counter_Java_Packet/src/framework/ds/DiatonicKeySignature.java:190-209 | the custom constructor succeeds exactly when the seven steps add up to 12. It then builds a MAJOR "Custom Scale" with no accidentals, the given steps and a scale from the tonic |
| DiatonicKeys.FromSharpsOrFlats | Packets/FM_Counter_Java_Packet/src/framework/ds/DiatonicKeySignature.java:217-380 | quality 0 gives the Ionian steps and MAJOR, anything else gives Aeolian and MINOR. sharpsOrFlats is stored as given. The name is set exactly for -7..7, and 0 gives C Major or A Minor |
| DiatonicKeys.CountAccidentals | Packets/FM_Counter_Java_Packet/src/framework/ds/DiatonicKeySignature.java:718-728 | the accidental count is at most the number of scale pitches |
| DiatonicKeys.NumSharpsOrFlats | Packets/FM_Counter_Java_Packet/src/framework/ds/DiatonicKeySignature.java:699-738 | the recount lies in -7..7. It is non-negative when flagged sharp, non-positive when flagged flat, and 0 when neither flag is set |
| DiatonicKeys.ModeOfName | Packets/FM_Counter_Java_Packet/src/framework/ds/DiatonicKeySignature.java:622-666 | an unrecognised mode name falls through to Major (Ionian) |
| DiatonicKeys.IdentifyScale | Packets/FM_Counter_Java_Packet/src/framework/ds/DiatonicKeySignature.java:622-666 | applies the named mode and builds the scale from the tonic. Only Major, Minor, Ionian and Aeolian recount sharpsOrFlats from the scale; the other modes leave it 0 |
| DiatonicKeys.FromName | Packets/FM_Counter_Java_Packet/src/framework/ds/DiatonicKeySignature.java:53-181 | throws exactly when the name is shorter than two characters, or a known prefix is followed by fewer characters than its mode part starts at ("C#" fails at `substring(3)`). Otherwise the key keeps its name and is well formed. A known prefix gives its tonic from the pitch table, the steps and quality of the named mode, and the prefix's sharp or flat flag. For Major, Minor, Ionian and Aeolian, sharpsOrFlats is the recount of the scale, with the sign of the flag. An unknown prefix gives tonic -1 and the Ionian steps |
| DiatonicKeys.GMajorHasOneSharp | Packets/FM_Counter_Java_Packet/src/framework/ds/DiatonicKeySignature.java:127-136 | with G3 = 55, "G Major" is a G Ionian key flagged sharp, and it has one sharp |
| DiatonicKeys.FMajorHasOneFlat | Packets/FM_Counter_Java_Packet/src/framework/ds/DiatonicKeySignature.java:112-116 | with F3 = 53, "F Major" is an F Ionian key flagged flat, and it has one flat |
| DiatonicKeys.CountMajorScale | Packets/FM_Counter_Java_Packet/src/framework/ds/DiatonicKeySignature.java:699-738 | any well-formed Ionian key on G3 flagged sharp counts one sharp, and any on F3 flagged flat counts one flat |
| DiatonicKeys.IonianScale | Packets/FM_Counter_Java_Packet/src/framework/ds/DiatonicKeySignature.java:672-680 | the Ionian steps from tonic `t` give the scale `t, t+2, t+4, t+5, t+7, t+9, t+11` |
| DiatonicKeys.DegreesFollowIntervals | Packets/FM_Counter_Java_Packet/src/framework/ds/DiatonicKeySignature.java:388-450 | in every key the constructors build, each degree accessor is the previous degree plus its step, and the leading tone plus the last step is the tonic an octave up |
| TimeSignatures.Pow2 | Packets/FM_Counter_Java_Packet/src/framework/ds/TimeSignature.java:26-27 | powers of two are positive |
| TimeSignatures.ValidDenominatorsArePowersOfTwo | Packets/FM_Counter_Java_Packet/src/framework/ds/TimeSignature.java:26-27 | the accepted denominators are exactly the powers of two from 1 to 64 |
| TimeSignatures.NewTimeSignature | Packets/FM_Counter_Java_Packet/src/framework/ds/TimeSignature.java:25-32 | succeeds exactly for a valid denominator and stores both numbers |
| TimeSignatures.ParseTimeSignature | Packets/FM_Counter_Java_Packet/src/framework/ds/TimeSignature.java:40-56 | a slash missing or in first position throws. A parsed signature has a valid denominator and a 32-bit numerator |
| TimeSignatures.ParseToString | Packets/FM_Counter_Java_Packet/src/framework/ds/TimeSignature.java:40-80 | parsing the `toString` of a valid 32-bit signature gives it back |
| TimeSignatures.ToString | Packets/FM_Counter_Java_Packet/src/framework/ds/TimeSignature.java:78-80 | the first `/` of the text ends the numerator's decimal digits, and the denominator's digits follow it |
| FMNotes.NewNote | Packets/FM_Counter_Java_Packet/src/framework/ds/FMNote.java:28-34 | throws exactly for a negative pitch other than REST. Otherwise stores pitch and duration and leaves the tie flag false |
| FMNotes.NewUntiedNote | Packets/FM_Counter_Java_Packet/src/framework/ds/FMNote.java:41-43 | the two-argument constructor throws exactly for a negative pitch other than REST, and otherwise builds the untied note |
| FMNotes.TiedArgumentIsIgnored | Packets/FM_Counter_Java_Packet/src/framework/ds/FMNote.java:28-43 | the `tied` argument is never stored, so the three-argument constructor builds what the two-argument one does |
| FMNotes.RhythmValueRelations | Packets/FM_Counter_Java_Packet/src/framework/ds/FMNote.java:63-104 | each plain value doubles the previous one, a dotted value is 3/2 of its plain value, and plain and dotted values are multiples of 3. Every triplet is 2/3 of its plain value, except the sixteenth triplet, which equals the thirty-second note |
| FMNotes.SetPitch | Packets/FM_Markov_Java_Packet/src/framework/ds/MutableFMNote.java:31 | replaces the pitch and nothing else |
| FMNotes.SetDuration | Packets/FM_Markov_Java_Packet/src/framework/ds/MutableFMNote.java:37 | replaces the duration and nothing else |
| FMNotes.SetTiedToNext | Packets/FM_Markov_Java_Packet/src/framework/ds/MutableFMNote.java:43 | replaces the tie flag and nothing else |
| FMNotes.SetPitchSkipsValidation | Packets/FM_Markov_Java_Packet/src/framework/ds/MutableFMNote.java:31 | for every note, `setPitch(p)` stores `p` unchecked, so each negative `p` other than REST gives a pitch the constructor would reject |
| Measures.NewMeasure | Packets/FM_Markov_Java_Packet/src/framework/ds/FMMeasure.java:35-42 | throws exactly for a zero denominator. Otherwise builds an empty measure with the given signature and a length derived from it |
| Measures.MeasureLengthIsExact | Packets/FM_Markov_Java_Packet/src/framework/ds/FMMeasure.java:39 | for a valid denominator the length is exactly `num * (384 / denom)` |
| Measures.DefaultMeasure | Packets/FM_Markov_Java_Packet/src/framework/ds/FMMeasure.java:48-50 | the default measure is an empty 4/4 measure, 384 units long |
| Measures.AlreadyPlaced | Packets/FM_Markov_Java_Packet/src/framework/ds/FMMeasure.java:122-127 | true exactly when the same note object already sits at that start |
| Measures.AddNote | Packets/FM_Markov_Java_Packet/src/framework/ds/FMMeasure.java:121-141 | refused, with nothing changed, exactly when the note is already placed there, the start is negative, or the note would run past the end. Otherwise the note is appended and the signature and length are kept |
| Measures.AddNoteKeepsNotesInside | Packets/FM_Markov_Java_Packet/src/framework/ds/FMMeasure.java:129-139 | adding notes keeps every note between 0 and the measure length |
| Measures.SoundingPitches | Packets/FM_Markov_Java_Packet/src/framework/ds/FMMeasure.java:78-85 | a pitch sounds exactly when some note of that pitch has started and not yet ended |
| Measures.PitchesAt | Packets/FM_Markov_Java_Packet/src/framework/ds/FMMeasure.java:75-86 | null exactly outside `[0, length]` (the end itself is accepted). Otherwise the sounding pitches |
| Measures.Rhythm | Packets/FM_Markov_Java_Packet/src/framework/ds/FMMeasure.java:93-99 | the keys are exactly the note starts |
| Measures.RhythmLastWins | Packets/FM_Markov_Java_Packet/src/framework/ds/FMMeasure.java:95-97 | the duration recorded at a start is that of the last note added there |
| Measures.RhythmInsideMeasure | Packets/FM_Markov_Java_Packet/src/framework/ds/FMMeasure.java:93-99 | with notes inside the measure and positive durations, every start lies in `[0, length)` |
| CompositionSegments.NewSegment | Packets/FM_Markov_Java_Packet/src/framework/ds/FMCompositionSegment.java:37-47 | a new segment has the given key and tempo, 4/4 time and no measures |
| CompositionSegments.AddMeasure | Packets/FM_Markov_Java_Packet/src/framework/ds/FMCompositionSegment.java:60-81 | the first measure is always added and its signature is taken over when valid. A later measure throws exactly when its signature differs, and is otherwise appended |
| CompositionSegments.AddMeasureKeepsConsistent | Packets/FM_Markov_Java_Packet/src/framework/ds/FMCompositionSegment.java:60-81 | when the first measure has a valid denominator, every measure keeps the segment's signature |
| CompositionSegments.AddMeasureKeepsValidDenominator | Packets/FM_Markov_Java_Packet/src/framework/ds/FMCompositionSegment.java:60-81 | the segment's own denominator stays valid |
| CompositionSegments.InvalidFirstMeasureLeavesSegmentInconsistent | Packets/FM_Markov_Java_Packet/src/framework/ds/FMCompositionSegment.java:65-71 | any first measure with an invalid denominator is added, but the segment keeps 4/4, so its measures no longer match its signature |
| CompositionSegments.ConsistentSegmentIsUniform | Packets/FM_Markov_Java_Packet/src/framework/ds/FMCompositionSegment.java:73-79 | in a consistent segment of well-formed measures, all measures are as long as the first |
| CompositionSegments.Duration | Packets/FM_Markov_Java_Packet/src/framework/ds/FMCompositionSegment.java:117-120 | an empty segment gives -1 |
| CompositionSegments.TotalOfUniform | Packets/FM_Markov_Java_Packet/src/framework/ds/FMCompositionSegment.java:117-120 | equal-length measures total length times count |
| CompositionSegments.DurationIsTotalLength | Packets/FM_Markov_Java_Packet/src/framework/ds/FMCompositionSegment.java:117-120 | with equal-length measures, the duration (first length times count) is the true total |
| CompositionSegments.ShiftAt | Packets/FM_Markov_Java_Packet/src/framework/ds/FMCompositionSegment.java:147-151 | the shifted measure rhythm holds `k` exactly when the measure rhythm holds `k - off`, with the same duration |
| CompositionSegments.RhythmsInsideTail | Packets/FM_Markov_Java_Packet/src/framework/ds/FMCompositionSegment.java:146-153 | the "rhythms inside their measures" property passes to the remaining measures |
| CompositionSegments.RhythmFromStartsAtOffset | Packets/FM_Markov_Java_Packet/src/framework/ds/FMCompositionSegment.java:143-155 | every key of the rhythm of measures placed from `off` is at least `off` |
| CompositionSegments.RhythmKeysComeFromMeasures | Packets/FM_Markov_Java_Packet/src/framework/ds/FMCompositionSegment.java:143-155 | every key of the segment rhythm is some measure's note start, shifted by that measure's position |
| CompositionSegments.RhythmPlacesMeasure | Packets/FM_Markov_Java_Packet/src/framework/ds/FMCompositionSegment.java:143-155 | with rhythms inside their measures, each note start of measure `j` appears at its measure's position with its own duration |
| CompositionSegments.SegmentRhythm | Packets/FM_Markov_Java_Packet/src/framework/ds/FMCompositionSegment.java:143-155 | a segment with no measures has an empty rhythm. The keys and durations are stated by `RhythmKeysComeFromMeasures` and `RhythmPlacesMeasure` |
| CompositionSegments.NegativeLengthIndex | Packets/FM_Markov_Java_Packet/src/framework/ds/FMCompositionSegment.java:167-168 | with a negative length, the measure index is negative exactly when the position reaches past one measure |
| CompositionSegments.PitchesAtPosition | Packets/FM_Markov_Java_Packet/src/framework/ds/FMCompositionSegment.java:162-175 | an empty segment or a negative position gives the empty set. Past the last measure also gives the empty set. Otherwise the measure's answer at the Java remainder |
| CompositionSegments.PitchesAtPositionFails | Packets/FM_Markov_Java_Packet/src/framework/ds/FMCompositionSegment.java:167-174 | throws exactly for a zero first length, or a negative one the position reaches past |
| CompositionSegments.PitchesAtPositionInUniform | Packets/FM_Markov_Java_Packet/src/framework/ds/FMCompositionSegment.java:162-175 | with equal measures, position `i * len + o` gives the pitches sounding `o` into measure `i`, and the empty set past the end |
| CompositionSegments.RemainingFrom | Packets/FM_Markov_Java_Packet/src/framework/ds/FMCompositionSegment.java:186-194 | the answer is -1, or between 1 and some measure's length |
| CompositionSegments.RemainingFromInUniform | Packets/FM_Markov_Java_Packet/src/framework/ds/FMCompositionSegment.java:186-194 | the scan from `start` answers `len - o` for a position inside measure `i`, and -1 outside |
| CompositionSegments.RemainingInUniform | Packets/FM_Markov_Java_Packet/src/framework/ds/FMCompositionSegment.java:183-195 | with equal measures, the remaining duration `o` units into measure `i` is `len - o`, and -1 outside the segment |
| CompositionSegments.RemainingMeasureDuration | Packets/FM_Markov_Java_Packet/src/framework/ds/FMCompositionSegment.java:183-195 | -1 for a segment with no measures. Otherwise -1, or a value between 1 and some measure's length |
| LocatedNotes.SetTime | Packets/FM_Counter_Java_Packet/src/LocatedNote.java:18 | replaces the time and nothing else |
| LocatedNotes.CompareTo | Packets/FM_Counter_Java_Packet/src/LocatedNote.java:21-24 | the sign of the comparison is the order of the start times |
| LocatedNotes.CompareToIsTimeOrder | Packets/FM_Counter_Java_Packet/src/LocatedNote.java:21-24 | the comparison is reflexive, antisymmetric, transitive and total, so it can drive `Collections.sort` |
| MelodicLines.TruncatedMeanOfTwo | Packets/FM_Counter_Java_Packet/src/MelodicLineExtractor.java:49 | the Java mean of two pitches lies between them |
| MelodicLines.TruncatedMeanOfThree | Packets/FM_Counter_Java_Packet/src/MelodicLineExtractor.java:49 | the Java mean of three pitches lies between their bounds |
| MelodicLines.SmoothedPitch | Packets/FM_Counter_Java_Packet/src/MelodicLineExtractor.java:39-50 | the smoothed pitch is the window's pitch sum divided by its size (1 to 3 notes: the note and the neighbours it has), truncated toward zero. It lies between the lowest and highest pitch of the window |
| MelodicLines.WindowSumIsNeighbours | Packets/FM_Counter_Java_Packet/src/MelodicLineExtractor.java:39-50 | the window around a note is the note, its successor unless it is last, and its predecessor unless it is first |
| MelodicLines.SmoothingKeepsConstantLine | Packets/FM_Counter_Java_Packet/src/MelodicLineExtractor.java:39-50 | smoothing leaves a constant line unchanged |
| MelodicLines.ExtractPhrase | Packets/FM_Counter_Java_Packet/src/MelodicLineExtractor.java:36-55 | one located note per note, with its rhythm and start time. The pitch is the note's own, or the smoothed one |
| MelodicLines.ExtractPart | Packets/FM_Counter_Java_Packet/src/MelodicLineExtractor.java:34-57 | one located note per note of every phrase |
| MelodicLines.ExtractPartTimes | Packets/FM_Counter_Java_Packet/src/MelodicLineExtractor.java:34-57 | the extracted start times are exactly the part's note start times |
| MelodicLines.TimesOfConcat | Packets/FM_Counter_Java_Packet/src/MelodicLineExtractor.java:21-23 | the start times of joined lists are the union |
| MelodicLines.RunLength | Packets/FM_Counter_Java_Packet/src/MelodicLineExtractor.java:69-72 | the inner loop takes exactly the leading notes at the current start time |
| MelodicLines.Dedup | Packets/FM_Counter_Java_Packet/src/MelodicLineExtractor.java:64-77 | the result has strictly increasing times, is no longer than the input, and starts at the input's first time |
| MelodicLines.DedupKeepsInputNotes | Packets/FM_Counter_Java_Packet/src/MelodicLineExtractor.java:71-76 | every note kept is an input note |
| MelodicLines.DedupKeepsTimes | Packets/FM_Counter_Java_Packet/src/MelodicLineExtractor.java:64-77 | every start time is kept, and none is invented |
| MelodicLines.StrictlyIncreasingCount | Packets/FM_Counter_Java_Packet/src/MelodicLineExtractor.java:64-77 | a strictly increasing list has as many notes as distinct times |
| MelodicLines.RemoveDuplicates | Packets/FM_Counter_Java_Packet/src/MelodicLineExtractor.java:59-78 | exactly one input note per distinct start time, in increasing time order |
| MelodicLines.Extract | Packets/FM_Counter_Java_Packet/src/MelodicLineExtractor.java:18-25 | from all parts: one extracted note per distinct start time, in increasing order |
| MelodicLines.SinglePartExtraction | Packets/FM_Counter_Java_Packet/src/MelodicLineExtractor.java:18-32 | the multi-part constructor on one part extracts what the single-part one does |
| MelodicLines.ExtractedTimesOfPart | Packets/FM_Counter_Java_Packet/src/MelodicLineExtractor.java:27-32 | the single-part line has exactly the part's note start times |
| Counterpoint.ContentsAppend | Packets/FM_Counter_Java_Packet/src/CounterpointNode.java:406 | appending to a level adds exactly that note to the pool |
| Counterpoint.ContentsRemoveAt | Packets/FM_Counter_Java_Packet/src/CounterpointNode.java:405 | removing from a level removes exactly that note |
| Counterpoint.TotalIsSumOfSizes | Packets/FM_Counter_Java_Packet/src/CounterpointNode.java:15 | the pool size is the sum of the five level sizes |
| Counterpoint.QuartileIndex | Packets/FM_Counter_Java_Packet/src/CounterpointNode.java:374 | `size * 3 / 4` is a valid index of a non-empty list |
| Counterpoint.ThirdQuartilePitch | Packets/FM_Counter_Java_Packet/src/CounterpointNode.java:365-374 | the third-quartile pitch is the pitch of one of the cantus-firmus notes |
| Counterpoint.ThirdQuartileIsRankStatistic | Packets/FM_Counter_Java_Packet/src/CounterpointNode.java:365-374 | any pitch-sorted arrangement of the cantus firmus has the same pitch at index `size * 3 / 4`, so the quartile does not depend on how ties were ordered |
| Counterpoint.CreateLevelMap | Packets/FM_Counter_Java_Packet/src/CounterpointNode.java:364-383 | fails exactly on an empty cantus firmus or an index past it. Otherwise gives 24 notes, from the quartile pitch up, with the rhythm and time of the current cantus-firmus note |
| Counterpoint.Candidates | Packets/FM_Counter_Java_Packet/src/CounterpointNode.java:378-380 | the `n` notes rise chromatically from `p` |
| Counterpoint.PitchRun | Packets/FM_Counter_Java_Packet/src/CounterpointNode.java:378-380 | the pitches from `lo` below `lo + n` |
| Counterpoint.CandidatesCoverWindow | Packets/FM_Counter_Java_Packet/src/CounterpointNode.java:376-380 | the 24 candidates are distinct and cover the window [P, P + 24) exactly, so the 24-entry map loses no key |
| Counterpoint.SignTestsAreProductTests | Packets/FM_Counter_Java_Packet/src/CounterpointNode.java:172 | the sign predicates equal the rules' `a * b > 0` and `a * b < 0` tests |
| Counterpoint.TonicByStep | Packets/FM_Counter_Java_Packet/src/CounterpointNode.java:80-87 | adds 0 or 3, and 0 at the first note, which has no previous note |
| Counterpoint.MelodicIntervalRule | Packets/FM_Counter_Java_Packet/src/CounterpointNode.java:89-113 | adds 0 or 3, and 0 at the first note, which has no previous note. `DisallowedIntervalCostsThree` states when it fires |
| Counterpoint.AfterMinorSixthRule | Packets/FM_Counter_Java_Packet/src/CounterpointNode.java:115-122 | adds 0 or 3, and 0 before the third note, which needs two previous notes |
| Counterpoint.SkipSizeRule | Packets/FM_Counter_Java_Packet/src/CounterpointNode.java:124-131 | adds 0 or 3, and 0 before the third note, which needs two previous notes |
| Counterpoint.TwoSkipDissonanceRule | Packets/FM_Counter_Java_Packet/src/CounterpointNode.java:133-149 | adds 0 or 3, and 0 before the third note, which needs two previous notes |
| Counterpoint.LeapSameDirectionRule | Packets/FM_Counter_Java_Packet/src/CounterpointNode.java:168-182 | adds 0 or 3, and 0 before the third note, which needs two previous notes |
| Counterpoint.SkipThenSimilarRule | Packets/FM_Counter_Java_Packet/src/CounterpointNode.java:188-198 | adds 0 or 1, and 0 before the third note, which needs two previous notes |
| Counterpoint.NonTriadRule | Packets/FM_Counter_Java_Packet/src/CounterpointNode.java:200-212 | adds 0 or 1, and 0 before the third note, which needs two previous notes |
| Counterpoint.OctaveSpanRule | Packets/FM_Counter_Java_Packet/src/CounterpointNode.java:214-220 | adds 0 or 1, and 0 before the third note, which needs two previous notes |
| Counterpoint.SumSixRule | Packets/FM_Counter_Java_Packet/src/CounterpointNode.java:222-233 | adds 0 or 1, and 0 before the third note, which needs two previous notes |
| Counterpoint.SumScan | Packets/FM_Counter_Java_Packet/src/CounterpointNode.java:235-264 | the scan back through the history adds 0 or 1, and fires only two or more steps back |
| Counterpoint.SumTenElevenRule | Packets/FM_Counter_Java_Packet/src/CounterpointNode.java:235-264 | adds 0 or 1, and 0 before the third note, which needs two previous notes |
| Counterpoint.SimilarMotionRule | Packets/FM_Counter_Java_Packet/src/CounterpointNode.java:266-273 | adds 0 or 1, and 0 before the third note, which needs two previous notes |
| Counterpoint.WideSpacingRule | Packets/FM_Counter_Java_Packet/src/CounterpointNode.java:275-281 | adds 0 or 1 |
| Counterpoint.VoiceCrossingRule | Packets/FM_Counter_Java_Packet/src/CounterpointNode.java:283-292 | adds 0 or 1, and 0 at the first note, which has no previous note. `VoiceCrossingNeverFires` shows it is always 0 |
| Counterpoint.ParallelPerfectRule | Packets/FM_Counter_Java_Packet/src/CounterpointNode.java:294-304 | adds 0 or 1, and 0 at the first note, which has no previous note |
| Counterpoint.RepeatedParallelRule | Packets/FM_Counter_Java_Packet/src/CounterpointNode.java:306-324 | adds 0 or 1, and 0 before the third note, which needs two previous notes |
| Counterpoint.SimilarSkipsRule | Packets/FM_Counter_Java_Packet/src/CounterpointNode.java:326-333 | adds 0 or 1, and 0 at the first note, which has no previous note |
| Counterpoint.DissonanceRule | Packets/FM_Counter_Java_Packet/src/CounterpointNode.java:335-354 | adds 0 or 1, and 0 for the unison with the cantus firmus |
| Counterpoint.OutOfKeyRule | Packets/FM_Counter_Java_Packet/src/CounterpointNode.java:356-359 | adds 0 or 1, and 0 for a pitch of the key's scale |
| Counterpoint.Sort3 | Packets/FM_Counter_Java_Packet/src/CounterpointNode.java:200-212 | the three pitches in ascending order, as a permutation |
| Counterpoint.Contains | Packets/FM_Counter_Java_Packet/src/CounterpointNode.java:415-420 | true exactly when the target occurs |
| Counterpoint.NonDissonances | Packets/FM_Counter_Java_Packet/src/CounterpointNode.java:335-354 | four consonances, the first being the unison |
| Counterpoint.ForbiddenScore | Packets/FM_Counter_Java_Packet/src/CounterpointNode.java:80-182 | the forbidden rules add a multiple of 3, at most 18 |
| Counterpoint.AvoidScore | Packets/FM_Counter_Java_Packet/src/CounterpointNode.java:188-359 | the avoid rules add at most 13 |
| Counterpoint.Score | Packets/FM_Counter_Java_Packet/src/CounterpointNode.java:72-362 | the problem value is at most 31 |
| Counterpoint.ScoreAtFirstPosition | Packets/FM_Counter_Java_Packet/src/CounterpointNode.java:72-362 | at the first note only the wide-spacing, dissonance and key rules can fire, so the score is their sum, at most 3 |
| Counterpoint.DisallowedIntervalCostsThree | Packets/FM_Counter_Java_Packet/src/CounterpointNode.java:89-113 | a melodic interval outside the permitted set costs exactly 3, so the score is at least 3 |
| Counterpoint.DescendingMinorSixthPenalised | Packets/FM_Counter_Java_Packet/src/CounterpointNode.java:89-113 | the minor sixth is permitted upward only |
| Counterpoint.VoiceCrossingNeverFires | Packets/FM_Counter_Java_Packet/src/CounterpointNode.java:283-292 | the voice-crossing test multiplies two absolute values and never fires |
| Counterpoint.RepeatedPitchIsForbidden | Packets/FM_Counter_Java_Packet/src/CounterpointNode.java:89-113 | a repeated pitch (unison) costs at least 3 |
| Counterpoint.Level | Packets/FM_Counter_Java_Packet/src/CounterpointNode.java:24 | the level is `min(score, 4)` |
| Counterpoint.Place | Packets/FM_Counter_Java_Packet/src/CounterpointNode.java:24 | only the chosen level grows, by the note |
| Counterpoint.PlaceAll | Packets/FM_Counter_Java_Packet/src/CounterpointNode.java:23-25 | placing only adds: every level keeps what it held |
| Counterpoint.PlaceAllAddsCandidates | Packets/FM_Counter_Java_Packet/src/CounterpointNode.java:23-25 | placing adds exactly the candidates |
| Counterpoint.PlaceAllPlacesEach | Packets/FM_Counter_Java_Packet/src/CounterpointNode.java:23-25 | every candidate lands at the level of its score |
| Counterpoint.PlaceAllAddsOnlyCandidates | Packets/FM_Counter_Java_Packet/src/CounterpointNode.java:23-25 | a level gains only candidates scored to it |
| Counterpoint.ScoresOf | Packets/FM_Counter_Java_Packet/src/CounterpointNode.java:64-70 | one score per candidate, computed for that candidate |
| Counterpoint.LeveledPool | Packets/FM_Counter_Java_Packet/src/CounterpointNode.java:56-60 | the levels together hold exactly the 24 candidates |
| Counterpoint.LeveledPoolPlacesByScore | Packets/FM_Counter_Java_Packet/src/CounterpointNode.java:56-60 | each candidate sits at the level of its own score |
| Counterpoint.LeveledPoolHoldsOnlyItsScore | Packets/FM_Counter_Java_Packet/src/CounterpointNode.java:56-60 | a level holds only candidates whose score leads to it |
| Counterpoint.PlacedFromEmpty | Packets/FM_Counter_Java_Packet/src/CounterpointNode.java:23-25 | starting from empty levels, anything at a level is a candidate scored to it |
| Counterpoint.LeveledPoolScored | Packets/FM_Counter_Java_Packet/src/CounterpointNode.java:56-60 | every note of a freshly built pool sits at a level no lower than its score's level |
| Counterpoint.PoolLevelBoundsScore | Packets/FM_Counter_Java_Packet/src/CounterpointNode.java:56-60 | a note found within level `t` of a fresh pool has a score level of at most `t` |
| Counterpoint.RemoveAt | Packets/FM_Counter_Java_Packet/src/CounterpointNode.java:405 | removal drops exactly that one element |
| Counterpoint.MoveNote | Packets/FM_Counter_Java_Packet/src/CounterpointNode.java:405-406 | the note moves to the end of the target level, the pool's contents are kept, and the other levels are untouched |
| Counterpoint.MoveNoteDemotes | Packets/FM_Counter_Java_Packet/src/CounterpointNode.java:405-406 | moving a note up to a level at or above its own promotes no note |
| Counterpoint.NoPromotionCarries | Packets/FM_Counter_Java_Packet/src/CounterpointNode.java:402-407 | a note within level `t` after moves that promote nothing was within level `t` before them |
| Counterpoint.NoPromotionKeepsScored | Packets/FM_Counter_Java_Packet/src/CounterpointNode.java:402-407 | moves that promote nothing keep every note at or above its score's level |
| Counterpoint.Pick | Packets/FM_Counter_Java_Packet/src/CounterpointNode.java:402-407 | takes the note at the drawn position out of the level and appends it to the next level up, or to level 4 again from level 4. No other note moves, and the pool keeps its contents |
| Counterpoint.ScanLevels | Packets/FM_Counter_Java_Packet/src/CounterpointNode.java:398-401 | finds the first non-empty level up to the tolerance. Past level 4 it is out of bounds exactly when every level is empty |
| Counterpoint.SelectNote | Packets/FM_Counter_Java_Packet/src/CounterpointNode.java:395-411 | succeeds exactly when some level up to the tolerance is non-empty, and picks from the lowest such level. Throws exactly for tolerance at least 5 with an empty pool. Keeps the pool's contents. Only the drawn note moves: its level loses the note at the drawn position, the next level up gains it at its end, and every other level is unchanged |
| Counterpoint.SelectionSucceedsAtFullTolerance | Packets/FM_Counter_Java_Packet/src/CounterpointNode.java:395-411 | a non-empty pool at tolerance 4 or more always yields a pick |
| Counterpoint.SelectionTakesLowestLevel | Packets/FM_Counter_Java_Packet/src/CounterpointNode.java:398-401 | the chosen level is no higher than any level with a note |
| Counterpoint.FreshNode | Packets/FM_Counter_Java_Packet/src/CounterpointNode.java:29-38 | a new node has no selection and holds exactly the 24 candidates |
| Counterpoint.RootNode | Packets/FM_Counter_Java_Packet/src/CounterpointNode.java:18-27 | the root fails exactly on an empty cantus firmus, and otherwise holds the 24 candidates for note 0 |
| Counterpoint.SelectOn | Packets/FM_Counter_Java_Packet/src/CounterpointNode.java:395-411 | returns false, a picked node, or the exception, under the same conditions as `SelectNote`. The picked note sat at a level within the tolerance, the pool keeps its contents, and no note moves to a lower level |
| Counterpoint.SelectOnMovesOne | Packets/FM_Counter_Java_Packet/src/CounterpointNode.java:395-411 | with a note in some level within the tolerance, the selection picks. The picked node's levels are the old ones with exactly the picked note moved, from the lowest non-empty level within the tolerance to the end of the next level up |
| Counterpoint.SelectOnRespectsScores | Packets/FM_Counter_Java_Packet/src/CounterpointNode.java:395-411 | when every note sits at or above its score's level, the pick has a score level within the tolerance, and the levels stay scored |
| Counterpoint.Expand | Packets/FM_Counter_Java_Packet/src/CounterpointNode.java:48-62 | fails to pick exactly when the selection does, and throws when a pick meets a key with no scale. Otherwise the node keeps the pick, and the next node is the fresh node for the next note and the history plus the picked pitch: the 24 candidates, each at the level of its score against that history |
| CounterpointSearch.History | Packets/FM_Counter_Java_Packet/src/CounterpointNode.java:80-333 | the history is the selected pitches of the nodes before position `k` |
| CounterpointSearch.Init | Packets/FM_Counter_Java_Packet/src/CounterpointPlayer.java:40-47 | the search starts at the root with tolerance 0 and no faults, and fails exactly on an empty cantus firmus |
| CounterpointSearch.InitReady | Packets/FM_Counter_Java_Packet/src/CounterpointPlayer.java:40-47 | the initial search satisfies the search invariant, with the root's levels as its pool |
| CounterpointSearch.ScorePools | Packets/FM_Counter_Java_Packet/src/CounterpointNode.java:18-62 | there is a pool builder that agrees with the node constructors on every note and history |
| CounterpointSearch.Backtrack | Packets/FM_Counter_Java_Packet/src/CounterpointPlayer.java:68-83 | a failure counts a fault. The 30th fault raises the tolerance and resets the count. The search backs up one node unless at the root. The progress budget drops |
| CounterpointSearch.Step | Packets/FM_Counter_Java_Packet/src/CounterpointPlayer.java:51-84 | the loop body fails exactly when a pick before the last note succeeds but the key has no scale. Otherwise it advances with the same tolerance and faults, or it backtracks after a failed pick. The tolerance never decreases |
| CounterpointSearch.StepBacktracks | Packets/FM_Counter_Java_Packet/src/CounterpointPlayer.java:68-83 | a selection that finds nothing makes the step a backtrack |
| CounterpointSearch.StepPicksLast | Packets/FM_Counter_Java_Packet/src/CounterpointPlayer.java:55-57 | at the last note a successful pick replaces the node and advances |
| CounterpointSearch.StepIsExpansion | Packets/FM_Counter_Java_Packet/src/CounterpointPlayer.java:58-66 | before the last note a successful step is the expansion of the current node |
| CounterpointSearch.StepExpandShape | Packets/FM_Counter_Java_Packet/src/CounterpointPlayer.java:58-66 | a successful expansion keeps the pick and links the fresh node built for the extended history |
| CounterpointSearch.CurrentPoolIsFull | Packets/FM_Counter_Java_Packet/src/CounterpointPlayer.java:73 | the current node always holds all 24 candidates |
| CounterpointSearch.FailureOnlyBelowFullTolerance | Packets/FM_Counter_Java_Packet/src/CounterpointPlayer.java:72-76 | a failed selection happens only below tolerance 4, so the tolerance never passes 4 |
| CounterpointSearch.BacktrackKeepsReady | Packets/FM_Counter_Java_Packet/src/CounterpointPlayer.java:68-83 | backtracking keeps the search invariant |
| CounterpointSearch.TerminalPickKeepsReady | Packets/FM_Counter_Java_Packet/src/CounterpointPlayer.java:55-57 | a pick at the last note keeps the search invariant |
| CounterpointSearch.PickKeepsReady | Packets/FM_Counter_Java_Packet/src/CounterpointPlayer.java:55-57 | a pick at the last note within the tolerance that promotes nothing keeps the search invariant |
| CounterpointSearch.ReplaceLastKeepsLevels | Packets/FM_Counter_Java_Packet/src/CounterpointPlayer.java:55-57 | re-picking the last node keeps the pools, the demotions and the within-tolerance record |
| CounterpointSearch.ReplaceLastKeepsPools | Packets/FM_Counter_Java_Packet/src/CounterpointPlayer.java:55-57 | the re-picked last node keeps the pools and selections |
| CounterpointSearch.RelinkKeepsPools | Packets/FM_Counter_Java_Packet/src/CounterpointNode.java:389-393 | relinking a new next node keeps every node's pool and selection valid |
| CounterpointSearch.ExpansionKeepsReady | Packets/FM_Counter_Java_Packet/src/CounterpointPlayer.java:58-66 | an expansion keeps the search invariant |
| CounterpointSearch.ExpandKeepsReady | Packets/FM_Counter_Java_Packet/src/CounterpointPlayer.java:58-66 | an expansion whose pick is within the tolerance and whose next node is built for the extended history keeps the search invariant |
| CounterpointSearch.RelinkKeepsLevels | Packets/FM_Counter_Java_Packet/src/CounterpointNode.java:389-393 | relinking keeps the demotions and the within-tolerance record, with the new node's levels as its pool |
| CounterpointSearch.StepKeepsReady | Packets/FM_Counter_Java_Packet/src/CounterpointPlayer.java:51-84 | every surviving step keeps the search invariant |
| CounterpointSearch.FullToleranceAdvances | Packets/FM_Counter_Java_Packet/src/CounterpointPlayer.java:73 | at tolerance 4 with a non-empty scale every step advances |
| CounterpointSearch.StepOnce | Packets/FM_Counter_Java_Packet/src/CounterpointPlayer.java:51-84 | one loop iteration is exactly `Step` with that draw. It fails only before the last note with a key with no scale. Otherwise it keeps the search invariant, and either advances or backtracks below tolerance 4 |
| CounterpointSearch.RunSearch | Packets/FM_Counter_Java_Packet/src/CounterpointPlayer.java:40-94 | the loop fails exactly on an empty cantus firmus or, with two or more notes, a key with no scale. Otherwise it ends past the last note with the invariant, and the result is the line of selections. The pass count it returns is one at which `Run` with the same draws gives that finished search, or the failure |
| CounterpointSearch.RunNext | Packets/FM_Counter_Java_Packet/src/CounterpointPlayer.java:51-84 | the pass after a search that can step is `Step` of that search with the next draw |
| CounterpointSearch.RunStays | Packets/FM_Counter_Java_Packet/src/CounterpointPlayer.java:51 | a finished search is left as it is by a further pass |
| CounterpointSearch.Line | Packets/FM_Counter_Java_Packet/src/CounterpointPlayer.java:90-94 | the output holds the nodes' selections from the root along `next` |
| CounterpointSearch.FinishedLine | Packets/FM_Counter_Java_Packet/src/CounterpointPlayer.java:90-94 | a finished search gives one note per cantus-firmus note, with its rhythm and time, a pitch among the 24 candidates and a score level within the tolerance |
| CounterpointSearch.FinishedLineWithinTolerance | Packets/FM_Counter_Java_Packet/src/CounterpointPlayer.java:51-94 | each note of a finished line has a score level, against the notes before it, of at most the tolerance |
| CounterpointSearch.ExecuteHarmony | Packets/FM_Counter_Java_Packet/src/CounterpointPlayer.java:28-98 | the search terminates, and fails exactly on an empty cantus firmus or, with two or more notes, a key with no scale. The line has one note per cantus-firmus note, with its rhythm and time and a pitch among the 24 candidates. Each note's acceptance level, `min(score, 4)` scored against the notes before it, is at most the final tolerance, which is at most 4. The line and the tolerance are those of the search the draws lead to: `Run` with the same draws reaches a finished search whose selections are the line and whose tolerance is the one returned. A failure is a failure of `Run` |
| MarkovChains.Separators | Packets/FM_Markov_Java_Packet/src/IntervalMarkovChainPacket.java:93-97 | counts the `|` characters. The count is 0 exactly when there are none |
| MarkovChains.SeparatorsAppend | Packets/FM_Markov_Java_Packet/src/IntervalMarkovChainPacket.java:93-97 | the separator count adds over concatenation |
| MarkovChains.SetOrder | Packets/FM_Markov_Java_Packet/src/IntervalMarkovChainPacket.java:90-98 | an empty table throws. Otherwise the order is the number of separators in the inspected state plus 1 |
| MarkovChains.SetOrderIgnoresIterationOrder | Packets/FM_Markov_Java_Packet/src/IntervalMarkovChainPacket.java:91 | when all states have the same number of separators, it does not matter which one the iterator gives first |
| MarkovChains.StartState | Packets/FM_Markov_Java_Packet/src/IntervalMarkovChainPacket.java:119 | `order` copies of `~` joined by `|` |
| MarkovChains.StartStateSeparators | Packets/FM_Markov_Java_Packet/src/IntervalMarkovChainPacket.java:119 | the start state has `order - 1` separators |
| MarkovChains.StartStateRoundTrip | Packets/FM_Markov_Java_Packet/src/IntervalMarkovChainPacket.java:90-119 | the order read back from the start state is the order it was built for |
| MarkovChains.ShiftState | Packets/FM_Markov_Java_Packet/src/IntervalMarkovChainPacket.java:305 | the to-state ends in `|` plus the new token. A one-token from-state is kept whole |
| MarkovChains.ShiftSeparators | Packets/FM_Markov_Java_Packet/src/IntervalMarkovChainPacket.java:305 | shifting trades the first separator for the one before the token |
| MarkovChains.ShiftDropsFirstToken | Packets/FM_Markov_Java_Packet/src/IntervalMarkovChainPacket.java:305 | shifting drops exactly the first token |
| MarkovChains.ShiftKeepsOrder | Packets/FM_Markov_Java_Packet/src/IntervalMarkovChainPacket.java:305 | a from-state of order 2 or more gives a to-state of the same order |
| MarkovChains.ReadIntoTable | Packets/FM_Markov_Java_Packet/src/IntervalMarkovChainPacket.java:299-319 | fewer than three fields leave the table unchanged. An unparsable probability throws. Otherwise the row gets the shifted to-state with that probability and nothing else changes |
| MarkovChains.ReadTwiceLastWins | Packets/FM_Markov_Java_Packet/src/IntervalMarkovChainPacket.java:314-317 | a later line for the same transition overwrites the earlier probability |
| MarkovChains.LastToken | Packets/FM_Markov_Java_Packet/src/IntervalMarkovChainPacket.java:161 | the text after the last separator holds no separator, and is the whole state when there is none |
| MarkovChains.LastTokenAfterSeparator | Packets/FM_Markov_Java_Packet/src/IntervalMarkovChainPacket.java:161 | whatever follows the last separator is the last token |
| MarkovChains.LastTokenOfShift | Packets/FM_Markov_Java_Packet/src/IntervalMarkovChainPacket.java:161-305 | the token a data row appends is the one the packet later plays |
| MarkovChains.TripletStep | Packets/FM_Markov_Java_Packet/src/IntervalMarkovChainPacket.java:173-197 | inside a triplet, it plays the stored duration and counts down. Outside, a triplet length that fits starts a triplet of 2 more notes, one that does not fit plays an eighth, and anything else plays as given. Outside a triplet the counter is unchanged unless a triplet starts |
| MarkovChains.TripletSpansThreeNotes | Packets/FM_Markov_Java_Packet/src/IntervalMarkovChainPacket.java:173-197 | a triplet plays three notes of its first duration, whatever the next two say, and then ends |
| MarkovChains.AddNote | Packets/FM_Markov_Java_Packet/src/IntervalMarkovChainPacket.java:159-211 | throws exactly when the last token has no `X`, and keeps the triplet counter valid |
| MarkovChains.AddNoteReadsLastToken | Packets/FM_Markov_Java_Packet/src/IntervalMarkovChainPacket.java:159-211 | a state ending in `<offset>X<duration>` plays REST or tonic plus offset. An unparsable duration plays the tonic for no time |
| MarkovChains.AddNoteOfToken | Packets/FM_Markov_Java_Packet/src/IntervalMarkovChainPacket.java:161-204 | the same, given the last token's parsed offset |
| MarkovChains.NumberTextHasNoMarks | Packets/FM_Markov_Java_Packet/src/IntervalMarkovChainPacket.java:162-163 | a number's text holds neither `|` nor `X` |
| MarkovChains.SplitAtDurationMark | Packets/FM_Markov_Java_Packet/src/IntervalMarkovChainPacket.java:162-163 | a token splits at its last `X` into its offset text and duration text |
| SimpleSupport.PitchModeOf | Packets/FM_Support_Java_Packet/src/SimpleSupport.java:118-129 | "Low" and "Low+Alt" select their modes. Every other name, including "Basic", plays Basic |
| SimpleSupport.Minimum | Packets/FM_Support_Java_Packet/src/SimpleSupport.java:148-149 | the least element of a non-empty set |
| SimpleSupport.AscendingLists | Packets/FM_Support_Java_Packet/src/SimpleSupport.java:164-169 | the chord array holds every pitch of the set once, in increasing order |
| SimpleSupport.Lower | Packets/FM_Support_Java_Packet/src/SimpleSupport.java:171-175 | every pitch is lowered by 12 |
| SimpleSupport.LowerKeepsOrder | Packets/FM_Support_Java_Packet/src/SimpleSupport.java:171-175 | lowering keeps the ascending order |
| SimpleSupport.LowerMembers | Packets/FM_Support_Java_Packet/src/SimpleSupport.java:171-175 | the lowered chord holds exactly the pitches an octave below the chord's |
| SimpleSupport.ChordAtContents | Packets/FM_Support_Java_Packet/src/SimpleSupport.java:112-116 | the chord exists exactly when the segment gives a set. It is then ascending, and holds exactly the sounding pitches an octave down |
| SimpleSupport.ChordAt | Packets/FM_Support_Java_Packet/src/SimpleSupport.java:112-116 | a chord exists exactly when the segment gives a set of pitches at that time, and has one pitch per sounding pitch |
| SimpleSupport.SortPitches | Packets/FM_Support_Java_Packet/src/SimpleSupport.java:148 | `Arrays.sort` keeps the length |
| SimpleSupport.Voice | Packets/FM_Support_Java_Packet/src/SimpleSupport.java:143-162 | throws exactly when Low meets an empty chord, or when Low+Alt meets fewer than three pitches (two when the alternator is set). Basic plays the chord, Low one pitch, Low+Alt two. Only Low+Alt flips the alternator |
| SimpleSupport.VoiceTakesRanks | Packets/FM_Support_Java_Packet/src/SimpleSupport.java:147-162 | Low plays the lowest pitch. Low+Alt plays the lowest pitch with the third-lowest, or with the second-lowest when the alternator is set |
| SimpleSupport.LowPlaysMinimum | Packets/FM_Support_Java_Packet/src/SimpleSupport.java:147-151 | the Low pitch is in the chord and no higher than any pitch of it |
| SimpleSupport.LowAltAlternates | Packets/FM_Support_Java_Packet/src/SimpleSupport.java:156-162 | on an ascending chord, Low+Alt alternates between ranks 3 and 2 |
| SimpleSupport.StepMod | Packets/FM_Support_Java_Packet/src/SimpleSupport.java:104 | moving the grid start one beat on keeps the later beats |
| SimpleSupport.OffBeat | Packets/FM_Support_Java_Packet/src/SimpleSupport.java:104 | nothing strictly between two beats is a beat |
| SimpleSupport.BeatsFromKeys | Packets/FM_Support_Java_Packet/src/SimpleSupport.java:104-106 | the keys are exactly the grid points before the duration, each with one beat's length |
| SimpleSupport.BeatsFrom | Packets/FM_Support_Java_Packet/src/SimpleSupport.java:104-106 | every key lies between the start and the duration and maps to one beat |
| SimpleSupport.Beat | Packets/FM_Support_Java_Packet/src/SimpleSupport.java:103 | the beat is positive and divides the whole note exactly `denominator` times |
| SimpleSupport.PartRhythmIsBeatGrid | Packets/FM_Support_Java_Packet/src/SimpleSupport.java:99-109 | Beat mode gives the beat grid over the segment's duration. Any other mode gives the segment's rhythm |
| SimpleSupport.PlayFollowsOnsets | Packets/FM_Support_Java_Packet/src/SimpleSupport.java:111-130 | one event per onset, at that onset, with the rhythm's duration |
| SimpleSupport.Play | Packets/FM_Support_Java_Packet/src/SimpleSupport.java:111-130 | one event per onset, the first at the first onset with the rhythm's duration there |
| SimpleSupport.PlayStep | Packets/FM_Support_Java_Packet/src/SimpleSupport.java:111-130 | an onset plays the voicing of the chord there, then the rest of the part |
| SimpleSupport.PlayVoicesChords | Packets/FM_Support_Java_Packet/src/SimpleSupport.java:111-130 | each event plays a voicing of the chord at its onset |
| SimpleSupport.CreatePartFollowsRhythm | Packets/FM_Support_Java_Packet/src/SimpleSupport.java:93-141 | a part has one event per rhythm onset, in time order, covering every onset with its duration |
| SimpleSupport.EventsOnOnsets | Packets/FM_Support_Java_Packet/src/SimpleSupport.java:111 | events on the ascending onsets cover the rhythm in time order |
| SimpleSupport.MemoComplete | Packets/FM_Support_Java_Packet/src/SimpleSupport.java:77-89 | after the last occurrence there is one part per occurrence. Occurrences of one segment share a part. Every segment was generated once. Each part was made from its segment, the first with the alternator clear |
| SimpleSupport.OccurrenceMade | Packets/FM_Support_Java_Packet/src/SimpleSupport.java:77-82 | an occurrence plays the part generated at its segment's first occurrence, so it is `createPart` of its own segment; the very first occurrence's part starts from the clear alternator |
| SimpleSupport.AlternatorsChain | Packets/FM_Support_Java_Packet/src/SimpleSupport.java:48 | the alternator starts clear, and each generated part starts from the value the previous one left |
| SimpleSupport.ChainComplete | Packets/FM_Support_Java_Packet/src/SimpleSupport.java:77-81 | each generated part is `createPart` of the segment it was generated at, from the alternator recorded for it, leaving the next one recorded |
| SimpleSupport.RunMemo | Packets/FM_Support_Java_Packet/src/SimpleSupport.java:77-89 | when `createPart` succeeds for every segment under both alternator settings, the loop finishes, with its memo invariant |
| SimpleSupport.Execute | Packets/FM_Support_Java_Packet/src/SimpleSupport.java:72-91 | succeeds when `createPart` succeeds for every segment under both alternator settings. One part per occurrence, and one generation per distinct segment, at its first occurrence and in occurrence order. Occurrences of one segment get the same part. The generated parts form a chain: the first starts with the alternator clear, each later one starts from the alternator the previous one left, and each is exactly `createPart` of its segment from that alternator |

## Left out

- Random numbers. Every draw is a parameter: `draws` in `CounterpointSearch.ExecuteHarmony`, `pick` in `MelodicLines`. So the model covers every possible draw sequence, not `java.util.Random` specifically.
- jMusic (`Note`, `Phrase`, `Part`, `Pitches`). A phrase is a list of (pitch, rhythm, start) triples. The pitch constants are a `PitchTable` parameter and REST is an `int` parameter. `Phrase.getNoteStartTime`, `addChord`, the tempo, instrument and numerator setters, and the jmTime accumulation in `CounterpointPlayer` are not modelled.
- Doubles are reals. NaN, -0.0 and rounding are not modelled, and `Double.compareTo` on ordinary values is the real order.
- The counterpoint rule functions state the weight they add and when they cannot fire (too little history, the unison, a scale pitch), not their full firing condition. That condition is each function's body, taken from the cited rule lines; the score lemmas above pin down its effect. One line per rule follows.
- Counterpoint.TonicByStep: the contract does not state the firing condition (CounterpointNode.java:80-87).
- Counterpoint.MelodicIntervalRule: the contract does not state the firing condition; `DisallowedIntervalCostsThree` states it (CounterpointNode.java:89-113).
- Counterpoint.AfterMinorSixthRule: the contract does not state the firing condition (CounterpointNode.java:115-122).
- Counterpoint.SkipSizeRule: the contract does not state the firing condition (CounterpointNode.java:124-131).
- Counterpoint.TwoSkipDissonanceRule: the contract does not state the firing condition (CounterpointNode.java:133-149).
- Counterpoint.LeapSameDirectionRule: the contract does not state the firing condition (CounterpointNode.java:168-182).
- Counterpoint.SkipThenSimilarRule: the contract does not state the firing condition (CounterpointNode.java:188-198).
- Counterpoint.NonTriadRule: the contract does not state the firing condition (CounterpointNode.java:200-212).
- Counterpoint.OctaveSpanRule: the contract does not state the firing condition (CounterpointNode.java:214-220).
- Counterpoint.SumSixRule: the contract does not state the firing condition (CounterpointNode.java:222-233).
- Counterpoint.SumScan: the contract does not state the firing condition (CounterpointNode.java:235-264).
- Counterpoint.SumTenElevenRule: the contract does not state the firing condition (CounterpointNode.java:235-264).
- Counterpoint.SimilarMotionRule: the contract does not state the firing condition (CounterpointNode.java:266-273).
- Counterpoint.WideSpacingRule: the contract does not state the firing condition (CounterpointNode.java:275-281).
- Counterpoint.VoiceCrossingRule: the contract does not state the firing condition; `VoiceCrossingNeverFires` shows it is always 0 (CounterpointNode.java:283-292).
- Counterpoint.ParallelPerfectRule: the contract does not state the firing condition (CounterpointNode.java:294-304).
- Counterpoint.RepeatedParallelRule: the contract does not state the firing condition (CounterpointNode.java:306-324).
- Counterpoint.SimilarSkipsRule: the contract does not state the firing condition (CounterpointNode.java:326-333).
- Counterpoint.DissonanceRule: the contract does not state the firing condition (CounterpointNode.java:335-354).
- Counterpoint.OutOfKeyRule: the contract does not state the firing condition (CounterpointNode.java:356-359).
- The begin/end rule at CounterpointNode.java:151-166 is commented out in the source, so it is not part of the score.
- `Counterpoint.SelectNote` draws its index as `draw % size`, because `rng.nextInt(size)` is uniform and unseeded. The candidates' HashMap and HashSet iteration order becomes list order for the same reason: the draw may pick any position.
- `CounterpointPlayer.executeMelody` / `executeSupport` (they only throw), and the composition lookup and `PacketPart` plumbing in `executeHarmony`. The cantus firmus and the key are parameters. The `System.err` logging is left out.
- MarkovChains: the weighted draw `selectNote` and its key-preferring reweighting `adjustToPreferKey` work on floats and a random number, so they are not modelled. The same goes for `loadMarkovChainData` (file I/O), the `execute` loop over segments (jMusic phrases and float positions) and the `JOptionPane` options.
- MarkovChains.ReadIntoTable takes the line already split at ", ". The `Scanner` and its locale-dependent `nextFloat` become a token list and a `parseFloat` parameter.
- MarkovChains.AddNote: the triplet test (`Math.round(duration / 0.0833…)` in 1, 2, 4, 8) and the "fits in the measure" test are parameters. They depend on double rounding and on `getFMRhythmValue`, which is not part of this model. `tonic + offset` is not wrapped to 32 bits.
- MarkovChains.SetOrder iterates a HashMap key set, so the state it inspects is unspecified. The model takes the first element of a list, and `SetOrderIgnoresIterationOrder` shows the choice does not matter for well-formed tables.
- SimpleSupport: `loadOptions` (a file) becomes the two mode-name parameters. `getJMRhythmValue` and the phrase start-time accumulation in `execute` (doubles over jMusic phrases) are not modelled, and neither is the `System.err` chord logging. A `null` mode string (NullPointerException) is not modelled.
- SimpleSupport.Execute requires a valid time-signature denominator for Beat mode, because `WHOLE_NOTE / denominator` throws for 0. The source cannot build a segment with an invalid denominator (`CompositionSegments.AddMeasureKeepsValidDenominator`).
- SimpleSupport: the chord comes from a HashSet whose iteration order is unspecified. It is listed in ascending order; Low and Low+Alt sort it anyway, and Basic plays the same set.
- JavaLang.Abs: returns the true absolute value. Java's `Math.abs(Integer.MIN_VALUE)` is `Integer.MIN_VALUE`, which is negative; the rules reach it only for a pitch difference of exactly -2^31.
- JavaLang.ParseInt: accepts only the ASCII digits '0'..'9'. Java's `Character.digit` also accepts the other Unicode decimal digits (such as '٤' or '４'), so those strings fail here and parse in Java; the same holds for `TimeSignatures.ParseTimeSignature`.
- DiatonicKeys.FromIntervals: the seven steps are added without wrap-around. Java's `int` sum wraps, so it accepts for example `[2147483647, 2147483647, 14, 0, 0, 0, 0]` (the sum wraps to 12), which the model rejects.
- MelodicLines.SmoothedPitch: the sum of up to three pitches is not wrapped to 32 bits. In Java, pitches large enough for the sum to overflow give a mean outside the window, so the "between" claim holds only for sums inside the `int` range.
- Counterpoint.VoiceCrossingRule: the product of the two absolute intervals is not wrapped. Java's `int` product wraps negative once it passes 2^31-1 (for example 65536 × 32768), so for very distant pitches the Java rule can fire.
- Counterpoint.VoiceCrossingNeverFires: holds in unbounded arithmetic only, for the reason given for `VoiceCrossingRule`.
- Counterpoint.SimilarSkipsRule: pitch differences are not wrapped. With a cantus-firmus pitch of large magnitude (REST is `Integer.MIN_VALUE`), Java's subtraction wraps and the rule can decide differently.
- Counterpoint.WideSpacingRule: the difference `p - cf` is not wrapped, for the same reason as `SimilarSkipsRule`.
- Counterpoint.DissonanceRule: the difference and its `Math.abs` are not wrapped, for the same reason as `SimilarSkipsRule`.
- Counterpoint.ParallelPerfectRule: the differences and their `Math.abs` are not wrapped, for the same reason as `SimilarSkipsRule`.
- Counterpoint.RepeatedParallelRule: the differences and their `Math.abs` are not wrapped, for the same reason as `SimilarSkipsRule`.
- SimpleSupport.Lower: `a[j] -= 12` is not wrapped. In Java it wraps for a pitch below `Integer.MIN_VALUE + 12`, for example REST in a chord.
- Counterpoint.CreateLevelMap: the 24 pitches `thirdPitchQuartile + i` are not wrapped. In Java they wrap for a quartile pitch above `Integer.MAX_VALUE - 23` (CounterpointNode.java:379).
- FMNotes.SetPitch, FMNotes.SetDuration, FMNotes.SetTiedToNext: the setters return a changed copy. In Java they mutate the note object, so a note already stored in a measure and then changed would change the measure as well. No caller in the modelled source changes a note after storing it.
- Measures.NewMeasure: the length is computed with unbounded integers. `num * 384` can overflow 32 bits for numerators above 5592405; that is not modelled.
- CompositionSegments.Duration: `length * count` is not wrapped to 32 bits.
- Exception messages: a library exception's `Fail` carries its class name, not the JDK's message text.
- `FMPacketWrapper`, `FMDriverModule`, `FMControlModule`, `PacketPart` and `JSONNote` are the packet framework and serialisation, not the musical core. `FMComposition` is not part of this model; its `getRhythmValue` conversions and segment lookup are parameters where needed.
- Getters that only return a field (`getTempo`, `getKeySignature`, `getMeasures`, `getNumMeasures`, the time-signature and interval getters) are the datatype's fields.

=== FILE: counterpoint_node.dfy ===
/**
 * CounterpointNode: one position of the counterpoint line being built against
 * a cantus firmus. A node holds 24 chromatic candidates sorted into five
 * acceptance levels by how many voice-leading rules each breaks, and the
 * candidate it has currently selected.
 */
module Counterpoint {
  import opened Results
  import opened JavaLang
  import opened LocatedNotes
  import opened Sorting
  import opened KeySignatures

  /** Number of acceptance levels (`leveledOptions.length`). */
  const LEVELS: nat := 5
  /** Number of candidates in every pool. */
  const POOL_SIZE: nat := 24

  /** The five acceptance levels; level i holds the candidates scored i (level 4: 4 or more). */
  type Buckets = b: seq<seq<LocatedNote>> | |b| == LEVELS witness [[], [], [], [], []]

  function EmptyBuckets(): Buckets { [[], [], [], [], []] }

  /** Everything in a list of levels, with multiplicity. */
  function Flatten(s: seq<seq<LocatedNote>>): multiset<LocatedNote>
  {
    if |s| == 0 then multiset{} else multiset(s[0]) + Flatten(s[1..])
  }

  /** Everything in the five levels, with multiplicity. */
  function Contents(b: Buckets): multiset<LocatedNote>
  {
    Flatten(b)
  }

  /** Number of candidates over all levels. */
  function Total(b: Buckets): nat
  {
    |Contents(b)|
  }

  /** Replacing one level changes the flattened contents by exactly that level's difference. */
  lemma {:induction false} FlattenUpdate(s: seq<seq<LocatedNote>>, i: nat, t: seq<LocatedNote>)
    requires i < |s|
    ensures Flatten(s[i := t]) + multiset(s[i]) == Flatten(s) + multiset(t)
  {
    if i > 0 {
      FlattenUpdate(s[1..], i - 1, t);
      assert s[i := t][1..] == s[1..][i - 1 := t];
      assert s[i := t][0] == s[0] && s[1..][i - 1] == s[i];
      var a, x, y, z, u := multiset(s[0]), Flatten(s[1..][i - 1 := t]), multiset(s[i]), Flatten(s[1..]), multiset(t);
      assert Flatten(s[i := t]) == a + x;
      assert Flatten(s) == a + z;
      assert x + y == z + u;
      forall e ensures (a + x + y)[e] == (a + z + u)[e] {
        assert (x + y)[e] == (z + u)[e];
      }
    } else {
      assert s[i := t][1..] == s[1..];
    }
  }

  lemma ContentsUpdate(b: Buckets, i: nat, s: seq<LocatedNote>)
    requires i < LEVELS
    ensures Contents(b[i := s]) + multiset(b[i]) == Contents(b) + multiset(s)
  {
    FlattenUpdate(b, i, s);
  }

  /** Appending to one level adds exactly that note. */
  lemma ContentsAppend(b: Buckets, d: nat, x: LocatedNote)
    requires d < LEVELS
    ensures Contents(b[d := b[d] + [x]]) == Contents(b) + multiset{x}
  {
    var c := b[d := b[d] + [x]];
    ContentsUpdate(b, d, b[d] + [x]);
    assert multiset(b[d] + [x]) == multiset(b[d]) + multiset{x};
    forall y ensures Contents(c)[y] == (Contents(b) + multiset{x})[y] {
      assert (Contents(c) + multiset(b[d]))[y] == Contents(c)[y] + multiset(b[d])[y];
    }
  }

  /** Removing one note from a level removes exactly that note. */
  lemma ContentsRemoveAt(b: Buckets, i: nat, k: nat)
    requires i < LEVELS && k < |b[i]|
    ensures Contents(b[i := RemoveAt(b[i], k)]) + multiset{b[i][k]} == Contents(b)
  {
    var rest := RemoveAt(b[i], k);
    ContentsUpdate(b, i, rest);
    var lhs := Contents(b[i := rest]) + multiset{b[i][k]};
    assert lhs + multiset(rest) == Contents(b) + multiset(rest);
    forall x ensures lhs[x] == Contents(b)[x] {
      assert (lhs + multiset(rest))[x] == lhs[x] + multiset(rest)[x];
    }
  }

  lemma TotalIsSumOfSizes(b: Buckets)
    ensures Total(b) == |b[0]| + |b[1]| + |b[2]| + |b[3]| + |b[4]|
  {
    assert Flatten(b[4..]) == multiset(b[4]) + Flatten(b[5..]);
    assert Flatten(b[3..]) == multiset(b[3]) + Flatten(b[4..]);
    assert Flatten(b[2..]) == multiset(b[2]) + Flatten(b[3..]);
    assert Flatten(b[1..]) == multiset(b[1]) + Flatten(b[2..]);
  }

  /** A node: its acceptance levels and its selection (`null` until one is made). */
  datatype Node = Node(options: Buckets, selection: Option<LocatedNote>)

  // ---------------------------------------------------------------------
  // The candidate pool (createLevelMap)
  // ---------------------------------------------------------------------

  function PitchKey(n: LocatedNote): real { n.pitch as real }

  /** Index of the third quartile in a list of `n` pitches, `n * 3 / 4` (Java division, n >= 0). */
  function QuartileIndex(n: nat): (k: nat)
    ensures n > 0 ==> k < n
  {
    n * 3 / 4
  }

  /** The pitch at index `size * 3 / 4` of the cantus firmus sorted by pitch. */
  function ThirdQuartilePitch(cf: seq<LocatedNote>): (r: int)
    requires |cf| > 0
    ensures exists i :: 0 <= i < |cf| && cf[i].pitch == r
  {
    var sorted := SortBy(cf, PitchKey);
    SortByKeepsElements(cf, PitchKey);
    assert sorted[QuartileIndex(|cf|)] in sorted;
    sorted[QuartileIndex(|cf|)].pitch
  }

  /**
   * The pivot does not depend on how the sort breaks ties: it is the pitch at
   * the quartile index of ANY pitch-sorted arrangement of the cantus firmus.
   */
  lemma ThirdQuartileIsRankStatistic(cf: seq<LocatedNote>, sorted: seq<LocatedNote>)
    requires |cf| > 0
    requires SortedBy(sorted, PitchKey) && multiset(sorted) == multiset(cf)
    ensures |sorted| == |cf|
    ensures sorted[QuartileIndex(|cf|)].pitch == ThirdQuartilePitch(cf)
  {
    var mine := SortBy(cf, PitchKey);
    SortBySorts(cf, PitchKey);
    SortedPermutationsAgree(sorted, mine, PitchKey);
    var k := QuartileIndex(|cf|);
    assert PitchKey(sorted[k]) == PitchKey(mine[k]);
  }

  /**
   * `createLevelMap`: 24 candidates, chromatically upward from the third-quartile
   * pitch, each with the rhythm value and time of cantus-firmus note `idx`. An
   * empty cantus firmus or an index past its end is an IndexOutOfBoundsException.
   */
  function CreateLevelMap(cf: seq<LocatedNote>, idx: nat): (r: Result<seq<LocatedNote>>)
    ensures r.Fail? <==> |cf| == 0 || idx >= |cf|
    ensures r.Ok? ==> |r.value| == POOL_SIZE
    ensures r.Ok? ==> forall i :: 0 <= i < POOL_SIZE ==>
      r.value[i] == LocatedNote(ThirdQuartilePitch(cf) + i, cf[idx].rhythm, cf[idx].time)
  {
    if |cf| == 0 || idx >= |cf| then Fail("IndexOutOfBoundsException")
    else Ok(Candidates(ThirdQuartilePitch(cf), cf[idx].rhythm, cf[idx].time, POOL_SIZE))
  }

  /** The `n` notes chromatically upward from pitch `p`, all with the given rhythm value and time. */
  function Candidates(p: int, rhythm: real, time: real, n: nat): (r: seq<LocatedNote>)
    ensures |r| == n
    ensures forall i :: 0 <= i < n ==> r[i] == LocatedNote(p + i, rhythm, time)
  {
    if n == 0 then [] else Candidates(p, rhythm, time, n - 1) + [LocatedNote(p + n - 1, rhythm, time)]
  }

  /** The `n` pitches from `lo` upward. */
  function PitchRun(lo: int, n: nat): (r: set<int>)
    ensures forall p :: p in r <==> lo <= p < lo + n
  {
    if n == 0 then {} else PitchRun(lo, n - 1) + {lo + n - 1}
  }

  /** The pitches from `lo` up to, not including, `lo + 24`. */
  function PitchWindow(lo: int): set<int>
  {
    PitchRun(lo, POOL_SIZE)
  }

  /** The candidates are 24 distinct notes, one for each pitch of the window [P, P + 24). */
  lemma CandidatesCoverWindow(cf: seq<LocatedNote>, idx: nat)
    requires idx < |cf|
    ensures var c := CreateLevelMap(cf, idx).value;
            (forall i, j :: 0 <= i < j < |c| ==> c[i] != c[j]) &&
            (set n | n in c :: n.pitch) == PitchWindow(ThirdQuartilePitch(cf))
  {
    var c := CreateLevelMap(cf, idx).value;
    var lo := ThirdQuartilePitch(cf);
    forall p | p in PitchWindow(lo) ensures p in set n | n in c :: n.pitch {
      assert c[p - lo] in c;
    }
  }

  // ---------------------------------------------------------------------
  // Scoring (getNoteProblemValue)
  // ---------------------------------------------------------------------

  /**
   * What a candidate is scored against: the cantus firmus, the position, the
   * key, and the pitches selected at positions 0 .. index-1 (the `prev` chain,
   * root first).
   */
  predicate ScoreContext(cf: seq<LocatedNote>, index: nat, key: Key, hist: seq<int>)
  {
    index < |cf| && |hist| == index && (index != 0 ==> |key.scale| > 0)
  }

  /** The rules' `a * b > 0` test: two motions in the same direction. */
  predicate SameDirection(a: int, b: int)
  {
    (a > 0 && b > 0) || (a < 0 && b < 0)
  }

  /** The rules' `a * b < 0` test: two motions in opposite directions. */
  predicate NegativeProduct(a: int, b: int)
  {
    (a > 0 && b < 0) || (a < 0 && b > 0)
  }

  /** The sign tests above are exactly the product tests the rules are written with. */
  lemma SignTestsAreProductTests(a: int, b: int)
    ensures SameDirection(a, b) <==> a * b > 0
    ensures NegativeProduct(a, b) <==> a * b < 0
  {
    if a > 0 && b > 0 { MulPositive(a, b); }
    if a < 0 && b < 0 { MulPositive(-a, -b); }
    if a > 0 && b < 0 { MulPositive(a, -b); }
    if a < 0 && b > 0 { MulPositive(-a, b); }
  }

  lemma MulPositive(a: int, b: int)
    requires a > 0 && b > 0
    ensures a * b > 0
  {
  }

  /** Melodic intervals the rules allow: seconds, thirds, fourth, fifth and octave either way, ascending minor sixth. */
  predicate PermittedMelodicInterval(iv: int)
  {
    iv in {1, 2, 3, 4, 5, 7, 12, -1, -2, -3, -4, -5, -7, -12, 8}
  }

  /** +3: the tonic must be approached by step (at most 2 semitones). */
  function TonicByStep(key: Key, hist: seq<int>, index: nat, p: int): (r: nat)
    requires |hist| == index && (index != 0 ==> |key.scale| > 0)
    ensures r == 0 || r == 3
    ensures index == 0 ==> r == 0
  {
    if index != 0 && Tonic(key) == p && Abs(hist[index - 1] - p) > 2 then 3 else 0
  }

  /** +3: a melodic interval outside the permitted set. */
  function MelodicIntervalRule(hist: seq<int>, index: nat, p: int): (r: nat)
    requires |hist| == index
    ensures r == 0 || r == 3
    ensures index == 0 ==> r == 0
  {
    if index != 0 && !PermittedMelodicInterval(p - hist[index - 1]) then 3 else 0
  }

  /** +3: ascending again right after an ascending minor sixth. */
  function AfterMinorSixthRule(hist: seq<int>, index: nat, p: int): (r: nat)
    requires |hist| == index
    ensures r == 0 || r == 3
    ensures index < 2 ==> r == 0
  {
    if index >= 2 && hist[index - 1] - hist[index - 2] == 8 && p - hist[index - 1] > 0 then 3 else 0
  }

  /** +3: after a skip, a skip as large or larger. */
  function SkipSizeRule(hist: seq<int>, index: nat, p: int): (r: nat)
    requires |hist| == index
    ensures r == 0 || r == 3
    ensures index < 2 ==> r == 0
  {
    if index >= 2 then
      var prevIv := Abs(hist[index - 1] - hist[index - 2]);
      var iv := Abs(p - hist[index - 1]);
      if prevIv > 2 && iv >= prevIv then 3 else 0
    else 0
  }

  /** +3: two skips whose combined size is not consonant (7, 8, 9 or 12). */
  function TwoSkipDissonanceRule(hist: seq<int>, index: nat, p: int): (r: nat)
    requires |hist| == index
    ensures r == 0 || r == 3
    ensures index < 2 ==> r == 0
  {
    if index >= 2 then
      var prevIv := Abs(hist[index - 1] - hist[index - 2]);
      var iv := Abs(p - hist[index - 1]);
      if prevIv > 2 && iv > 2 && (prevIv + iv) !in {7, 8, 9, 12} then 3 else 0
    else 0
  }

  /** +3: a fifth or octave leap in the same direction as the previous motion. */
  function LeapSameDirectionRule(hist: seq<int>, index: nat, p: int): (r: nat)
    requires |hist| == index
    ensures r == 0 || r == 3
    ensures index < 2 ==> r == 0
  {
    if index >= 2 then
      var prevIv := hist[index - 1] - hist[index - 2];
      var iv := p - hist[index - 1];
      if SameDirection(prevIv, iv) && iv in {7, 12, -7, -12} then 3 else 0
    else 0
  }

  /** +1: motion in the same direction right after a skip. */
  function SkipThenSimilarRule(hist: seq<int>, index: nat, p: int): (r: nat)
    requires |hist| == index
    ensures r == 0 || r == 1
    ensures index < 2 ==> r == 0
  {
    if index >= 2 then
      var prevIv := hist[index - 1] - hist[index - 2];
      var iv := p - hist[index - 1];
      if SameDirection(prevIv, iv) && (prevIv > 2 || prevIv < -2) then 1 else 0
    else 0
  }

  /** The three pitches in ascending order (`Collections.sort` on a three-element list). */
  function Sort3(a: int, b: int, c: int): (r: (int, int, int))
    ensures r.0 <= r.1 <= r.2
    ensures multiset{r.0, r.1, r.2} == multiset{a, b, c}
  {
    if a <= b then
      if b <= c then (a, b, c) else if a <= c then (a, c, b) else (c, a, b)
    else
      if a <= c then (b, a, c) else if b <= c then (b, c, a) else (c, b, a)
  }

  /** +1: the last two pitches and the candidate, sorted, are not stacked thirds. */
  function NonTriadRule(hist: seq<int>, index: nat, p: int): (r: nat)
    requires |hist| == index
    ensures r == 0 || r == 1
    ensures index < 2 ==> r == 0
  {
    if index >= 2 then
      var s := Sort3(hist[index - 2], hist[index - 1], p);
      var iv1 := s.1 - s.0;
      var iv2 := s.2 - s.1;
      if (iv1 != 3 && iv1 != 4) || (iv2 != 3 && iv2 != 4) then 1 else 0
    else 0
  }

  /** +1: two intervals spanning more than an octave. */
  function OctaveSpanRule(hist: seq<int>, index: nat, p: int): (r: nat)
    requires |hist| == index
    ensures r == 0 || r == 1
    ensures index < 2 ==> r == 0
  {
    if index >= 2 && Abs(p - hist[index - 2]) > 12 then 1 else 0
  }

  /** +1: similar motion whose two intervals add up to 6 either way. */
  function SumSixRule(hist: seq<int>, index: nat, p: int): (r: nat)
    requires |hist| == index
    ensures r == 0 || r == 1
    ensures index < 2 ==> r == 0
  {
    if index >= 2 then
      var prevIv := hist[index - 1] - hist[index - 2];
      var iv := p - hist[index - 1];
      if SameDirection(prevIv, iv) && (iv + prevIv == 6 || iv + prevIv == -6) then 1 else 0
    else 0
  }

  /**
   * The backward scan of the "sum 10 or 11" rule, from the node at position
   * `c` of the history, with the running interval total `sum`. Each step adds
   * the interval into the node before `c`; the scan stops without penalty when
   * the two intervals around that node have the same direction or the total
   * exceeds 11, and with a penalty when the total is ±10 or ±11.
   */
  function SumScan(hist: seq<int>, c: nat, sum: int): (r: nat)
    requires c < |hist|
    ensures r == 0 || r == 1
    ensures r == 1 ==> c >= 2
    decreases c
  {
    if c < 2 then 0
    else
      var iv := hist[c] - hist[c - 1];
      var prevIv := hist[c - 1] - hist[c - 2];
      var s := sum + prevIv;
      if SameDirection(iv, prevIv) || s > 11 then 0
      else if s == 10 || s == 11 || s == -10 || s == -11 then 1
      else SumScan(hist, c - 1, s)
  }

  /** +1: similar motion summing below 10 that, followed backwards, totals 10 or 11. */
  function SumTenElevenRule(hist: seq<int>, index: nat, p: int): (r: nat)
    requires |hist| == index
    ensures r == 0 || r == 1
    ensures index < 2 ==> r == 0
  {
    if index >= 2 then
      var prevIv := hist[index - 1] - hist[index - 2];
      var iv := p - hist[index - 1];
      if SameDirection(iv, prevIv) && iv + prevIv < 10 then SumScan(hist, index - 1, iv + prevIv) else 0
    else 0
  }

  /** +1: similar motion. */
  function SimilarMotionRule(hist: seq<int>, index: nat, p: int): (r: nat)
    requires |hist| == index
    ensures r == 0 || r == 1
    ensures index < 2 ==> r == 0
  {
    if index >= 2 && SameDirection(p - hist[index - 1], hist[index - 1] - hist[index - 2]) then 1 else 0
  }

  /** +1: more than 16 semitones between the parts. */
  function WideSpacingRule(cf: seq<LocatedNote>, index: nat, p: int): (r: nat)
    requires index < |cf|
    ensures r == 0 || r == 1
  {
    if Abs(p - cf[index].pitch) > 16 then 1 else 0
  }

  /**
   * +1 "voice crossing": the product of the two absolute intervals is checked
   * for a negative sign.
   */
  function VoiceCrossingRule(cf: seq<LocatedNote>, hist: seq<int>, index: nat, p: int): (r: int)
    requires index < |cf| && |hist| == index
    ensures r == 0 || r == 1
    ensures index == 0 ==> r == 0
  {
    if index != 0 && NegativeProduct(Abs(hist[0] - cf[0].pitch), Abs(p - cf[index].pitch)) then 1 else 0
  }

  /** +1: a fourth, fifth or octave upward keeping the same (absolute) distance to the cantus firmus. */
  function ParallelPerfectRule(cf: seq<LocatedNote>, hist: seq<int>, index: nat, p: int): (r: nat)
    requires index < |cf| && |hist| == index
    ensures r == 0 || r == 1
    ensures index == 0 ==> r == 0
  {
    if index != 0 then
      var iv := p - hist[index - 1];
      var prevDist := Abs(hist[index - 1] - cf[index - 1].pitch);
      var dist := Abs(p - cf[index].pitch);
      if (iv == 5 || iv == 7 || iv == 12) && prevDist == dist then 1 else 0
    else 0
  }

  /** +1: three equal distances to the cantus firmus moving by equal thirds or sixths. */
  function RepeatedParallelRule(cf: seq<LocatedNote>, hist: seq<int>, index: nat, p: int): (r: nat)
    requires index < |cf| && |hist| == index
    ensures r == 0 || r == 1
    ensures index < 2 ==> r == 0
  {
    if index >= 2 then
      var iv := Abs(p - hist[index - 1]);
      var prevIv := Abs(hist[index - 1] - hist[index - 2]);
      var dist2 := Abs(hist[index - 2] - cf[index - 2].pitch);
      var dist1 := Abs(hist[index - 1] - cf[index - 1].pitch);
      var dist := Abs(p - cf[index].pitch);
      if dist == dist1 && dist1 == dist2 && iv == prevIv && iv in {3, 4, 8, 9} then 1 else 0
    else 0
  }

  /** +1: both parts skip upward together. */
  function SimilarSkipsRule(cf: seq<LocatedNote>, hist: seq<int>, index: nat, p: int): (r: nat)
    requires index < |cf| && |hist| == index
    ensures r == 0 || r == 1
    ensures index == 0 ==> r == 0
  {
    if index != 0 then
      var iv := p - hist[index - 1];
      var cfIv := cf[index].pitch - cf[index - 1].pitch;
      if iv > 2 && cfIv > 2 && SameDirection(iv, cfIv) then 1 else 0
    else 0
  }

  /** `contains`: a linear scan for `target`. */
  function Contains(arr: seq<int>, target: int): (r: bool)
    ensures r <==> exists i :: 0 <= i < |arr| && arr[i] == target
  {
    if |arr| == 0 then false
    else if arr[0] == target then true
    else
      var rest := Contains(arr[1..], target);
      assert forall i :: 1 <= i < |arr| ==> arr[i] == arr[1..][i - 1];
      rest
  }

  /**
   * The consonant intervals above the tonic: unison, and the third, fifth and
   * sixth scale degrees when the scale has them (a missing one stays 0).
   */
  function NonDissonances(key: Key): (r: seq<int>)
    ensures |r| == 4 && r[0] == 0
  {
    var s := |key.scale|;
    [0,
     if s >= 3 then NthPitch(key, 2) - NthPitch(key, 0) else 0,
     if s >= 5 then NthPitch(key, 4) - NthPitch(key, 0) else 0,
     if s >= 6 then NthPitch(key, 5) - NthPitch(key, 0) else 0]
  }

  /** +1: the distance to the cantus firmus, mod 12, is not one of the consonances. */
  function DissonanceRule(cf: seq<LocatedNote>, key: Key, index: nat, p: int): (r: nat)
    requires index < |cf|
    ensures r == 0 || r == 1
    ensures p == cf[index].pitch ==> r == 0
  {
    var interval := Abs(p - cf[index].pitch) % 12;
    if !Contains(NonDissonances(key), interval) then 1 else 0
  }

  /** +1: the candidate is not in the key. */
  function OutOfKeyRule(key: Key, p: int): (r: nat)
    ensures r == 0 || r == 1
    ensures p in key.scale ==> r == 0
  {
    if !MatchesKey(key, p) then 1 else 0
  }

  /** The +3 ("forbidden") part of the score. */
  function ForbiddenScore(key: Key, hist: seq<int>, index: nat, p: int): (r: nat)
    requires |hist| == index && (index != 0 ==> |key.scale| > 0)
    ensures r % 3 == 0 && r <= 18
  {
    TonicByStep(key, hist, index, p) + MelodicIntervalRule(hist, index, p)
    + AfterMinorSixthRule(hist, index, p) + SkipSizeRule(hist, index, p)
    + TwoSkipDissonanceRule(hist, index, p) + LeapSameDirectionRule(hist, index, p)
  }

  /** The +1 ("avoid") part of the score. */
  function AvoidScore(cf: seq<LocatedNote>, key: Key, hist: seq<int>, index: nat, p: int): (r: nat)
    requires index < |cf| && |hist| == index
    ensures r <= 13
  {
    SkipThenSimilarRule(hist, index, p) + NonTriadRule(hist, index, p)
    + OctaveSpanRule(hist, index, p) + SumSixRule(hist, index, p)
    + SumTenElevenRule(hist, index, p) + SimilarMotionRule(hist, index, p)
    + WideSpacingRule(cf, index, p) + VoiceCrossingRule(cf, hist, index, p)
    + ParallelPerfectRule(cf, hist, index, p) + RepeatedParallelRule(cf, hist, index, p)
    + SimilarSkipsRule(cf, hist, index, p) + DissonanceRule(cf, key, index, p)
    + OutOfKeyRule(key, p)
  }

  /** `getNoteProblemValue`: the number of rule violations, forbidden ones counting 3. */
  function Score(cf: seq<LocatedNote>, index: nat, key: Key, hist: seq<int>, n: LocatedNote): (r: nat)
    requires ScoreContext(cf, index, key, hist)
    ensures r <= 31
  {
    ForbiddenScore(key, hist, index, n.pitch) + AvoidScore(cf, key, hist, index, n.pitch)
  }

  /**
   * At the first position only the three history-free rules can fire (spacing,
   * dissonance, key), so the score is at most 3.
   */
  lemma ScoreAtFirstPosition(cf: seq<LocatedNote>, key: Key, n: LocatedNote)
    requires |cf| > 0
    ensures Score(cf, 0, key, [], n) ==
      WideSpacingRule(cf, 0, n.pitch) + DissonanceRule(cf, key, 0, n.pitch) + OutOfKeyRule(key, n.pitch)
    ensures Score(cf, 0, key, [], n) <= 3
  {
  }

  /** A melodic interval outside the permitted set costs exactly 3 through its rule, so the score is at least 3. */
  lemma DisallowedIntervalCostsThree(cf: seq<LocatedNote>, index: nat, key: Key, hist: seq<int>, n: LocatedNote)
    requires ScoreContext(cf, index, key, hist) && index != 0
    ensures MelodicIntervalRule(hist, index, n.pitch) == (if PermittedMelodicInterval(n.pitch - hist[index - 1]) then 0 else 3)
    ensures !PermittedMelodicInterval(n.pitch - hist[index - 1]) ==> Score(cf, index, key, hist, n) >= 3
  {
  }

  /** The minor sixth is allowed upward only: a descending minor sixth is penalised. */
  lemma DescendingMinorSixthPenalised(cf: seq<LocatedNote>, index: nat, key: Key, hist: seq<int>, n: LocatedNote)
    requires ScoreContext(cf, index, key, hist) && index != 0
    requires n.pitch - hist[index - 1] == -8
    ensures Score(cf, index, key, hist, n) >= 3
    ensures PermittedMelodicInterval(8)
  {
    assert !PermittedMelodicInterval(-8);
  }

  /** The voice-crossing test multiplies two absolute values, which is never negative: the rule never fires. */
  lemma VoiceCrossingNeverFires(cf: seq<LocatedNote>, hist: seq<int>, index: nat, p: int)
    requires index < |cf| && |hist| == index
    ensures VoiceCrossingRule(cf, hist, index, p) == 0
  {
  }

  /** A repeated pitch is a unison: allowed by neither interval table, so it costs 3. */
  lemma RepeatedPitchIsForbidden(cf: seq<LocatedNote>, index: nat, key: Key, hist: seq<int>, n: LocatedNote)
    requires ScoreContext(cf, index, key, hist) && index != 0
    requires n.pitch == hist[index - 1]
    ensures Score(cf, index, key, hist, n) >= 3
  {
    assert !PermittedMelodicInterval(0);
  }

  // ---------------------------------------------------------------------
  // Placing candidates into levels
  // ---------------------------------------------------------------------

  /** The level a score goes to, `Math.min(score, 4)`. */
  function Level(score: nat): (l: nat)
    ensures l < LEVELS
    ensures l == score || (l == LEVELS - 1 && score >= LEVELS - 1)
  {
    if score < LEVELS - 1 then score else LEVELS - 1
  }

  /** `leveledOptions[level].add(n)`. */
  function Place(b: Buckets, n: LocatedNote, level: nat): (r: Buckets)
    requires level < LEVELS
    ensures forall j :: 0 <= j < LEVELS ==> r[j] == (if j == level then b[j] + [n] else b[j])
  {
    b[level := b[level] + [n]]
  }

  /**
   * Adds each candidate, in order, to the level of its score. `scores[k]` is
   * the score of `cands[k]`.
   */
  function PlaceAll(b: Buckets, cands: seq<LocatedNote>, scores: seq<nat>): (r: Buckets)
    requires |scores| == |cands|
    ensures forall j :: 0 <= j < LEVELS ==> b[j] <= r[j]
  {
    if |cands| == 0 then b
    else
      var last := |cands| - 1;
      Place(PlaceAll(b, cands[..last], scores[..last]), cands[last], Level(scores[last]))
  }

  /** Placing adds exactly the candidates. */
  lemma {:induction false} PlaceAllAddsCandidates(b: Buckets, cands: seq<LocatedNote>, scores: seq<nat>)
    requires |scores| == |cands|
    ensures Contents(PlaceAll(b, cands, scores)) == Contents(b) + multiset(cands)
    decreases |cands|
  {
    if |cands| > 0 {
      var last := |cands| - 1;
      var init := PlaceAll(b, cands[..last], scores[..last]);
      PlaceAllAddsCandidates(b, cands[..last], scores[..last]);
      ContentsAppend(init, Level(scores[last]), cands[last]);
      assert cands == cands[..last] + [cands[last]];
    }
  }

  /** Every candidate lands at the level of its score. */
  lemma {:induction false} PlaceAllPlacesEach(b: Buckets, cands: seq<LocatedNote>, scores: seq<nat>, k: nat)
    requires |scores| == |cands| && k < |cands|
    ensures cands[k] in PlaceAll(b, cands, scores)[Level(scores[k])]
    decreases |cands|
  {
    var last := |cands| - 1;
    var init := PlaceAll(b, cands[..last], scores[..last]);
    var level := Level(scores[k]);
    var added := Level(scores[last]);
    assert PlaceAll(b, cands, scores) == Place(init, cands[last], added);
    if k < last {
      PlaceAllPlacesEach(b, cands[..last], scores[..last], k);
      assert cands[..last][k] == cands[k] && scores[..last][k] == scores[k];
      assert cands[k] in init[level];
      if level == added {
        assert Place(init, cands[last], added)[level] == init[level] + [cands[last]];
      }
    } else {
      assert Place(init, cands[last], added)[level] == init[level] + [cands[last]];
    }
  }

  /** A level gains nothing but the candidates scored to it. */
  lemma {:induction false} PlaceAllAddsOnlyCandidates(b: Buckets, cands: seq<LocatedNote>, scores: seq<nat>, j: nat, x: LocatedNote)
    requires |scores| == |cands| && j < LEVELS
    requires x in PlaceAll(b, cands, scores)[j]
    ensures x in b[j] || exists k :: 0 <= k < |cands| && cands[k] == x && Level(scores[k]) == j
    decreases |cands|
  {
    if |cands| > 0 {
      var last := |cands| - 1;
      var init := PlaceAll(b, cands[..last], scores[..last]);
      var added := Level(scores[last]);
      assert PlaceAll(b, cands, scores) == Place(init, cands[last], added);
      assert Place(init, cands[last], added)[j] == if j == added then init[j] + [cands[last]] else init[j];
      if x in init[j] {
        PlaceAllAddsOnlyCandidates(b, cands[..last], scores[..last], j, x);
        if x !in b[j] {
          var k :| 0 <= k < last && cands[..last][k] == x && Level(scores[..last][k]) == j;
          assert cands[k] == x && Level(scores[k]) == j;
        }
      } else {
        assert cands[last] == x && Level(scores[last]) == j;
      }
    }
  }

  /** The scores of the candidates at a position. */
  function ScoresOf(cf: seq<LocatedNote>, index: nat, key: Key, hist: seq<int>, cands: seq<LocatedNote>): (r: seq<nat>)
    requires ScoreContext(cf, index, key, hist)
    ensures |r| == |cands|
    ensures forall k :: 0 <= k < |cands| ==> r[k] == Score(cf, index, key, hist, cands[k])
  {
    seq(|cands|, k requires 0 <= k < |cands| => Score(cf, index, key, hist, cands[k]))
  }

  /**
   * The acceptance levels of a node at `index` (the constructor for the root,
   * `expand` for the next node): the pool, scored against the history, each
   * candidate at the level of its score.
   */
  function LeveledPool(cf: seq<LocatedNote>, index: nat, key: Key, hist: seq<int>): (r: Buckets)
    requires ScoreContext(cf, index, key, hist)
    ensures Total(r) == POOL_SIZE
    ensures Contents(r) == multiset(CreateLevelMap(cf, index).value)
  {
    var cands := CreateLevelMap(cf, index).value;
    var r := PlaceAll(EmptyBuckets(), cands, ScoresOf(cf, index, key, hist, cands));
    PlaceAllAddsCandidates(EmptyBuckets(), cands, ScoresOf(cf, index, key, hist, cands));
    assert Contents(EmptyBuckets()) == multiset{};
    r
  }

  /** Every candidate sits at the level `min(score, 4)` of its own score. */
  lemma LeveledPoolPlacesByScore(cf: seq<LocatedNote>, index: nat, key: Key, hist: seq<int>, k: nat)
    requires ScoreContext(cf, index, key, hist) && k < POOL_SIZE
    ensures CreateLevelMap(cf, index).value[k] in
      LeveledPool(cf, index, key, hist)[Level(Score(cf, index, key, hist, CreateLevelMap(cf, index).value[k]))]
  {
    var cands := CreateLevelMap(cf, index).value;
    var scores := ScoresOf(cf, index, key, hist, cands);
    PlaceAllPlacesEach(EmptyBuckets(), cands, scores, k);
  }

  /** A level holds nothing but candidates whose score leads to it. */
  lemma LeveledPoolHoldsOnlyItsScore(cf: seq<LocatedNote>, index: nat, key: Key, hist: seq<int>, j: nat, x: LocatedNote)
    requires ScoreContext(cf, index, key, hist) && j < LEVELS
    requires x in LeveledPool(cf, index, key, hist)[j]
    ensures x in CreateLevelMap(cf, index).value
    ensures Level(Score(cf, index, key, hist, x)) == j
  {
    var cands := CreateLevelMap(cf, index).value;
    var scores := ScoresOf(cf, index, key, hist, cands);
    var k := PlacedFromEmpty(cands, scores, j, x);
    assert scores[k] == Score(cf, index, key, hist, x);
  }

  /** Starting from empty levels, whatever a level holds is a candidate scored to it. */
  lemma PlacedFromEmpty(cands: seq<LocatedNote>, scores: seq<nat>, j: nat, x: LocatedNote) returns (k: nat)
    requires |scores| == |cands| && j < LEVELS
    requires x in PlaceAll(EmptyBuckets(), cands, scores)[j]
    ensures k < |cands| && cands[k] == x && Level(scores[k]) == j
  {
    PlaceAllAddsOnlyCandidates(EmptyBuckets(), cands, scores, j, x);
    assert x !in EmptyBuckets()[j];
    k :| 0 <= k < |cands| && cands[k] == x && Level(scores[k]) == j;
  }

  // ---------------------------------------------------------------------
  // Selection (selectNote)
  // ---------------------------------------------------------------------

  /**
   * The result of `selectNote`: a pick (the reordered levels, the note, its
   * level and the drawn position within that level), false, or the
   * out-of-bounds exception past level 4.
   */
  datatype Selection =
    | Picked(options: Buckets, note: LocatedNote, level: nat, position: nat)
    | NothingWithin
    | LevelOutOfRange

  /** The level a picked note moves to, `Math.min(i + 1, 4)`. */
  function Demote(level: nat): nat
  {
    if level + 1 < LEVELS then level + 1 else LEVELS - 1
  }

  /** The sequence without its element at position `k` (`ArrayList.remove(k)`). */
  function RemoveAt(s: seq<LocatedNote>, k: nat): (r: seq<LocatedNote>)
    requires k < |s|
    ensures |r| == |s| - 1
    ensures multiset(r) + multiset{s[k]} == multiset(s)
  {
    assert s == s[..k] + [s[k]] + s[k + 1..];
    s[..k] + s[k + 1..]
  }

  /**
   * `after` is `b` with one note of level `i` (any position) moved to the end
   * of the level `Demote(i)`, and `note` is that note: nothing else moves.
   */
  predicate MovedOne(b: Buckets, i: nat, note: LocatedNote, after: Buckets)
  {
    && i < LEVELS
    && exists k :: 0 <= k < |b[i]| && note == b[i][k] && after == MoveNote(b, i, k, Demote(i))
  }

  /** Moves the note at position `k` of level `i` to the end of level `d`. */
  function MoveNote(b: Buckets, i: nat, k: nat, d: nat): (r: Buckets)
    requires i < LEVELS && d < LEVELS && k < |b[i]|
    ensures Contents(r) == Contents(b)
    ensures r[d] == (if d == i then RemoveAt(b[i], k) else b[d]) + [b[i][k]]
    ensures d != i ==> r[i] == RemoveAt(b[i], k)
    ensures forall j :: 0 <= j < LEVELS && j != i && j != d ==> r[j] == b[j]
  {
    var note := b[i][k];
    var b1 := b[i := RemoveAt(b[i], k)];
    ContentsRemoveAt(b, i, k);
    ContentsAppend(b1, d, note);
    b1[d := b1[d] + [note]]
  }

  /**
   * Takes the note at position `draw mod size` out of level `i` (the random
   * index: any position) and appends it to the next level.
   */
  function Pick(b: Buckets, i: nat, draw: nat): (r: Selection)
    requires i < LEVELS && |b[i]| > 0
    ensures r.Picked? && r.level == i && r.note in b[i]
    ensures Contents(r.options) == Contents(b)
    ensures |r.options[Demote(i)]| > 0 && r.options[Demote(i)][|r.options[Demote(i)]| - 1] == r.note
    ensures forall j :: 0 <= j < LEVELS && j != i && j != Demote(i) ==> r.options[j] == b[j]
    ensures NoPromotion(b, r.options)
    ensures r.position < |b[i]| && r.note == b[i][r.position] && r.options == MoveNote(b, i, r.position, Demote(i))
  {
    var k := draw % |b[i]|;
    MoveNoteDemotes(b, i, k, Demote(i));
    Picked(MoveNote(b, i, k, Demote(i)), b[i][k], i, k)
  }

  /** `x` sits somewhere in levels 0 .. t. */
  predicate WithinLevel(b: Buckets, t: nat, x: LocatedNote)
  {
    exists i :: 0 <= i <= t && i < LEVELS && x in b[i]
  }

  /** No note of `after` sits at a lower level than it did in `before`. */
  predicate NoPromotion(before: Buckets, after: Buckets)
  {
    forall j, x :: 0 <= j < LEVELS && x in after[j] ==> WithinLevel(before, j, x)
  }

  /** Leaving the levels as they are promotes nothing. */
  lemma NoPromotionReflexive(b: Buckets)
    ensures NoPromotion(b, b)
  {
    forall j, x | 0 <= j < LEVELS && x in b[j] ensures WithinLevel(b, j, x) {
      assert x in b[j];
    }
  }

  /** A note within level `t` after moves that promote nothing was within level `t` before them. */
  lemma NoPromotionCarries(before: Buckets, after: Buckets, t: nat, x: LocatedNote)
    requires NoPromotion(before, after) && WithinLevel(after, t, x)
    ensures WithinLevel(before, t, x)
  {
    var i :| 0 <= i <= t && i < LEVELS && x in after[i];
    assert WithinLevel(before, i, x);
    var h :| 0 <= h <= i && h < LEVELS && x in before[h];
  }

  /** Moves that promote nothing, one after another, promote nothing. */
  lemma NoPromotionTransitive(a: Buckets, b: Buckets, c: Buckets)
    requires NoPromotion(a, b) && NoPromotion(b, c)
    ensures NoPromotion(a, c)
  {
    forall j, x | 0 <= j < LEVELS && x in c[j] ensures WithinLevel(a, j, x) {
      assert WithinLevel(b, j, x);
      NoPromotionCarries(a, b, j, x);
    }
  }

  /** What remains after a removal was there before. */
  lemma RemoveAtHasOnly(s: seq<LocatedNote>, k: nat, x: LocatedNote)
    requires k < |s| && x in RemoveAt(s, k)
    ensures x in s
  {
    assert x in multiset(RemoveAt(s, k));
  }

  /** Moving a note to a level at or above its own promotes nothing. */
  lemma MoveNoteDemotes(b: Buckets, i: nat, k: nat, d: nat)
    requires i < LEVELS && d < LEVELS && k < |b[i]| && i <= d
    ensures NoPromotion(b, MoveNote(b, i, k, d))
  {
    var r := MoveNote(b, i, k, d);
    forall j, x | 0 <= j < LEVELS && x in r[j] ensures WithinLevel(b, j, x) {
      if j == d && x == b[i][k] {
        assert x in b[i];
      } else if j == d {
        assert x in (if d == i then RemoveAt(b[i], k) else b[d]);
        if d == i { RemoveAtHasOnly(b[i], k, x); }
        assert x in b[d];
      } else if j == i {
        RemoveAtHasOnly(b[i], k, x);
        assert x in b[i];
      } else {
        assert x in b[j];
      }
    }
  }

  /** Where the level scan of `selectNote` stops. */
  datatype Scan = FoundAt(level: nat) | Exhausted | PastLastLevel

  /** The loop of `selectNote` from level `i` up to the tolerance: the first non-empty level. */
  function ScanLevels(b: Buckets, i: nat, t: nat): (r: Scan)
    requires i <= LEVELS
    ensures r.FoundAt? <==> exists j :: i <= j < LEVELS && j <= t && |b[j]| > 0
    ensures r.PastLastLevel? <==> t >= LEVELS && forall j :: i <= j < LEVELS ==> |b[j]| == 0
    ensures r.FoundAt? ==> i <= r.level <= t && r.level < LEVELS && |b[r.level]| > 0
    ensures r.FoundAt? ==> forall j :: i <= j < r.level ==> |b[j]| == 0
    decreases t + 1 - i
  {
    if i > t then Exhausted
    else if i == LEVELS then PastLastLevel
    else if |b[i]| == 0 then ScanLevels(b, i + 1, t)
    else FoundAt(i)
  }

  /**
   * `selectNote(t)`: picks from the lowest non-empty level at or below `t` and
   * demotes the pick one level; false when levels 0..t are all empty; an
   * ArrayIndexOutOfBoundsException when `t` reaches past level 4 with all five
   * levels empty.
   */
  function SelectNote(b: Buckets, t: nat, draw: nat): (r: Selection)
    ensures r.Picked? <==> exists j :: 0 <= j < LEVELS && j <= t && |b[j]| > 0
    ensures r.LevelOutOfRange? <==> t >= LEVELS && Total(b) == 0
    ensures r.Picked? ==> r.level <= t && r.level < LEVELS && |b[r.level]| > 0 && r.note in b[r.level]
    ensures r.Picked? ==> forall j :: 0 <= j < r.level ==> |b[j]| == 0
    ensures r.Picked? ==> Contents(r.options) == Contents(b) && Total(r.options) == Total(b)
    ensures r.Picked? ==> |r.options[Demote(r.level)]| > 0 && r.options[Demote(r.level)][|r.options[Demote(r.level)]| - 1] == r.note
    ensures r.Picked? ==> forall j :: 0 <= j < LEVELS && j != r.level && j != Demote(r.level) ==> r.options[j] == b[j]
    ensures r.Picked? ==> NoPromotion(b, r.options)
    ensures r.Picked? ==> r.level < LEVELS && r.position < |b[r.level]| && r.note == b[r.level][r.position]
    ensures r.Picked? && r.level < LEVELS - 1 ==>
      r.options[r.level] == RemoveAt(b[r.level], r.position) && r.options[r.level + 1] == b[r.level + 1] + [r.note]
    ensures r.Picked? && r.level == LEVELS - 1 ==> r.options[r.level] == RemoveAt(b[r.level], r.position) + [r.note]
  {
    TotalIsSumOfSizes(b);
    match ScanLevels(b, 0, t)
    case FoundAt(level) => Pick(b, level, draw)
    case Exhausted => NothingWithin
    case PastLastLevel => LevelOutOfRange
  }

  /** With a non-empty pool and tolerance at least 4, selection always picks and never leaves the five levels. */
  lemma SelectionSucceedsAtFullTolerance(b: Buckets, t: nat, draw: nat)
    requires Total(b) > 0 && t >= LEVELS - 1
    ensures SelectNote(b, t, draw).Picked?
  {
    TotalIsSumOfSizes(b);
    var j :| 0 <= j < LEVELS && |b[j]| > 0;
  }

  /**
   * Selection respects the scores: the pick has the least score level among
   * the non-empty levels, so no candidate of a lower level was passed over.
   */
  lemma SelectionTakesLowestLevel(b: Buckets, t: nat, draw: nat, x: LocatedNote, j: nat)
    requires SelectNote(b, t, draw).Picked?
    requires j < LEVELS && x in b[j]
    ensures SelectNote(b, t, draw).level <= j
  {
  }

  // ---------------------------------------------------------------------
  // Nodes (constructor, expand, selectTerminalNote)
  // ---------------------------------------------------------------------

  /**
   * A node at `index` whose candidates are scored against the selections
   * `hist` before it, with nothing selected yet.
   */
  function FreshNode(cf: seq<LocatedNote>, index: nat, key: Key, hist: seq<int>): (r: Node)
    requires ScoreContext(cf, index, key, hist)
    ensures r.selection.None?
    ensures Contents(r.options) == multiset(CreateLevelMap(cf, index).value)
    ensures Total(r.options) == POOL_SIZE
  {
    Node(LeveledPool(cf, index, key, hist), None)
  }

  /**
   * Every note of every level scores at most that level: the invariant the
   * levels of a node keep while selections move notes upward.
   */
  predicate LevelsScored(cf: seq<LocatedNote>, index: nat, key: Key, hist: seq<int>, b: Buckets)
    requires ScoreContext(cf, index, key, hist)
  {
    forall j, x :: 0 <= j < LEVELS && x in b[j] ==> Level(Score(cf, index, key, hist, x)) <= j
  }

  /** A fresh pool keeps every candidate at the level of its own score. */
  lemma LeveledPoolScored(cf: seq<LocatedNote>, index: nat, key: Key, hist: seq<int>)
    requires ScoreContext(cf, index, key, hist)
    ensures LevelsScored(cf, index, key, hist, LeveledPool(cf, index, key, hist))
  {
    var b := LeveledPool(cf, index, key, hist);
    forall j, x | 0 <= j < LEVELS && x in b[j] ensures Level(Score(cf, index, key, hist, x)) <= j {
      LeveledPoolHoldsOnlyItsScore(cf, index, key, hist, j, x);
    }
  }

  /** A note within level `t` of a fresh pool scores within `t`. */
  lemma PoolLevelBoundsScore(cf: seq<LocatedNote>, index: nat, key: Key, hist: seq<int>, t: nat, x: LocatedNote)
    requires ScoreContext(cf, index, key, hist)
    requires WithinLevel(LeveledPool(cf, index, key, hist), t, x)
    ensures Level(Score(cf, index, key, hist, x)) <= t
  {
    var i :| 0 <= i <= t && i < LEVELS && x in LeveledPool(cf, index, key, hist)[i];
    LeveledPoolHoldsOnlyItsScore(cf, index, key, hist, i, x);
  }

  /** Moves that promote nothing keep the levels scored. */
  lemma NoPromotionKeepsScored(cf: seq<LocatedNote>, index: nat, key: Key, hist: seq<int>, b: Buckets, after: Buckets)
    requires ScoreContext(cf, index, key, hist)
    requires LevelsScored(cf, index, key, hist, b) && NoPromotion(b, after)
    ensures LevelsScored(cf, index, key, hist, after)
  {
    forall j, x | 0 <= j < LEVELS && x in after[j] ensures Level(Score(cf, index, key, hist, x)) <= j {
      assert WithinLevel(b, j, x);
      var i :| 0 <= i <= j && i < LEVELS && x in b[i];
    }
  }

  /** The public constructor: the root node, for the first cantus-firmus note. */
  function RootNode(cf: seq<LocatedNote>, key: Key): (r: Result<Node>)
    ensures r.Fail? <==> |cf| == 0
    ensures r.Ok? ==> r.value.selection.None? && Total(r.value.options) == POOL_SIZE
    ensures r.Ok? ==> Contents(r.value.options) == multiset(CreateLevelMap(cf, 0).value)
  {
    if |cf| == 0 then Fail("IndexOutOfBoundsException")
    else Ok(FreshNode(cf, 0, key, []))
  }

  /**
   * `selectNote` on a node: the node with its levels reordered and its
   * selection set, `None` for false (the node is untouched), or the
   * exception past level 4.
   */
  function SelectOn(n: Node, t: nat, draw: nat): (r: Result<Option<Node>>)
    ensures r.Fail? <==> t >= LEVELS && Total(n.options) == 0
    ensures r == Ok(None) <==> t < LEVELS && forall j :: 0 <= j <= t ==> |n.options[j]| == 0
    ensures r.Ok? && r.value.Some? ==>
      r.value.value.selection.Some? && r.value.value.selection.value in Contents(n.options) &&
      Contents(r.value.value.options) == Contents(n.options)
    ensures r.Ok? && r.value.Some? ==>
      r.value.value.selection.Some? && WithinLevel(n.options, t, r.value.value.selection.value) &&
      NoPromotion(n.options, r.value.value.options)
  {
    match SelectNote(n.options, t, draw)
    case LevelOutOfRange => Fail("ArrayIndexOutOfBoundsException")
    case NothingWithin => Ok(None)
    case Picked(options, note, level, _) =>
      assert note in Contents(n.options) by { FlattenHas(n.options, level, note); }
      assert note in n.options[level];
      Ok(Some(Node(options, Some(note))))
  }

  /**
   * With a note within the tolerance, selection on a node picks, and moves
   * exactly the drawn note: out of the lowest non-empty level within the
   * tolerance and onto the end of the next level up (level 4 stays at 4).
   */
  lemma SelectOnMovesOne(n: Node, t: nat, draw: nat)
    requires exists j :: 0 <= j < LEVELS && j <= t && |n.options[j]| > 0
    ensures SelectOn(n, t, draw).Ok? && SelectOn(n, t, draw).value.Some?
    ensures
      var after := SelectOn(n, t, draw).value.value;
      && after.selection.Some?
      && exists i ::
        && 0 <= i < LEVELS && i <= t && (forall j :: 0 <= j < i ==> |n.options[j]| == 0)
        && MovedOne(n.options, i, after.selection.value, after.options)
  {
    var sel := SelectNote(n.options, t, draw);
    assert sel.Picked?;
    assert MovedOne(n.options, sel.level, sel.note, sel.options) by {
      assert sel.note == n.options[sel.level][sel.position];
    }
  }

  /**
   * Selection honours the scores: on levels that keep every note at or above
   * its score's level, the pick scores within the tolerance and the levels
   * left behind still keep the invariant.
   */
  lemma SelectOnRespectsScores(n: Node, t: nat, draw: nat, cf: seq<LocatedNote>, index: nat, key: Key, hist: seq<int>)
    requires ScoreContext(cf, index, key, hist) && LevelsScored(cf, index, key, hist, n.options)
    requires SelectOn(n, t, draw).Ok? && SelectOn(n, t, draw).value.Some?
    ensures var picked := SelectOn(n, t, draw).value.value;
      picked.selection.Some? &&
      Level(Score(cf, index, key, hist, picked.selection.value)) <= t &&
      LevelsScored(cf, index, key, hist, picked.options)
  {
    var picked := SelectOn(n, t, draw).value.value;
    var i :| 0 <= i <= t && i < LEVELS && picked.selection.value in n.options[i];
    NoPromotionKeepsScored(cf, index, key, hist, n.options, picked.options);
  }

  /** A note of a level is in the contents. */
  lemma {:induction false} FlattenHas(s: seq<seq<LocatedNote>>, i: nat, x: LocatedNote)
    requires i < |s| && x in s[i]
    ensures x in Flatten(s)
  {
    if i > 0 {
      FlattenHas(s[1..], i - 1, x);
      assert s[1..][i - 1] == s[i];
    }
  }

  /** What `expand` leaves: the node with its selection, and the new next node. */
  datatype Expansion = Expansion(self: Node, next: Node)

  /**
   * `expand` at position `index` (not the last): select a note; on success
   * link a fresh next node scored against the selections so far, `hist` plus
   * the new pick. Scoring the next node asks for the tonic, which an empty
   * scale does not have.
   */
  function Expand(n: Node, cf: seq<LocatedNote>, index: nat, t: nat, key: Key, hist: seq<int>, draw: nat): (r: Result<Option<Expansion>>)
    requires index + 1 < |cf| && |hist| == index
    ensures r == Ok(None) <==> SelectOn(n, t, draw) == Ok(None)
    ensures r.Fail? <==> SelectOn(n, t, draw).Fail? || (SelectOn(n, t, draw).value.Some? && |key.scale| == 0)
    ensures r.Ok? && r.value.Some? ==>
      Some(r.value.value.self) == SelectOn(n, t, draw).value &&
      r.value.value.next.selection.None? &&
      Contents(r.value.value.next.options) == multiset(CreateLevelMap(cf, index + 1).value)
    ensures r.Ok? && r.value.Some? ==>
      |key.scale| > 0 && r.value.value.self.selection.Some? &&
      r.value.value.next == FreshNode(cf, index + 1, key, hist + [r.value.value.self.selection.value.pitch])
  {
    match SelectOn(n, t, draw)
    case Fail(e) => Fail(e)
    case Ok(None) => Ok(None)
    case Ok(Some(picked)) =>
      if |key.scale| == 0 then Fail("ArrayIndexOutOfBoundsException")
      else Ok(Some(Expansion(picked, FreshNode(cf, index + 1, key, hist + [picked.selection.value.pitch]))))
  }
}

=== FILE: counterpoint_player.dfy ===
/**
 * CounterpointPlayer: the backtracking search that builds a counterpoint line
 * one node per cantus-firmus note, lowering its standards (raising the
 * tolerance) after every 30 failed selections.
 */
module CounterpointSearch {
  import opened Results
  import opened LocatedNotes
  import opened KeySignatures
  import opened Counterpoint

  /** Failed selections tolerated before the tolerance goes up. */
  const FAILURE_THRESHOLD: nat := 30
  /** The highest tolerance the search can reach: level 4 always has a candidate. */
  const MAX_TOLERANCE: nat := LEVELS - 1

  /**
   * The state of the search: the chain of nodes reachable from the root
   * (`frames[k]` is the node for cantus-firmus note k), the current node's
   * position, the tolerance and the fault counter.
   */
  datatype Search = Search(frames: seq<Node>, index: nat, tolerance: nat, faults: nat)

  /** The pitches selected at positions 0 .. k-1: what the rules see through `prev`. */
  function History(frames: seq<Node>, k: nat): (r: seq<int>)
    requires k <= |frames| && forall i :: 0 <= i < k ==> frames[i].selection.Some?
    ensures |r| == k
    ensures forall i {:trigger r[i]} :: 0 <= i < k ==> r[i] == frames[i].selection.value.pitch
  {
    seq(k, i requires 0 <= i < k => frames[i].selection.value.pitch)
  }

  /** Node k holds exactly the candidates for cantus-firmus note k. */
  predicate PoolsMatch(cf: seq<LocatedNote>, frames: seq<Node>)
    requires |frames| <= |cf|
  {
    forall k :: 0 <= k < |frames| ==> Contents(frames[k].options) == multiset(CreateLevelMap(cf, k).value)
  }

  /** A node's selection is one of its own candidates. */
  predicate SelectionsFromPools(frames: seq<Node>)
  {
    forall k :: 0 <= k < |frames| && frames[k].selection.Some? ==>
      frames[k].selection.value in Contents(frames[k].options)
  }

  /** Every node before position `index` has a selection. */
  predicate SelectedBefore(frames: seq<Node>, index: nat)
    requires index <= |frames|
  {
    forall k :: 0 <= k < index ==> frames[k].selection.Some?
  }

  /** The shape of the chain: every node but the last has a selection, and without a scale there is only the root. */
  predicate Chained(cf: seq<LocatedNote>, key: Key, frames: seq<Node>)
  {
    && 0 < |frames| <= |cf|
    && SelectedBefore(frames, |frames| - 1)
    && (|key.scale| == 0 ==> |frames| == 1)
  }

  /**
   * `pools[k]` is the levels node k was built with: `poolOf` applied to k and
   * the selections of the nodes before it, the pitches the rules reach
   * through `prev`.
   */
  ghost predicate PoolsFromHistory(frames: seq<Node>, pools: seq<Buckets>, poolOf: (nat, seq<int>) -> Buckets)
    requires 0 < |frames| && SelectedBefore(frames, |frames| - 1)
  {
    && |pools| == |frames|
    && forall k :: 0 <= k < |frames| ==> pools[k] == poolOf(k, History(frames, k))
  }

  /** `poolOf` builds the levels of a node the way the node constructors do. */
  ghost predicate PoolMaker(cf: seq<LocatedNote>, key: Key, poolOf: (nat, seq<int>) -> Buckets)
  {
    forall k: nat, h: seq<int> {:trigger LeveledPool(cf, k, key, h)} ::
      ScoreContext(cf, k, key, h) ==> poolOf(k, h) == LeveledPool(cf, k, key, h)
  }

  /** Since it was built, no node has moved a note to a lower level. */
  predicate OnlyDemoted(frames: seq<Node>, pools: seq<Buckets>)
    requires |pools| == |frames|
  {
    forall k :: 0 <= k < |frames| ==> NoPromotion(pools[k], frames[k].options)
  }

  /** Every selection before position `index` was on a level of its node within the tolerance. */
  predicate ChosenWithin(s: Search, pools: seq<Buckets>)
    requires s.index <= |s.frames| && |pools| == |s.frames| && SelectedBefore(s.frames, s.index)
  {
    forall k :: 0 <= k < s.index ==> WithinLevel(pools[k], s.tolerance, s.frames[k].selection.value)
  }

  /** The shape of the search between steps: the chain, the position, the tolerance and the fault count. */
  predicate Shaped(cf: seq<LocatedNote>, key: Key, s: Search)
  {
    && Chained(cf, key, s.frames)
    && s.index <= |cf|
    && (s.index < |cf| ==> s.index < |s.frames|)
    && (s.index == |cf| ==> |s.frames| == |cf|)
    && PoolsMatch(cf, s.frames)
    && SelectionsFromPools(s.frames)
    && SelectedBefore(s.frames, s.index)
    && s.tolerance <= MAX_TOLERANCE
    && s.faults < FAILURE_THRESHOLD
    && (|key.scale| == 0 && |cf| >= 2 ==> s.index == 0)
  }

  /** What a step needs: a current node, a selection at every node before it, and a tolerance below the last level. */
  predicate Steppable(cf: seq<LocatedNote>, key: Key, s: Search)
  {
    && s.index < |cf|
    && s.index < |s.frames| <= |cf|
    && SelectedBefore(s.frames, s.index)
    && s.tolerance <= MAX_TOLERANCE
    && (|key.scale| == 0 && |cf| >= 2 ==> s.index == 0)
  }

  /**
   * What holds before every step of the search; `pools` are the levels each
   * node was built with.
   */
  ghost predicate Ready(cf: seq<LocatedNote>, key: Key, s: Search, pools: seq<Buckets>, poolOf: (nat, seq<int>) -> Buckets)
  {
    && Shaped(cf, key, s)
    && PoolsFromHistory(s.frames, pools, poolOf)
    && OnlyDemoted(s.frames, pools)
    && ChosenWithin(s, pools)
  }

  /** The history up to `k` depends only on the nodes before `k`. */
  lemma HistoryAgrees(a: seq<Node>, b: seq<Node>, k: nat)
    requires k <= |a| && k <= |b|
    requires forall i :: 0 <= i < k ==> a[i] == b[i] && a[i].selection.Some?
    ensures History(a, k) == History(b, k)
  {
  }

  /** The pools of the first `m` nodes stay valid for a chain that keeps the nodes before `m - 1`. */
  lemma PoolsCarry(a: seq<Node>, b: seq<Node>, pools: seq<Buckets>, poolOf: (nat, seq<int>) -> Buckets, m: nat)
    requires 0 < |a| && SelectedBefore(a, |a| - 1) && 0 < |b| && SelectedBefore(b, |b| - 1)
    requires PoolsFromHistory(b, pools, poolOf)
    requires 0 < m <= |a| && m <= |b|
    requires forall i :: 0 <= i < m - 1 ==> a[i] == b[i]
    ensures forall k :: 0 <= k < m ==> pools[k] == poolOf(k, History(a, k))
  {
    forall k | 0 <= k < m ensures pools[k] == poolOf(k, History(a, k)) {
      HistoryAgrees(a, b, k);
    }
  }

  /** The start of the search: the root alone, tolerance 0, no faults. */
  function Init(cf: seq<LocatedNote>, key: Key): (r: Result<Search>)
    ensures r.Fail? <==> |cf| == 0
    ensures r.Ok? ==> |r.value.frames| == 1 && Shaped(cf, key, r.value)
    ensures r.Ok? ==> r.value.index == 0 && r.value.tolerance == 0 && r.value.faults == 0
  {
    match RootNode(cf, key)
    case Fail(e) => Fail(e)
    case Ok(root) => Ok(Search([root], 0, 0, 0))
  }

  /** The search starts ready: the root is built with the pool for the empty history. */
  lemma InitReady(cf: seq<LocatedNote>, key: Key, poolOf: (nat, seq<int>) -> Buckets)
    requires |cf| > 0 && PoolMaker(cf, key, poolOf)
    ensures Ready(cf, key, Init(cf, key).value, [Init(cf, key).value.frames[0].options], poolOf)
  {
    var root := Init(cf, key).value.frames[0];
    assert History([root], 0) == [];
    assert root.options == LeveledPool(cf, 0, key, []);
    NoPromotionReflexive(root.options);
  }

  /**
   * What the search has left before it reaches full tolerance: each failure
   * uses up one unit (a fault, or the 30 faults a tolerance step resets).
   */
  function Budget(s: Search): int
  {
    FAILURE_THRESHOLD * (LEVELS - s.tolerance) - s.faults
  }

  /**
   * A failed selection: count the fault, raise the tolerance and reset the
   * count at 30 faults, and back up one note unless at the first.
   */
  function Backtrack(s: Search): (r: Search)
    ensures r.frames == s.frames
    ensures r.index == if s.index > 0 then s.index - 1 else 0
    ensures s.faults + 1 < FAILURE_THRESHOLD ==> r.tolerance == s.tolerance && r.faults == s.faults + 1
    ensures s.faults + 1 >= FAILURE_THRESHOLD ==> r.tolerance == s.tolerance + 1 && r.faults == 0
    ensures s.faults < FAILURE_THRESHOLD ==> Budget(r) == Budget(s) - 1
  {
    var faults := s.faults + 1;
    var index := if s.index > 0 then s.index - 1 else 0;
    if faults >= FAILURE_THRESHOLD then Search(s.frames, index, s.tolerance + 1, 0)
    else Search(s.frames, index, s.tolerance, faults)
  }

  /**
   * One iteration of the loop: the last position only selects; any other
   * position expands. A success moves on to the next note; a failure
   * backtracks.
   */
  function Step(cf: seq<LocatedNote>, key: Key, s: Search, draw: nat): (r: Result<Search>)
    requires Steppable(cf, key, s)
    ensures r.Fail? <==>
      s.index + 1 < |cf| && |key.scale| == 0 && SelectOn(s.frames[s.index], s.tolerance, draw).Ok? &&
      SelectOn(s.frames[s.index], s.tolerance, draw).value.Some?
    ensures r.Ok? ==> r.value.tolerance >= s.tolerance
    ensures r.Ok? ==>
      (r.value.index == s.index + 1 && r.value.tolerance == s.tolerance && r.value.faults == s.faults) ||
      (r.value == Backtrack(s) && SelectOn(s.frames[s.index], s.tolerance, draw) == Ok(None))
  {
    var node := s.frames[s.index];
    if s.index == |cf| - 1 then
      match SelectOn(node, s.tolerance, draw)
      case Fail(e) => Fail(e)
      case Ok(None) => Ok(Backtrack(s))
      case Ok(Some(picked)) => Ok(Search(s.frames[s.index := picked], s.index + 1, s.tolerance, s.faults))
    else
      match Expand(node, cf, s.index, s.tolerance, key, History(s.frames, s.index), draw)
      case Fail(e) => Fail(e)
      case Ok(None) => Ok(Backtrack(s))
      case Ok(Some(e)) => Ok(Search(s.frames[..s.index] + [e.self, e.next], s.index + 1, s.tolerance, s.faults))
  }

  /** The current node always has all 24 candidates, so with tolerance 4 the pick never fails. */
  lemma CurrentPoolIsFull(cf: seq<LocatedNote>, key: Key, s: Search, pools: seq<Buckets>, poolOf: (nat, seq<int>) -> Buckets)
    requires Ready(cf, key, s, pools, poolOf) && s.index < |cf|
    ensures Total(s.frames[s.index].options) == POOL_SIZE
  {
  }

  /** A failure can only happen below full tolerance, so the tolerance never passes 4. */
  lemma FailureOnlyBelowFullTolerance(cf: seq<LocatedNote>, key: Key, s: Search, pools: seq<Buckets>, poolOf: (nat, seq<int>) -> Buckets, draw: nat)
    requires Ready(cf, key, s, pools, poolOf) && s.index < |cf|
    requires SelectOn(s.frames[s.index], s.tolerance, draw) == Ok(None)
    ensures s.tolerance < MAX_TOLERANCE
  {
    CurrentPoolIsFull(cf, key, s, pools, poolOf);
    var b := s.frames[s.index].options;
    TotalIsSumOfSizes(b);
  }

  /** A failed selection keeps the search ready. */
  lemma BacktrackKeepsReady(cf: seq<LocatedNote>, key: Key, s: Search, pools: seq<Buckets>, poolOf: (nat, seq<int>) -> Buckets, draw: nat)
    requires Ready(cf, key, s, pools, poolOf) && s.index < |cf|
    requires SelectOn(s.frames[s.index], s.tolerance, draw) == Ok(None)
    ensures Ready(cf, key, Backtrack(s), pools, poolOf)
  {
    FailureOnlyBelowFullTolerance(cf, key, s, pools, poolOf, draw);
    var r := Backtrack(s);
    forall k | 0 <= k < r.index ensures WithinLevel(pools[k], r.tolerance, r.frames[k].selection.value) {
      assert WithinLevel(pools[k], s.tolerance, s.frames[k].selection.value);
      WithinLevelRaised(pools[k], s.tolerance, r.tolerance, s.frames[k].selection.value);
    }
  }

  /** A note within a level is within every higher one. */
  lemma WithinLevelRaised(b: Buckets, t: nat, u: nat, x: LocatedNote)
    requires WithinLevel(b, t, x) && t <= u
    ensures WithinLevel(b, u, x)
  {
    var i :| 0 <= i <= t && i < LEVELS && x in b[i];
  }

  /** Replacing the last node with its picked version keeps the pools and selections. */
  lemma ReplaceLastKeepsPools(cf: seq<LocatedNote>, frames: seq<Node>, index: nat, picked: Node)
    requires index < |frames| <= |cf| && PoolsMatch(cf, frames) && SelectionsFromPools(frames)
    requires picked.selection.Some? && picked.selection.value in Contents(picked.options)
    requires Contents(picked.options) == Contents(frames[index].options)
    ensures PoolsMatch(cf, frames[index := picked]) && SelectionsFromPools(frames[index := picked])
  {
    var fr := frames[index := picked];
    forall k | 0 <= k < |fr| ensures Contents(fr[k].options) == multiset(CreateLevelMap(cf, k).value) {
      if k != index { assert fr[k] == frames[k]; }
    }
  }

  /** Replacing the last node with its picked version keeps every node measured against the pool it was built with. */
  lemma ReplaceLastKeepsLevels(cf: seq<LocatedNote>, key: Key, s: Search, pools: seq<Buckets>, poolOf: (nat, seq<int>) -> Buckets, picked: Node)
    requires Chained(cf, key, s.frames) && s.index == |s.frames| - 1
    requires PoolsFromHistory(s.frames, pools, poolOf) && OnlyDemoted(s.frames, pools) && ChosenWithin(s, pools)
    requires picked.selection.Some?
    requires NoPromotion(pools[s.index], picked.options)
    requires WithinLevel(pools[s.index], s.tolerance, picked.selection.value)
    ensures Chained(cf, key, s.frames[s.index := picked])
    ensures SelectedBefore(s.frames[s.index := picked], s.index + 1)
    ensures PoolsFromHistory(s.frames[s.index := picked], pools, poolOf)
    ensures OnlyDemoted(s.frames[s.index := picked], pools)
    ensures ChosenWithin(Search(s.frames[s.index := picked], s.index + 1, s.tolerance, s.faults), pools)
  {
    var fr := s.frames[s.index := picked];
    forall k | 0 <= k < |fr| ensures fr[k].selection.Some? && NoPromotion(pools[k], fr[k].options) {
      if k != s.index { assert fr[k] == s.frames[k]; }
    }
    PoolsCarry(fr, s.frames, pools, poolOf, |fr|);
    var next := Search(fr, s.index + 1, s.tolerance, s.faults);
    forall k | 0 <= k < next.index ensures WithinLevel(pools[k], next.tolerance, fr[k].selection.value) {
      if k != s.index { assert fr[k] == s.frames[k]; }
    }
  }

  /** A pick at the last position keeps the search ready. */
  lemma TerminalPickKeepsReady(cf: seq<LocatedNote>, key: Key, s: Search, pools: seq<Buckets>, poolOf: (nat, seq<int>) -> Buckets, picked: Node)
    requires Ready(cf, key, s, pools, poolOf) && s.index == |cf| - 1
    requires picked.selection.Some? && picked.selection.value in Contents(picked.options)
    requires Contents(picked.options) == Contents(s.frames[s.index].options)
    requires NoPromotion(pools[s.index], picked.options)
    requires WithinLevel(pools[s.index], s.tolerance, picked.selection.value)
    ensures Ready(cf, key, Search(s.frames[s.index := picked], s.index + 1, s.tolerance, s.faults), pools, poolOf)
  {
    ReplaceLastKeepsPools(cf, s.frames, s.index, picked);
    ReplaceLastKeepsLevels(cf, key, s, pools, poolOf, picked);
  }

  /** Cutting the chain after `index` and linking the picked node and a fresh next node keeps the pools and selections. */
  lemma RelinkKeepsPools(cf: seq<LocatedNote>, frames: seq<Node>, index: nat, e: Expansion)
    requires index + 1 < |cf| && index < |frames| <= |cf| && PoolsMatch(cf, frames) && SelectionsFromPools(frames)
    requires e.self.selection.Some? && e.self.selection.value in Contents(e.self.options)
    requires Contents(e.self.options) == Contents(frames[index].options)
    requires e.next.selection.None?
    requires Contents(e.next.options) == multiset(CreateLevelMap(cf, index + 1).value)
    ensures PoolsMatch(cf, frames[..index] + [e.self, e.next])
    ensures SelectionsFromPools(frames[..index] + [e.self, e.next])
  {
    RelinkKeepsContents(cf, frames, index, e);
    var fr := frames[..index] + [e.self, e.next];
    forall k | 0 <= k < |fr| && fr[k].selection.Some? ensures fr[k].selection.value in Contents(fr[k].options) {
      if k < index { assert fr[k] == frames[k]; }
      else if k == index { assert fr[k] == e.self; }
    }
  }

  /** Relinking keeps every node's contents: the kept nodes' own, the picked node's, and the fresh node's pool. */
  lemma RelinkKeepsContents(cf: seq<LocatedNote>, frames: seq<Node>, index: nat, e: Expansion)
    requires index + 1 < |cf| && index < |frames| <= |cf| && PoolsMatch(cf, frames)
    requires Contents(e.self.options) == Contents(frames[index].options)
    requires Contents(e.next.options) == multiset(CreateLevelMap(cf, index + 1).value)
    ensures PoolsMatch(cf, frames[..index] + [e.self, e.next])
  {
    var fr := frames[..index] + [e.self, e.next];
    forall k | 0 <= k < |fr| ensures Contents(fr[k].options) == multiset(CreateLevelMap(cf, k).value) {
      if k < index { assert fr[k] == frames[k]; }
      else if k == index { assert fr[k] == e.self; }
      else { assert fr[k] == e.next; }
    }
  }

  /** The pools after an expansion: those of the kept nodes, then the fresh node's. */
  lemma RelinkKeepsPoolHistory(frames: seq<Node>, pools: seq<Buckets>, poolOf: (nat, seq<int>) -> Buckets, index: nat, e: Expansion)
    requires 0 < |frames| && SelectedBefore(frames, |frames| - 1) && PoolsFromHistory(frames, pools, poolOf)
    requires index < |frames| && SelectedBefore(frames, index) && e.self.selection.Some?
    requires e.next.options == poolOf(index + 1, History(frames, index) + [e.self.selection.value.pitch])
    ensures SelectedBefore(frames[..index] + [e.self, e.next], index + 1)
    ensures PoolsFromHistory(frames[..index] + [e.self, e.next], pools[..index + 1] + [e.next.options], poolOf)
  {
    var fr := frames[..index] + [e.self, e.next];
    var ps := pools[..index + 1] + [e.next.options];
    HistoryAfterPick(frames, index, e.self, e.next);
    PoolsCarry(fr, frames, pools, poolOf, index + 1);
    forall k | 0 <= k < |fr| ensures ps[k] == poolOf(k, History(fr, k)) {
      if k <= index { assert ps[k] == pools[k]; }
    }
  }

  /** The history after an expansion: the history before it, then the pick. */
  lemma HistoryAfterPick(frames: seq<Node>, index: nat, self: Node, next: Node)
    requires index < |frames| && SelectedBefore(frames, index) && self.selection.Some?
    ensures forall i :: 0 <= i < index + 1 ==> (frames[..index] + [self, next])[i].selection.Some?
    ensures History(frames[..index] + [self, next], index + 1) == History(frames, index) + [self.selection.value.pitch]
  {
    var fr := frames[..index] + [self, next];
    forall i | 0 <= i < index + 1 ensures fr[i].selection.Some? {
      if i < index { assert fr[i] == frames[i]; } else { assert fr[i] == self; }
    }
  }

  /** A fresh node is built with the pool `poolOf` gives for its position and history. */
  lemma FreshNodePool(cf: seq<LocatedNote>, index: nat, key: Key, hist: seq<int>, poolOf: (nat, seq<int>) -> Buckets, n: Node)
    requires ScoreContext(cf, index, key, hist) && PoolMaker(cf, key, poolOf)
    requires n == FreshNode(cf, index, key, hist)
    ensures n.options == poolOf(index, hist)
  {
    assert n.options == LeveledPool(cf, index, key, hist);
  }

  /** An expansion keeps every node measured against the pool it was built with. */
  lemma RelinkKeepsLevels(s: Search, pools: seq<Buckets>, e: Expansion)
    requires s.index < |s.frames| && |pools| == |s.frames| && SelectedBefore(s.frames, s.index)
    requires OnlyDemoted(s.frames, pools) && ChosenWithin(s, pools)
    requires e.self.selection.Some?
    requires NoPromotion(pools[s.index], e.self.options)
    requires WithinLevel(pools[s.index], s.tolerance, e.self.selection.value)
    ensures SelectedBefore(s.frames[..s.index] + [e.self, e.next], s.index + 1)
    ensures OnlyDemoted(s.frames[..s.index] + [e.self, e.next], pools[..s.index + 1] + [e.next.options])
    ensures ChosenWithin(Search(s.frames[..s.index] + [e.self, e.next], s.index + 1, s.tolerance, s.faults),
                         pools[..s.index + 1] + [e.next.options])
  {
    var fr := s.frames[..s.index] + [e.self, e.next];
    var ps := pools[..s.index + 1] + [e.next.options];
    NoPromotionReflexive(e.next.options);
    forall k | 0 <= k < |fr| ensures NoPromotion(ps[k], fr[k].options) {
      if k < s.index { assert fr[k] == s.frames[k] && ps[k] == pools[k]; }
      else if k == s.index { assert fr[k] == e.self && ps[k] == pools[k]; }
      else { assert fr[k] == e.next; }
    }
    forall k | 0 <= k < s.index + 1
      ensures fr[k].selection.Some? && WithinLevel(ps[k], s.tolerance, fr[k].selection.value)
    {
      if k < s.index { assert fr[k] == s.frames[k] && ps[k] == pools[k]; }
      else { assert fr[k] == e.self && ps[k] == pools[k]; }
    }
  }

  /** An expansion at any other position keeps the search ready. */
  lemma ExpansionKeepsReady(cf: seq<LocatedNote>, key: Key, s: Search, pools: seq<Buckets>, poolOf: (nat, seq<int>) -> Buckets, e: Expansion)
    requires Ready(cf, key, s, pools, poolOf) && s.index + 1 < |cf| && |key.scale| > 0
    requires e.self.selection.Some? && e.self.selection.value in Contents(e.self.options)
    requires Contents(e.self.options) == Contents(s.frames[s.index].options)
    requires NoPromotion(pools[s.index], e.self.options)
    requires WithinLevel(pools[s.index], s.tolerance, e.self.selection.value)
    requires e.next.selection.None?
    requires Contents(e.next.options) == multiset(CreateLevelMap(cf, s.index + 1).value)
    requires e.next.options == poolOf(s.index + 1, History(s.frames, s.index) + [e.self.selection.value.pitch])
    ensures Ready(cf, key, Search(s.frames[..s.index] + [e.self, e.next], s.index + 1, s.tolerance, s.faults),
                  pools[..s.index + 1] + [e.next.options], poolOf)
  {
    RelinkKeepsPools(cf, s.frames, s.index, e);
    RelinkKeepsPoolHistory(s.frames, pools, poolOf, s.index, e);
    RelinkKeepsLevels(s, pools, e);
  }

  /** The levels each node was built with after a step to `next`: a fresh node adds its own. */
  function NextPools(s: Search, pools: seq<Buckets>, next: Search): seq<Buckets>
  {
    if next.index == s.index + 1 && s.index < |pools| && s.index + 1 < |next.frames|
    then pools[..s.index + 1] + [next.frames[s.index + 1].options]
    else pools
  }

  /** A failed selection makes the step backtrack. */
  lemma StepBacktracks(cf: seq<LocatedNote>, key: Key, s: Search, draw: nat)
    requires Steppable(cf, key, s)
    requires SelectOn(s.frames[s.index], s.tolerance, draw) == Ok(None)
    ensures Step(cf, key, s, draw) == Ok(Backtrack(s))
  {
  }

  /** A pick at the last note replaces that node with its picked version. */
  lemma StepPicksLast(cf: seq<LocatedNote>, key: Key, s: Search, draw: nat)
    requires s.index + 1 == |cf| && Steppable(cf, key, s)
    requires SelectOn(s.frames[s.index], s.tolerance, draw).Ok? && SelectOn(s.frames[s.index], s.tolerance, draw).value.Some?
    ensures Step(cf, key, s, draw) ==
      Ok(Search(s.frames[s.index := SelectOn(s.frames[s.index], s.tolerance, draw).value.value], s.index + 1, s.tolerance, s.faults))
  {
  }

  /** A pick at the last note keeps the search ready. */
  lemma PickKeepsReady(cf: seq<LocatedNote>, key: Key, s: Search, pools: seq<Buckets>, poolOf: (nat, seq<int>) -> Buckets, picked: Node)
    requires Ready(cf, key, s, pools, poolOf) && s.index == |cf| - 1
    requires picked.selection.Some? && picked.selection.value in Contents(s.frames[s.index].options)
    requires Contents(picked.options) == Contents(s.frames[s.index].options)
    requires WithinLevel(s.frames[s.index].options, s.tolerance, picked.selection.value)
    requires NoPromotion(s.frames[s.index].options, picked.options)
    ensures Ready(cf, key, Search(s.frames[s.index := picked], s.index + 1, s.tolerance, s.faults), pools, poolOf)
  {
    var node := s.frames[s.index];
    NoPromotionTransitive(pools[s.index], node.options, picked.options);
    NoPromotionCarries(pools[s.index], node.options, s.tolerance, picked.selection.value);
    TerminalPickKeepsReady(cf, key, s, pools, poolOf, picked);
  }

  /** An expansion from the current node's selection keeps the search ready. */
  lemma ExpandKeepsReady(cf: seq<LocatedNote>, key: Key, s: Search, pools: seq<Buckets>, poolOf: (nat, seq<int>) -> Buckets, e: Expansion)
    requires Ready(cf, key, s, pools, poolOf) && s.index + 1 < |cf| && |key.scale| > 0
    requires e.self.selection.Some? && e.self.selection.value in Contents(s.frames[s.index].options)
    requires Contents(e.self.options) == Contents(s.frames[s.index].options)
    requires WithinLevel(s.frames[s.index].options, s.tolerance, e.self.selection.value)
    requires NoPromotion(s.frames[s.index].options, e.self.options)
    requires e.next.selection.None?
    requires Contents(e.next.options) == multiset(CreateLevelMap(cf, s.index + 1).value)
    requires e.next.options == poolOf(s.index + 1, History(s.frames, s.index) + [e.self.selection.value.pitch])
    ensures Ready(cf, key, Search(s.frames[..s.index] + [e.self, e.next], s.index + 1, s.tolerance, s.faults),
                  pools[..s.index + 1] + [e.next.options], poolOf)
  {
    var node := s.frames[s.index];
    NoPromotionTransitive(pools[s.index], node.options, e.self.options);
    NoPromotionCarries(pools[s.index], node.options, s.tolerance, e.self.selection.value);
    ExpansionKeepsReady(cf, key, s, pools, poolOf, e);
  }

  /**
   * Every step the search survives preserves what holds before a step: the
   * pick comes from the lowest non-empty level within the tolerance, and
   * selection only moves notes upward.
   */
  lemma StepKeepsReady(cf: seq<LocatedNote>, key: Key, s: Search, pools: seq<Buckets>, poolOf: (nat, seq<int>) -> Buckets, draw: nat)
    requires Ready(cf, key, s, pools, poolOf) && PoolMaker(cf, key, poolOf) && s.index < |cf|
    requires Step(cf, key, s, draw).Ok?
    ensures Ready(cf, key, Step(cf, key, s, draw).value, NextPools(s, pools, Step(cf, key, s, draw).value), poolOf)
    ensures SelectOn(s.frames[s.index], s.tolerance, draw) == Ok(None) ==> s.tolerance < MAX_TOLERANCE
  {
    if SelectOn(s.frames[s.index], s.tolerance, draw) == Ok(None) {
      StepBacktracks(cf, key, s, draw);
      BacktrackKeepsReady(cf, key, s, pools, poolOf, draw);
      FailureOnlyBelowFullTolerance(cf, key, s, pools, poolOf, draw);
    } else if s.index == |cf| - 1 {
      StepPicksLast(cf, key, s, draw);
      PickKeepsReady(cf, key, s, pools, poolOf, SelectOn(s.frames[s.index], s.tolerance, draw).value.value);
    } else {
      var e := StepExpandShape(cf, key, s, pools, poolOf, draw);
      ExpandKeepsReady(cf, key, s, pools, poolOf, e);
    }
  }

  /** In the expanding case the step links the two nodes of the expansion in place of the current one. */
  lemma StepIsExpansion(cf: seq<LocatedNote>, key: Key, s: Search, draw: nat) returns (e: Expansion)
    requires Steppable(cf, key, s) && s.index + 1 < |cf|
    requires SelectOn(s.frames[s.index], s.tolerance, draw).Ok? && SelectOn(s.frames[s.index], s.tolerance, draw).value.Some?
    requires Step(cf, key, s, draw).Ok?
    ensures Expand(s.frames[s.index], cf, s.index, s.tolerance, key, History(s.frames, s.index), draw) == Ok(Some(e))
    ensures Step(cf, key, s, draw).value == Search(s.frames[..s.index] + [e.self, e.next], s.index + 1, s.tolerance, s.faults)
  {
    e := Expand(s.frames[s.index], cf, s.index, s.tolerance, key, History(s.frames, s.index), draw).value.value;
  }

  /** The expansion a step links in: the current node with its pick, and a fresh node built with the pool for the new history. */
  lemma StepExpandShape(cf: seq<LocatedNote>, key: Key, s: Search, pools: seq<Buckets>, poolOf: (nat, seq<int>) -> Buckets, draw: nat)
    returns (e: Expansion)
    requires Steppable(cf, key, s) && PoolMaker(cf, key, poolOf) && s.index + 1 < |cf| && |pools| == |s.frames|
    requires SelectOn(s.frames[s.index], s.tolerance, draw).Ok? && SelectOn(s.frames[s.index], s.tolerance, draw).value.Some?
    requires Step(cf, key, s, draw).Ok?
    ensures |key.scale| > 0
    ensures Some(e.self) == SelectOn(s.frames[s.index], s.tolerance, draw).value
    ensures e.next.selection.None? && Contents(e.next.options) == multiset(CreateLevelMap(cf, s.index + 1).value)
    ensures e.self.selection.Some?
    ensures e.next.options == poolOf(s.index + 1, History(s.frames, s.index) + [e.self.selection.value.pitch])
    ensures Step(cf, key, s, draw).value == Search(s.frames[..s.index] + [e.self, e.next], s.index + 1, s.tolerance, s.faults)
    ensures NextPools(s, pools, Step(cf, key, s, draw).value) == pools[..s.index + 1] + [e.next.options]
  {
    e := StepIsExpansion(cf, key, s, draw);
    ExpansionFacts(cf, key, s, poolOf, draw, e);
    NextPoolsAfterExpansion(s, pools, e);
  }

  /** What an expansion of the current node produces: its pick, and a fresh node built with the pool for the new history. */
  lemma ExpansionFacts(cf: seq<LocatedNote>, key: Key, s: Search, poolOf: (nat, seq<int>) -> Buckets, draw: nat, e: Expansion)
    requires Steppable(cf, key, s) && PoolMaker(cf, key, poolOf) && s.index + 1 < |cf|
    requires Expand(s.frames[s.index], cf, s.index, s.tolerance, key, History(s.frames, s.index), draw) == Ok(Some(e))
    ensures |key.scale| > 0
    ensures Some(e.self) == SelectOn(s.frames[s.index], s.tolerance, draw).value
    ensures e.next.selection.None? && Contents(e.next.options) == multiset(CreateLevelMap(cf, s.index + 1).value)
    ensures e.self.selection.Some?
    ensures e.next.options == poolOf(s.index + 1, History(s.frames, s.index) + [e.self.selection.value.pitch])
  {
    FreshNodePool(cf, s.index + 1, key, History(s.frames, s.index) + [e.self.selection.value.pitch], poolOf, e.next);
  }

  /** After an expansion the fresh node's pool is recorded after those of the kept nodes. */
  lemma NextPoolsAfterExpansion(s: Search, pools: seq<Buckets>, e: Expansion)
    requires s.index < |pools| && s.index < |s.frames|
    ensures NextPools(s, pools, Search(s.frames[..s.index] + [e.self, e.next], s.index + 1, s.tolerance, s.faults)) ==
            pools[..s.index + 1] + [e.next.options]
  {
    assert (s.frames[..s.index] + [e.self, e.next])[s.index + 1] == e.next;
  }

  /** With the scale non-empty and tolerance 4, every step advances to the next note. */
  lemma FullToleranceAdvances(cf: seq<LocatedNote>, key: Key, s: Search, pools: seq<Buckets>, poolOf: (nat, seq<int>) -> Buckets, draw: nat)
    requires Ready(cf, key, s, pools, poolOf) && s.index < |cf| && |key.scale| > 0
    requires s.tolerance == MAX_TOLERANCE
    ensures Step(cf, key, s, draw).Ok?
    ensures Step(cf, key, s, draw).value.index == s.index + 1
  {
    if SelectOn(s.frames[s.index], s.tolerance, draw) == Ok(None) {
      FailureOnlyBelowFullTolerance(cf, key, s, pools, poolOf, draw);
    }
  }

  /** The notes of the finished line, read from the root along `next`. */
  function Line(frames: seq<Node>): (r: seq<LocatedNote>)
    requires forall k :: 0 <= k < |frames| ==> frames[k].selection.Some?
    ensures |r| == |frames|
    ensures forall k :: 0 <= k < |frames| ==> r[k] == frames[k].selection.value
  {
    seq(|frames|, k requires 0 <= k < |frames| => frames[k].selection.value)
  }

  /** The pitches of a line. */
  function Pitches(line: seq<LocatedNote>): (r: seq<int>)
    ensures |r| == |line|
    ensures forall i :: 0 <= i < |line| ==> r[i] == line[i].pitch
  {
    seq(|line|, i requires 0 <= i < |line| => line[i].pitch)
  }

  /**
   * At the end of the search every note of the line scores, against the notes
   * before it, within the final tolerance.
   */
  lemma FinishedLineWithinTolerance(cf: seq<LocatedNote>, key: Key, s: Search, pools: seq<Buckets>, poolOf: (nat, seq<int>) -> Buckets, k: nat)
    requires Ready(cf, key, s, pools, poolOf) && PoolMaker(cf, key, poolOf) && s.index == |cf| && k < |cf|
    ensures ScoreContext(cf, k, key, Pitches(Line(s.frames)[..k]))
    ensures Level(Score(cf, k, key, Pitches(Line(s.frames)[..k]), Line(s.frames)[k])) <= s.tolerance
  {
    var line := Line(s.frames);
    var hist := History(s.frames, k);
    assert hist == Pitches(line[..k]);
    assert pools[k] == poolOf(k, hist);
    assert poolOf(k, hist) == LeveledPool(cf, k, key, hist);
    assert WithinLevel(pools[k], s.tolerance, s.frames[k].selection.value);
    PoolLevelBoundsScore(cf, k, key, hist, s.tolerance, line[k]);
  }

  /** The pools the search builds: the leveled pool for every position and history the scoring accepts. */
  ghost function ScorePools(cf: seq<LocatedNote>, key: Key): (r: (nat, seq<int>) -> Buckets)
    ensures PoolMaker(cf, key, r)
  {
    (k: nat, h: seq<int>) => if ScoreContext(cf, k, key, h) then LeveledPool(cf, k, key, h) else EmptyBuckets()
  }

  /**
   * A finished search yields one note per note of the cantus firmus, with its
   * rhythm and time, inside the pitch window, and scoring within the tolerance.
   */
  lemma FinishedLine(cf: seq<LocatedNote>, key: Key, s: Search, pools: seq<Buckets>, poolOf: (nat, seq<int>) -> Buckets)
    requires Ready(cf, key, s, pools, poolOf) && PoolMaker(cf, key, poolOf) && s.index == |cf|
    ensures |Line(s.frames)| == |cf|
    ensures forall k :: 0 <= k < |cf| ==>
      Line(s.frames)[k].rhythm == cf[k].rhythm && Line(s.frames)[k].time == cf[k].time &&
      ThirdQuartilePitch(cf) <= Line(s.frames)[k].pitch < ThirdQuartilePitch(cf) + POOL_SIZE
    ensures forall k :: 0 <= k < |cf| ==>
      ScoreContext(cf, k, key, Pitches(Line(s.frames)[..k])) &&
      Level(Score(cf, k, key, Pitches(Line(s.frames)[..k]), Line(s.frames)[k])) <= s.tolerance
  {
    var line := Line(s.frames);
    forall k | 0 <= k < |cf|
      ensures line[k].rhythm == cf[k].rhythm && line[k].time == cf[k].time
      ensures ThirdQuartilePitch(cf) <= line[k].pitch < ThirdQuartilePitch(cf) + POOL_SIZE
      ensures ScoreContext(cf, k, key, Pitches(line[..k]))
      ensures Level(Score(cf, k, key, Pitches(line[..k]), line[k])) <= s.tolerance
    {
      var pool := CreateLevelMap(cf, k).value;
      assert line[k] in multiset(pool);
      var i :| 0 <= i < |pool| && pool[i] == line[k];
      FinishedLineWithinTolerance(cf, key, s, pools, poolOf, k);
    }
  }

  /**
   * The search after `n` passes of the loop with the draws `draws` (`draws(i)`
   * is the random index of pass `i`): `Init`, then one `Step` per pass while
   * the search can step, or the failure that stopped it. A search that cannot
   * step, as after the last note, stays as it is.
   */
  function Run(cf: seq<LocatedNote>, key: Key, draws: nat -> nat, n: nat): (r: Result<Search>)
    decreases n
  {
    if n == 0 then Init(cf, key)
    else
      match Run(cf, key, draws, n - 1)
      case Fail(e) => Fail(e)
      case Ok(s) => if Steppable(cf, key, s) then Step(cf, key, s, draws(n - 1)) else Ok(s)
  }

  /** A search past the last note, with a selection at every node. */
  predicate Finished(cf: seq<LocatedNote>, s: Search)
  {
    s.index == |cf| && |s.frames| == |cf| && SelectedBefore(s.frames, |s.frames|)
  }

  /** The pass after `n` is the `Step` of the search after `n`. */
  lemma RunNext(cf: seq<LocatedNote>, key: Key, draws: nat -> nat, n: nat, s: Search)
    requires Run(cf, key, draws, n) == Ok(s) && Steppable(cf, key, s)
    ensures Run(cf, key, draws, n + 1) == Step(cf, key, s, draws(n))
  {
  }

  /** A finished search is a fixed point of a pass: the next pass leaves it as it is. */
  lemma RunStays(cf: seq<LocatedNote>, key: Key, draws: nat -> nat, n: nat, s: Search)
    requires Run(cf, key, draws, n) == Ok(s) && Finished(cf, s)
    ensures Run(cf, key, draws, n + 1) == Ok(s)
  {
  }

  /**
   * `executeHarmony` on a cantus firmus: run the search to the end and read
   * off the line. `draws(n)` is the random index of the n-th selection. The
   * run fails only on an empty cantus firmus, or when a second note has to be
   * scored against a key with an empty scale; otherwise the line has one note
   * per cantus-firmus note, with its rhythm and time, a pitch from the 24
   * candidates above the third-quartile pitch, and a score, against the notes
   * before it, whose level is within `tolerance`, the tolerance the search
   * ended at.
   */
  method ExecuteHarmony(cf: seq<LocatedNote>, key: Key, draws: nat -> nat) returns (r: Result<seq<LocatedNote>>, tolerance: nat)
    ensures r.Fail? <==> |cf| == 0 || (|cf| >= 2 && |key.scale| == 0)
    ensures r.Ok? ==> |r.value| == |cf| && tolerance <= MAX_TOLERANCE
    ensures r.Ok? ==> forall k :: 0 <= k < |cf| ==>
      r.value[k].rhythm == cf[k].rhythm && r.value[k].time == cf[k].time &&
      ThirdQuartilePitch(cf) <= r.value[k].pitch < ThirdQuartilePitch(cf) + POOL_SIZE
    ensures r.Ok? ==> |r.value| == |cf| && forall k :: 0 <= k < |cf| ==>
      ScoreContext(cf, k, key, Pitches(r.value[..k])) &&
      Level(Score(cf, k, key, Pitches(r.value[..k]), r.value[k])) <= tolerance
    ensures r.Ok? ==>
      exists n: nat ::
        && Run(cf, key, draws, n).Ok? && Finished(cf, Run(cf, key, draws, n).value)
        && r.value == Line(Run(cf, key, draws, n).value.frames) && tolerance == Run(cf, key, draws, n).value.tolerance
    ensures r.Fail? ==> exists n: nat :: Run(cf, key, draws, n).Fail?
  {
    var s, n;
    ghost var pools, poolOf;
    r, s, n, pools, poolOf := RunSearch(cf, key, draws);
    if r.Fail? {
      return Fail(r.reason), 0;
    }
    FinishedLine(cf, key, s, pools, poolOf);
    return Ok(Line(s.frames)), s.tolerance;
  }

  /**
   * The loop of `executeHarmony`: step until the last note is picked. It fails
   * exactly where `executeHarmony` does, and otherwise ends ready with every
   * note picked.
   */
  method RunSearch(cf: seq<LocatedNote>, key: Key, draws: nat -> nat)
    returns (r: Result<seq<LocatedNote>>, s: Search, n: nat, ghost pools: seq<Buckets>, ghost poolOf: (nat, seq<int>) -> Buckets)
    ensures r.Fail? <==> |cf| == 0 || (|cf| >= 2 && |key.scale| == 0)
    ensures r.Ok? ==> Ready(cf, key, s, pools, poolOf) && PoolMaker(cf, key, poolOf) && s.index == |cf|
    ensures r.Ok? ==> Run(cf, key, draws, n) == Ok(s) && Finished(cf, s)
    ensures r.Ok? ==> r.value == Line(s.frames)
    ensures r.Fail? ==> Run(cf, key, draws, n).Fail?
  {
    var init := Init(cf, key);
    poolOf := ScorePools(cf, key);
    n := 0;
    if init.Fail? {
      return Fail(init.reason), Search([], 0, 0, 0), n, [], poolOf;
    }
    s := init.value;
    InitReady(cf, key, poolOf);
    pools := [s.frames[0].options];
    while s.index < |cf|
      invariant Ready(cf, key, s, pools, poolOf)
      invariant Run(cf, key, draws, n) == Ok(s)
      decreases Budget(s), |cf| - s.index
    {
      var next;
      next, pools := StepOnce(cf, key, s, draws(n), pools, poolOf);
      RunNext(cf, key, draws, n, s);
      n := n + 1;
      if next.Fail? {
        return Fail(next.reason), s, n, pools, poolOf;
      }
      s := next.value;
    }
    return Ok(Line(s.frames)), s, n, pools, poolOf;
  }

  /**
   * One pass of the search loop: `Step`, with the levels each node was built
   * with carried along. A step fails only on a key with an empty scale before
   * the last note; otherwise it keeps the search ready and either advances
   * at the same tolerance and fault count, or backtracks below full tolerance.
   */
  method StepOnce(cf: seq<LocatedNote>, key: Key, s: Search, draw: nat, ghost pools: seq<Buckets>, ghost poolOf: (nat, seq<int>) -> Buckets)
    returns (r: Result<Search>, ghost nextPools: seq<Buckets>)
    requires Ready(cf, key, s, pools, poolOf) && PoolMaker(cf, key, poolOf) && s.index < |cf|
    ensures Steppable(cf, key, s) && r == Step(cf, key, s, draw)
    ensures r.Fail? ==> s.index + 1 < |cf| && |key.scale| == 0
    ensures r.Ok? ==> Ready(cf, key, r.value, nextPools, poolOf)
    ensures r.Ok? ==>
      (r.value.index == s.index + 1 && r.value.tolerance == s.tolerance && r.value.faults == s.faults) ||
      (r.value == Backtrack(s) && s.tolerance < MAX_TOLERANCE)
  {
    r := Step(cf, key, s, draw);
    nextPools := pools;
    if r.Ok? {
      StepKeepsReady(cf, key, s, pools, poolOf, draw);
      nextPools := NextPools(s, pools, r.value);
    }
  }
}

=== FILE: diatonic_key_signature.dfy ===
/**
 * DiatonicKeySignature: seven-note keys built from a mode's interval table, from
 * custom intervals, from a sharps-or-flats count and quality, or from a name
 * such as "Ab Major" or "C Aeolian".
 */
module DiatonicKeys {
  import opened Results
  import opened JavaLang
  import opened KeySignatures

  /** The jMusic pitch constants the constructors use; their values come from a `PitchTable`. */
  datatype TonicConst =
    | C3 | CS3 | DF3 | D3 | DS3 | EF3 | E3 | F3 | FS3 | GF3 | G3 | GS3 | AF3 | A3 | AS3 | BF3 | B3 | C4 | CF3

  type PitchTable = TonicConst -> int

  datatype Mode = Ionian | Dorian | Phrygian | Lydian | Mixolydian | Aeolian | Locrian

  /**
   * The KeySignature state plus the seven step sizes (tonic to supertonic, ...,
   * leading tone to tonic) and the sharp / flat flags the name constructor sets.
   */
  datatype DiatonicKey = DiatonicKey(key: Key, intervals: seq<int>, sharps: bool, flats: bool)

  function Sum(xs: seq<int>): int
  {
    if |xs| == 0 then 0 else Sum(xs[..|xs| - 1]) + xs[|xs| - 1]
  }

  lemma SumOfSeven(xs: seq<int>)
    requires |xs| == 7
    ensures Sum(xs) == xs[0] + xs[1] + xs[2] + xs[3] + xs[4] + xs[5] + xs[6]
  {
    assert xs[..7] == xs;
    forall i | 0 <= i < 7
      ensures Sum(xs[..i + 1]) == Sum(xs[..i]) + xs[i]
    {
      assert xs[..i + 1][..i] == xs[..i];
    }
  }

  /** The step table of each built-in mode: seven half or whole steps covering one octave. */
  function ModeIntervals(m: Mode): (r: seq<int>)
    ensures |r| == 7 && Sum(r) == 12
    ensures forall i :: 0 <= i < 7 ==> r[i] == HALF_STEP || r[i] == WHOLE_STEP
  {
    var H := HALF_STEP;
    var W := WHOLE_STEP;
    var r :=
      match m
      case Ionian => [W, W, H, W, W, W, H]
      case Dorian => [W, H, W, W, W, H, W]
      case Phrygian => [H, W, W, W, H, W, W]
      case Lydian => [W, W, W, H, W, W, H]
      case Mixolydian => [W, W, H, W, W, H, W]
      case Aeolian => [W, H, W, W, H, W, W]
      case Locrian => [H, W, W, H, W, W, W];
    SumOfSeven(r);
    r
  }

  /** The quality each mode helper records. */
  function ModeQuality(m: Mode): int
  {
    match m
    case Ionian | Lydian | Mixolydian => MAJOR
    case Dorian | Phrygian | Aeolian | Locrian => MINOR
  }

  /**
   * The mode helpers (`ionian()` ... `locrian()`): set the step table and the
   * quality; all but Ionian and Aeolian also reset sharpsOrFlats to 0.
   */
  function ApplyMode(d: DiatonicKey, m: Mode): (r: DiatonicKey)
    ensures r.intervals == ModeIntervals(m) && r.key.quality == ModeQuality(m)
    ensures m != Ionian && m != Aeolian ==> r.key.sharpsOrFlats == 0
    ensures m == Ionian || m == Aeolian ==> r.key.sharpsOrFlats == d.key.sharpsOrFlats
    ensures r.key.scale == d.key.scale && r.key.name == d.key.name
    ensures r.sharps == d.sharps && r.flats == d.flats
  {
    var sof := if m == Ionian || m == Aeolian then d.key.sharpsOrFlats else 0;
    d.(intervals := ModeIntervals(m), key := d.key.(quality := ModeQuality(m), sharpsOrFlats := sof))
  }

  /** `calculateScale`: the tonic followed by the running sums of the first six steps. */
  function CalculateScale(tonic: int, intervals: seq<int>): (scale: seq<int>)
    requires |intervals| == 7
    ensures |scale| == 7 && scale[0] == tonic
    ensures forall i :: 0 < i < 7 ==> scale[i] - scale[i - 1] == intervals[i - 1]
  {
    var scale := seq(7, i requires 0 <= i < 7 => tonic + Sum(intervals[..i]));
    assert forall i :: 0 < i < 7 ==> intervals[..i][..i - 1] == intervals[..i - 1];
    scale
  }

  /** When the seven steps cover an octave, the leading tone steps back up to the tonic an octave higher. */
  lemma ScaleClosesOctave(tonic: int, intervals: seq<int>)
    requires |intervals| == 7 && Sum(intervals) == 12
    ensures CalculateScale(tonic, intervals)[6] + intervals[6] == tonic + 12
  {
    assert intervals[..6] == intervals[..|intervals| - 1];
    assert intervals[..7] == intervals;
  }

  /** The fresh state every Java constructor starts from (zero / false / null fields). */
  function Blank(): DiatonicKey
  {
    DiatonicKey(Key([], 0, MAJOR, None), [0, 0, 0, 0, 0, 0, 0], false, false)
  }

  /** A key whose scale was computed from its own step table, and whose steps cover an octave. */
  predicate WellFormed(d: DiatonicKey)
  {
    && |d.intervals| == 7
    && Sum(d.intervals) == 12
    && |d.key.scale| == 7
    && d.key.scale == CalculateScale(d.key.scale[0], d.intervals)
  }

  // ---------------------------------------------------------------------
  // Constructor DiatonicKeySignature(int ton, int x1, ..., int x7)
  // ---------------------------------------------------------------------

  /** Custom steps are accepted only when they add to 12 semitones; the key is then a MAJOR "Custom Scale" with no sharps or flats. */
  function FromIntervals(tonic: int, xs: seq<int>): (r: Result<DiatonicKey>)
    requires |xs| == 7
    ensures r.Ok? <==> xs[0] + xs[1] + xs[2] + xs[3] + xs[4] + xs[5] + xs[6] == 12
    ensures r.Ok? ==> r.value.key.name == Some("Custom Scale") && r.value.key.sharpsOrFlats == 0
    ensures r.Ok? ==> r.value.key.quality == MAJOR && r.value.intervals == xs
    ensures r.Ok? ==> WellFormed(r.value) && r.value.key.scale[0] == tonic
  {
    SumOfSeven(xs);
    if Sum(xs) == 12 then
      var scale := CalculateScale(tonic, xs);
      Ok(DiatonicKey(Key(scale, 0, MAJOR, Some("Custom Scale")), xs, false, false))
    else
      Fail("Intervals in custom scales must add to 12 semitones")
  }

  // ---------------------------------------------------------------------
  // Constructor DiatonicKeySignature(int sof, int quality)
  // ---------------------------------------------------------------------

  /** The name and tonic the switch on sharpsOrFlats picks, or `None` outside -7..7. */
  function SofEntry(sof: int, major: bool): Option<(string, TonicConst)>
  {
    if sof == 7 then Some(if major then ("C# Major", CS3) else ("A# Minor", AS3))
    else if sof == 6 then Some(if major then ("F# Major", FS3) else ("D# Minor", DS3))
    else if sof == 5 then Some(if major then ("B Major", B3) else ("G# Minor", GS3))
    else if sof == 4 then Some(if major then ("E Major", E3) else ("C# Minor", CS3))
    else if sof == 3 then Some(if major then ("A Major", A3) else ("F# Minor", FS3))
    else if sof == 2 then Some(if major then ("D Major", D3) else ("B Minor", B3))
    else if sof == 1 then Some(if major then ("G Major", G3) else ("E Minor", E3))
    else if sof == 0 then Some(if major then ("C Major", C3) else ("A Minor", A3))
    else if sof == -1 then Some(if major then ("F Major", F3) else ("D Minor", D3))
    else if sof == -2 then Some(if major then ("Bb Major", BF3) else ("G Minor", G3))
    else if sof == -3 then Some(if major then ("Eb Major", EF3) else ("C Minor", C3))
    else if sof == -4 then Some(if major then ("Ab Major", AF3) else ("F Minor", F3))
    else if sof == -5 then Some(if major then ("Db Major", DF3) else ("Bb Minor", BF3))
    else if sof == -6 then Some(if major then ("Gb Major", GF3) else ("Eb Minor", EF3))
    else if sof == -7 then Some(if major then ("Cb Major", CF3) else ("Ab Minor", AF3))
    else None
  }

  /**
   * Quality 0 selects the Ionian steps and MAJOR, any other value the Aeolian
   * steps and MINOR; sharpsOrFlats is stored as given. Outside -7..7 the name
   * stays null and the tonic is -1.
   */
  function FromSharpsOrFlats(sof: int, quality: int, pitches: PitchTable): (r: DiatonicKey)
    ensures quality == 0 ==> r.intervals == ModeIntervals(Ionian) && r.key.quality == MAJOR
    ensures quality != 0 ==> r.intervals == ModeIntervals(Aeolian) && r.key.quality == MINOR
    ensures r.key.sharpsOrFlats == sof
    ensures WellFormed(r)
    ensures -7 <= sof <= 7 <==> r.key.name.Some?
    ensures sof == 0 ==> r.key.name == Some(if quality == 0 then "C Major" else "A Minor")
    ensures sof == 0 ==> r.key.scale[0] == pitches(if quality == 0 then C3 else A3)
  {
    var moded := ApplyMode(Blank().(key := Blank().key.(quality := quality)), if quality == 0 then Ionian else Aeolian);
    var withSof := moded.(key := moded.key.(sharpsOrFlats := sof));
    match SofEntry(sof, quality == 0)
    case Some((name, tonic)) =>
      withSof.(key := withSof.key.(name := Some(name), scale := CalculateScale(pitches(tonic), withSof.intervals)))
    case None =>
      withSof.(key := withSof.key.(scale := CalculateScale(-1, withSof.intervals)))
  }

  // ---------------------------------------------------------------------
  // Constructor DiatonicKeySignature(String name)
  // ---------------------------------------------------------------------

  /** How a name prefix sets the sharp / flat flags. */
  datatype FlagRule =
    | Sharp
    | Flat
    | ByMode(majorSharp: bool, minorFlat: bool)   // letter-only prefixes whose flags depend on the mode text

  /** The two-character prefixes the switch recognises: tonic, where the mode text starts, flag rule. */
  function PrefixEntry(p: string): Option<(TonicConst, nat, FlagRule)>
  {
    if p == "C " then Some((C3, 2, ByMode(false, true)))
    else if p == "C#" then Some((CS3, 3, Sharp))
    else if p == "Db" then Some((DF3, 3, Flat))
    else if p == "D " then Some((D3, 2, ByMode(true, true)))
    else if p == "D#" then Some((DS3, 3, Sharp))
    else if p == "Eb" then Some((EF3, 3, Flat))
    else if p == "E " then Some((E3, 2, Sharp))
    else if p == "E#" then Some((F3, 3, Sharp))
    else if p == "Fb" then Some((E3, 3, Flat))
    else if p == "F " then Some((F3, 2, Flat))
    else if p == "F#" then Some((FS3, 3, Sharp))
    else if p == "Gb" then Some((GF3, 3, Flat))
    else if p == "G " then Some((G3, 2, ByMode(true, true)))
    else if p == "G#" then Some((GS3, 3, Sharp))
    else if p == "Ab" then Some((AF3, 3, Flat))
    else if p == "A " then Some((A3, 2, ByMode(true, false)))
    else if p == "A#" then Some((AS3, 3, Sharp))
    else if p == "Bb" then Some((BF3, 3, Flat))
    else if p == "B " then Some((B3, 2, Sharp))
    else if p == "B#" then Some((C4, 3, Sharp))
    else if p == "Cb" then Some((B3, 3, Flat))
    else None
  }

  /** The (sharps, flats) flags a prefix rule gives for a mode text. */
  function Flags(rule: FlagRule, mode: string): (bool, bool)
  {
    match rule
    case Sharp => (true, false)
    case Flat => (false, true)
    case ByMode(majorSharp, minorFlat) =>
      if majorSharp && (mode == "Major" || mode == "Ionian") then (true, false)
      else if minorFlat && (mode == "Minor" || mode == "Aeolian") then (false, true)
      else (false, false)
  }

  /** Reduced scale pitches counted as sharp or flat notes, given the name's accidental. */
  predicate CountsAsAccidental(reduced: int, sharpFlag: bool, flatFlag: bool)
  {
    || reduced == 1 || reduced == 3 || reduced == 6 || reduced == 8 || reduced == 10
    || (sharpFlag && (reduced == 0 || reduced == 5))
    || (flatFlag && (reduced == 4 || reduced == 11))
  }

  function CountAccidentals(scale: seq<int>, sharpFlag: bool, flatFlag: bool): (n: nat)
    ensures n <= |scale|
  {
    if |scale| == 0 then 0
    else
      CountAccidentals(scale[..|scale| - 1], sharpFlag, flatFlag)
        + (if CountsAsAccidental(PitchClass(scale[|scale| - 1]), sharpFlag, flatFlag) then 1 else 0)
  }

  /**
   * `calculateNumSharpsOrFlats`: counts the scale pitches that are accidentals
   * (the second character of the name being '#' or 'b' adds the enharmonic
   * spellings), positive when flagged sharp, negative when flagged flat, and 0
   * when flagged neither.
   */
  function NumSharpsOrFlats(d: DiatonicKey): (sof: int)
    requires |d.key.scale| == 7
    requires d.key.name.Some? && |d.key.name.value| >= 2
    ensures -7 <= sof <= 7
    ensures d.sharps ==> sof >= 0
    ensures !d.sharps && d.flats ==> sof <= 0
    ensures !d.sharps && !d.flats ==> sof == 0
  {
    var accidental := d.key.name.value[1..2];
    var sharpFlag := accidental == "#";
    var flatFlag := !sharpFlag && accidental == "b";
    var count := CountAccidentals(d.key.scale, sharpFlag, flatFlag);
    if d.sharps then count else if d.flats then -(count as int) else 0
  }

  /** The mode names `identifyScale` recognises; anything else falls through to Major. */
  function ModeOfName(mode: string): (m: Mode)
    ensures mode !in {"Minor", "Ionian", "Dorian", "Phrygian", "Lydian", "Mixolydian", "Aeolian", "Locrian"} ==> m == Ionian
  {
    if mode == "Minor" then Aeolian
    else if mode == "Ionian" then Ionian
    else if mode == "Dorian" then Dorian
    else if mode == "Phrygian" then Phrygian
    else if mode == "Lydian" then Lydian
    else if mode == "Mixolydian" then Mixolydian
    else if mode == "Aeolian" then Aeolian
    else if mode == "Locrian" then Locrian
    else Ionian
  }

  /**
   * `identifyScale`: applies the named mode (Major and unrecognised names use
   * Ionian), computes the scale, and for Major / Minor / Ionian / Aeolian
   * recounts sharpsOrFlats from the scale.
   */
  function IdentifyScale(d: DiatonicKey, mode: string, tonic: int): (r: DiatonicKey)
    requires d.key.name.Some? && |d.key.name.value| >= 2
    ensures r.key.name == d.key.name && r.sharps == d.sharps && r.flats == d.flats
    ensures WellFormed(r) && r.key.scale[0] == tonic
    ensures r.intervals == ModeIntervals(ModeOfName(mode))
    ensures r.key.quality == ModeQuality(ModeOfName(mode))
    ensures ModeOfName(mode) !in {Ionian, Aeolian} ==> r.key.sharpsOrFlats == 0
    ensures ModeOfName(mode) in {Ionian, Aeolian} ==> r.key.sharpsOrFlats == NumSharpsOrFlats(r)
  {
    var m := ModeOfName(mode);
    var moded := ApplyMode(d, m);
    var scaled := moded.(key := moded.key.(scale := CalculateScale(tonic, moded.intervals)));
    if m == Ionian || m == Aeolian then
      scaled.(key := scaled.key.(sharpsOrFlats := NumSharpsOrFlats(scaled)))
    else scaled
  }

  /**
   * `DiatonicKeySignature(String name)`: the first two characters pick the tonic
   * and the accidental flags, the rest is the mode. A name shorter than the
   * prefix it needs is a StringIndexOutOfBoundsException. An unknown prefix
   * leaves the tonic at -1 and the mode empty (hence Major).
   */
  function FromName(name: string, pitches: PitchTable): (r: Result<DiatonicKey>)
    ensures r.Fail? <==> |name| < 2 || (PrefixEntry(name[..2]).Some? && |name| < PrefixEntry(name[..2]).value.1)
    ensures r.Ok? ==> WellFormed(r.value) && r.value.key.name == Some(name)
    ensures r.Ok? && PrefixEntry(name[..2]).Some? ==>
      var (tonic, modeStart, rule) := PrefixEntry(name[..2]).value;
      && r.value.key.scale[0] == pitches(tonic)
      && r.value.intervals == ModeIntervals(ModeOfName(name[modeStart..]))
      && r.value.key.quality == ModeQuality(ModeOfName(name[modeStart..]))
      && (r.value.sharps, r.value.flats) == Flags(rule, name[modeStart..])
      && (ModeOfName(name[modeStart..]) in {Ionian, Aeolian} ==> r.value.key.sharpsOrFlats == NumSharpsOrFlats(r.value))
    ensures r.Ok? && r.value.sharps ==> r.value.key.sharpsOrFlats >= 0
    ensures r.Ok? && r.value.flats ==> r.value.key.sharpsOrFlats <= 0
    ensures r.Ok? && !r.value.sharps && !r.value.flats ==> r.value.key.sharpsOrFlats == 0
    ensures r.Ok? && PrefixEntry(name[..2]).None? ==> r.value.key.scale[0] == -1 && r.value.intervals == ModeIntervals(Ionian)
  {
    if |name| < 2 then Fail("StringIndexOutOfBoundsException")
    else
      var named := Blank().(key := Blank().key.(name := Some(name)));
      match PrefixEntry(name[..2])
      case None => Ok(IdentifyScale(named, "", -1))
      case Some((tonic, modeStart, rule)) =>
        if |name| < modeStart then Fail("StringIndexOutOfBoundsException")
        else
          var mode := name[modeStart..];
          var (sharps, flats) := Flags(rule, mode);
          Ok(IdentifyScale(named.(sharps := sharps, flats := flats), mode, pitches(tonic)))
  }

  /** Counts a concrete scale by peeling its last pitch off, one step at a time. */
  lemma CountSteps(scale: seq<int>, sharpFlag: bool, flatFlag: bool)
    requires |scale| == 7
    ensures CountAccidentals(scale, sharpFlag, flatFlag) ==
      (if CountsAsAccidental(PitchClass(scale[0]), sharpFlag, flatFlag) then 1 else 0) +
      (if CountsAsAccidental(PitchClass(scale[1]), sharpFlag, flatFlag) then 1 else 0) +
      (if CountsAsAccidental(PitchClass(scale[2]), sharpFlag, flatFlag) then 1 else 0) +
      (if CountsAsAccidental(PitchClass(scale[3]), sharpFlag, flatFlag) then 1 else 0) +
      (if CountsAsAccidental(PitchClass(scale[4]), sharpFlag, flatFlag) then 1 else 0) +
      (if CountsAsAccidental(PitchClass(scale[5]), sharpFlag, flatFlag) then 1 else 0) +
      (if CountsAsAccidental(PitchClass(scale[6]), sharpFlag, flatFlag) then 1 else 0)
  {
    assert scale[..7] == scale;
    forall i | 0 <= i < 7
      ensures CountAccidentals(scale[..i + 1], sharpFlag, flatFlag) ==
        CountAccidentals(scale[..i], sharpFlag, flatFlag) +
        (if CountsAsAccidental(PitchClass(scale[i]), sharpFlag, flatFlag) then 1 else 0)
    {
      assert scale[..i + 1][..i] == scale[..i];
    }
  }

  /** With jMusic's G3 = 55, "G Major" is the key with one sharp (F#). */
  lemma GMajorHasOneSharp(pitches: PitchTable)
    requires pitches(G3) == 55
    ensures FromName("G Major", pitches).Ok? && FromName("G Major", pitches).value.key.sharpsOrFlats == 1
  {
    assert "G Major"[..2] == "G " && "G Major"[2..] == "Major";
    assert PrefixEntry("G ") == Some((G3, 2, ByMode(true, true)));
    assert ModeOfName("Major") == Ionian;
    var g := FromName("G Major", pitches).value;
    CountMajorScale(g, 55, true);
  }

  /** With jMusic's F3 = 53, "F Major" is the key with one flat (Bb). */
  lemma FMajorHasOneFlat(pitches: PitchTable)
    requires pitches(F3) == 53
    ensures FromName("F Major", pitches).Ok? && FromName("F Major", pitches).value.key.sharpsOrFlats == -1
  {
    assert "F Major"[..2] == "F " && "F Major"[2..] == "Major";
    assert PrefixEntry("F ") == Some((F3, 2, Flat));
    assert ModeOfName("Major") == Ionian;
    var f := FromName("F Major", pitches).value;
    CountMajorScale(f, 53, false);
  }

  /**
   * The recount of a major key named "<letter> Major" built on 55 (G) or 53 (F):
   * one accidental, signed by the name's flag.
   */
  lemma CountMajorScale(d: DiatonicKey, tonic: int, sharp: bool)
    requires tonic == (if sharp then 55 else 53)
    requires WellFormed(d) && d.key.scale[0] == tonic && d.intervals == ModeIntervals(Ionian)
    requires d.key.name.Some? && |d.key.name.value| >= 2 && d.key.name.value[1] == ' '
    requires d.sharps == sharp && d.flats == !sharp
    ensures NumSharpsOrFlats(d) == (if sharp then 1 else -1)
  {
    IonianScale(d);
    assert d.key.name.value[1..2] == " ";
    CountSteps(d.key.scale, false, false);
  }

  /** The Ionian scale from a tonic: whole, whole, half, whole, whole, whole steps. */
  lemma IonianScale(d: DiatonicKey)
    requires WellFormed(d) && d.intervals == ModeIntervals(Ionian)
    ensures var t := d.key.scale[0];
      d.key.scale == [t, t + 2, t + 4, t + 5, t + 7, t + 9, t + 11]
  {
    assert ModeIntervals(Ionian) == [2, 2, 1, 2, 2, 2, 1];
  }

  // ---------------------------------------------------------------------
  // Accessors
  // ---------------------------------------------------------------------

  function TonicPitch(d: DiatonicKey): int requires |d.key.scale| == 7 { d.key.scale[0] }
  function Supertonic(d: DiatonicKey): int requires |d.key.scale| == 7 { d.key.scale[1] }
  function Mediant(d: DiatonicKey): int requires |d.key.scale| == 7 { d.key.scale[2] }
  function Subdominant(d: DiatonicKey): int requires |d.key.scale| == 7 { d.key.scale[3] }
  function Dominant(d: DiatonicKey): int requires |d.key.scale| == 7 { d.key.scale[4] }
  function Submediant(d: DiatonicKey): int requires |d.key.scale| == 7 { d.key.scale[5] }
  function LeadingTone(d: DiatonicKey): int requires |d.key.scale| == 7 { d.key.scale[6] }

  /**
   * In every key the constructors build, each degree accessor is the previous
   * degree plus the corresponding step, and the leading tone plus the seventh
   * step is the tonic an octave up.
   */
  lemma DegreesFollowIntervals(d: DiatonicKey)
    requires WellFormed(d)
    ensures Supertonic(d) == TonicPitch(d) + d.intervals[0]
    ensures Mediant(d) == Supertonic(d) + d.intervals[1]
    ensures Subdominant(d) == Mediant(d) + d.intervals[2]
    ensures Dominant(d) == Subdominant(d) + d.intervals[3]
    ensures Submediant(d) == Dominant(d) + d.intervals[4]
    ensures LeadingTone(d) == Submediant(d) + d.intervals[5]
    ensures LeadingTone(d) + d.intervals[6] == TonicPitch(d) + 12
  {
    ScaleClosesOctave(d.key.scale[0], d.intervals);
  }
}

=== FILE: fm_composition_segment.dfy ===
/**
 * FMCompositionSegment: a section of a composition in one key, at one tempo,
 * whose measures share one time signature.
 */
module CompositionSegments {
  import opened Results
  import opened JavaLang
  import opened KeySignatures
  import opened TimeSignatures
  import opened Measures

  datatype Segment = Segment(key: Key, tempo: int, timeSig: TimeSig, measures: seq<Measure>)

  /** The constructor: 4/4 time and no measures yet. */
  function NewSegment(key: Key, tempo: int): (s: Segment)
    ensures s.key == key && s.tempo == tempo
    ensures s.timeSig == NewTimeSignature(4, 4).value
    ensures s.measures == []
  {
    Segment(key, tempo, TimeSig(4, 4), [])
  }

  /** Every measure carries the segment's time signature. */
  predicate Consistent(s: Segment)
  {
    forall j :: 0 <= j < |s.measures| ==>
      s.measures[j].numerator == s.timeSig.top && s.measures[j].denominator == s.timeSig.bot
  }

  /**
   * `addMeasure`. The first measure is always added; the segment takes over its
   * time signature when that is a valid one and otherwise keeps the one it had
   * (the exception is caught and only logged). A later measure whose time
   * signature differs is an IllegalArgumentException; otherwise it is appended.
   */
  function AddMeasure(s: Segment, m: Measure): (r: Result<Segment>)
    ensures |s.measures| == 0 ==> r.Ok? && r.value.measures == [m]
    ensures |s.measures| == 0 ==>
      r.value.timeSig == (if NewTimeSignature(m.numerator, m.denominator).Ok?
                          then TimeSig(m.numerator, m.denominator) else s.timeSig)
    ensures |s.measures| > 0 ==>
      (r.Ok? <==> m.numerator == s.timeSig.top && m.denominator == s.timeSig.bot)
    ensures |s.measures| > 0 && r.Ok? ==> r.value.measures == s.measures + [m] && r.value.timeSig == s.timeSig
    ensures r.Ok? ==> r.value.key == s.key && r.value.tempo == s.tempo
  {
    if |s.measures| == 0 then
      var ts := match NewTimeSignature(m.numerator, m.denominator)
                case Ok(t) => t
                case Fail(_) => s.timeSig;
      Ok(s.(timeSig := ts, measures := [m]))
    else if s.timeSig.top != m.numerator || s.timeSig.bot != m.denominator then
      Fail("IllegalArgumentException")
    else
      Ok(s.(measures := s.measures + [m]))
  }

  /**
   * Adding measures keeps every measure in the segment's time signature, as
   * long as the first one had a valid denominator.
   */
  lemma AddMeasureKeepsConsistent(s: Segment, m: Measure)
    requires Consistent(s)
    requires |s.measures| > 0 || ValidDenominator(m.denominator)
    requires AddMeasure(s, m).Ok?
    ensures Consistent(AddMeasure(s, m).value)
  {
    var r := AddMeasure(s, m).value;
    forall j | 0 <= j < |r.measures|
      ensures r.measures[j].numerator == r.timeSig.top && r.measures[j].denominator == r.timeSig.bot
    {
      if j < |s.measures| {
        assert r.measures[j] == s.measures[j];
      }
    }
  }

  /**
   * The segment's own denominator starts valid (4/4) and only ever takes a
   * validated one, so every segment has a valid denominator.
   */
  lemma AddMeasureKeepsValidDenominator(s: Segment, m: Measure)
    requires ValidDenominator(s.timeSig.bot)
    requires AddMeasure(s, m).Ok?
    ensures ValidDenominator(AddMeasure(s, m).value.timeSig.bot)
  {
  }

  /**
   * A first measure with an invalid denominator (3/5, say) is still added, but
   * the segment keeps 4/4, so its own time signature disagrees with the segment's.
   */
  lemma InvalidFirstMeasureLeavesSegmentInconsistent(key: Key, tempo: int, m: Measure)
    requires !ValidDenominator(m.denominator)
    ensures var r := AddMeasure(NewSegment(key, tempo), m);
            r.Ok? && r.value.timeSig == TimeSig(4, 4) && r.value.measures == [m] && !Consistent(r.value)
  {
    var r := AddMeasure(NewSegment(key, tempo), m).value;
    assert r.measures[0] == m;
  }

  /** All measures are `len` units long. */
  predicate Uniform(ms: seq<Measure>, len: int)
  {
    forall j :: 0 <= j < |ms| ==> ms[j].length == len
  }

  /** In a consistent segment of constructor-built measures, all measures have the first one's length. */
  lemma ConsistentSegmentIsUniform(s: Segment)
    requires Consistent(s) && |s.measures| > 0
    requires forall j :: 0 <= j < |s.measures| ==> WellFormed(s.measures[j])
    ensures Uniform(s.measures, s.measures[0].length)
  {
  }

  /** Sum of the measure lengths. */
  function TotalLength(ms: seq<Measure>): int
  {
    if |ms| == 0 then 0 else ms[0].length + TotalLength(ms[1..])
  }

  /** Start position of measure `j`: the lengths of the measures before it. */
  function Offset(ms: seq<Measure>, j: nat): int
    requires j <= |ms|
  {
    if j == 0 then 0 else ms[0].length + Offset(ms[1..], j - 1)
  }

  /** `getDuration`: -1 for an empty segment, otherwise the first measure's length times the count. */
  function Duration(s: Segment): (r: int)
    ensures |s.measures| == 0 ==> r == -1
  {
    if |s.measures| == 0 then -1 else s.measures[0].length * |s.measures|
  }

  lemma {:induction false} TotalOfUniform(ms: seq<Measure>, len: int)
    requires Uniform(ms, len)
    ensures TotalLength(ms) == len * |ms|
  {
    if |ms| > 0 {
      TotalOfUniform(ms[1..], len);
      assert len * |ms| == len + len * (|ms| - 1);
    }
  }

  /** When every measure has the same length, the duration is the total length of the measures. */
  lemma DurationIsTotalLength(s: Segment)
    requires |s.measures| > 0 && Uniform(s.measures, s.measures[0].length)
    ensures Duration(s) == TotalLength(s.measures)
  {
    TotalOfUniform(s.measures, s.measures[0].length);
  }

  /**
   * A measure's rhythm with every start moved by `off`: the inner loop of
   * `getRhythm`, built from the same notes in the same order as the measure's
   * own rhythm (ShiftAt shows the two agree entry by entry).
   */
  function Shift(notes: seq<PositionedNote>, off: int): map<int, int>
  {
    if |notes| == 0 then map[]
    else
      var n := notes[|notes| - 1];
      Shift(notes[..|notes| - 1], off)[n.start + off := Measures.Duration(n)]
  }

  lemma {:induction false} ShiftAt(notes: seq<PositionedNote>, off: int, k: int)
    ensures k in Shift(notes, off) <==> k - off in Rhythm(notes)
    ensures k in Shift(notes, off) ==> Shift(notes, off)[k] == Rhythm(notes)[k - off]
  {
    if |notes| > 0 {
      ShiftAt(notes[..|notes| - 1], off, k);
    }
  }

  /**
   * The segment rhythm of measures placed from `off` on: each measure's rhythm
   * shifted by its start position, later entries overwriting earlier ones.
   */
  function RhythmFrom(ms: seq<Measure>, off: int): map<int, int>
  {
    if |ms| == 0 then map[] else Shift(ms[0].notes, off) + RhythmFrom(ms[1..], off + ms[0].length)
  }

  /** `getRhythm`: the onsets of all measures, each shifted by its measure's position. */
  function SegmentRhythm(s: Segment): (r: map<int, int>)
    ensures |s.measures| == 0 ==> r == map[]
  {
    RhythmFrom(s.measures, 0)
  }

  /** Measure lengths are non-negative and every measure's rhythm lies inside it. */
  predicate RhythmsInside(ms: seq<Measure>)
  {
    forall j :: 0 <= j < |ms| ==>
      0 <= ms[j].length && forall st :: st in Rhythm(ms[j].notes) ==> 0 <= st < ms[j].length
  }

  lemma RhythmsInsideTail(ms: seq<Measure>)
    requires |ms| > 0 && RhythmsInside(ms)
    ensures RhythmsInside(ms[1..])
  {
    forall j | 0 <= j < |ms[1..]| ensures ms[1..][j] == ms[j + 1] { }
  }

  lemma {:induction false} RhythmFromStartsAtOffset(ms: seq<Measure>, off: int, k: int)
    requires RhythmsInside(ms)
    requires k in RhythmFrom(ms, off)
    ensures off <= k
  {
    var tail := RhythmFrom(ms[1..], off + ms[0].length);
    if k in tail {
      RhythmsInsideTail(ms);
      RhythmFromStartsAtOffset(ms[1..], off + ms[0].length, k);
    } else {
      ShiftAt(ms[0].notes, off, k);
    }
  }

  /** Every key of the segment rhythm is a note start of some measure, shifted by that measure's position. */
  lemma {:induction false} RhythmKeysComeFromMeasures(ms: seq<Measure>, off: int, k: int)
    requires k in RhythmFrom(ms, off)
    ensures exists j, st :: 0 <= j < |ms| && st in Rhythm(ms[j].notes) && k == off + Offset(ms, j) + st
  {
    var head := Shift(ms[0].notes, off);
    var tail := RhythmFrom(ms[1..], off + ms[0].length);
    if k in tail {
      RhythmKeysComeFromMeasures(ms[1..], off + ms[0].length, k);
      var j, st :| 0 <= j < |ms[1..]| && st in Rhythm(ms[1..][j].notes) && k == off + ms[0].length + Offset(ms[1..], j) + st;
      assert ms[1..][j] == ms[j + 1];
      assert Offset(ms, j + 1) == ms[0].length + Offset(ms[1..], j);
    } else {
      ShiftAt(ms[0].notes, off, k);
      assert k - off in Rhythm(ms[0].notes) && Offset(ms, 0) == 0;
    }
  }

  /**
   * With every rhythm inside its measure, each note start of measure `j` appears
   * in the segment rhythm at its measure's position, with its own duration.
   */
  lemma {:induction false} RhythmPlacesMeasure(ms: seq<Measure>, off: int, j: nat, st: int)
    requires RhythmsInside(ms)
    requires j < |ms| && st in Rhythm(ms[j].notes)
    ensures off + Offset(ms, j) + st in RhythmFrom(ms, off)
    ensures RhythmFrom(ms, off)[off + Offset(ms, j) + st] == Rhythm(ms[j].notes)[st]
  {
    var rest := ms[1..];
    RhythmsInsideTail(ms);
    if j == 0 {
      ShiftAt(ms[0].notes, off, off + st);
      if off + st in RhythmFrom(rest, off + ms[0].length) {
        RhythmFromStartsAtOffset(rest, off + ms[0].length, off + st);
        assert false;
      }
    } else {
      assert rest[j - 1] == ms[j];
      RhythmPlacesMeasure(rest, off + ms[0].length, j - 1, st);
    }
  }

  /** With a negative measure length, Java's quotient is negative exactly when the position reaches past one measure. */
  lemma NegativeLengthIndex(pos: int, len: int)
    requires pos >= 0 && len < 0
    ensures JavaDiv(pos, len) < 0 <==> pos >= -len
    ensures JavaDiv(pos, len) <= 0
  {
    var d := -len;
    if pos >= d {
      assert pos / d >= d / d;
    } else {
      assert pos / d == 0;
    }
  }

  /**
   * `getPitchesAtPosition`. An empty segment or a negative position gives the
   * empty set. Otherwise the first measure's length picks the measure (Java
   * integer division and remainder): a zero length is an ArithmeticException,
   * past the last measure gives the empty set, and a negative measure index
   * (possible only with a negative length) is an IndexOutOfBoundsException.
   * The chosen measure answers null for an offset past its own end.
   */
  function PitchesAtPosition(s: Segment, pos: int): (r: Result<Option<set<int>>>)
    ensures |s.measures| == 0 || pos < 0 ==> r == Ok(Some({}))
  {
    if |s.measures| == 0 || pos < 0 then Ok(Some({}))
    else
      var len := s.measures[0].length;
      if len == 0 then Fail("ArithmeticException")
      else
        var which := JavaDiv(pos, len);
        if which >= |s.measures| then Ok(Some({}))
        else if which < 0 then Fail("IndexOutOfBoundsException")
        else Ok(Measures.PitchesAt(s.measures[which], JavaRem(pos, len)))
  }

  /**
   * The exceptions: a zero first-measure length, or a negative one that the
   * position reaches past.
   */
  lemma PitchesAtPositionFails(s: Segment, pos: int)
    ensures PitchesAtPosition(s, pos).Fail? <==>
      |s.measures| > 0 && pos >= 0 &&
      (s.measures[0].length == 0 || (s.measures[0].length < 0 && pos >= -s.measures[0].length))
  {
    if |s.measures| > 0 && pos >= 0 {
      var len := s.measures[0].length;
      if len < 0 {
        NegativeLengthIndex(pos, len);
        if pos < -len {
          assert JavaDiv(pos, len) == 0;
          assert PitchesAtPosition(s, pos) == Ok(Measures.PitchesAt(s.measures[0], JavaRem(pos, len)));
        }
      } else if len > 0 {
        NonNegativeDivision(pos, len);
        var w := pos / len;
        if w < |s.measures| {
          assert PitchesAtPosition(s, pos) == Ok(Measures.PitchesAt(s.measures[w], JavaRem(pos, len)));
        }
      }
    }
  }

  /**
   * In a segment of equal-length measures, the position `o` units into measure
   * `i` gives the pitches sounding at that offset of measure `i` (never null),
   * and a position past the last measure gives the empty set.
   */
  lemma PitchesAtPositionInUniform(s: Segment, len: int, i: nat, o: int)
    requires len > 0 && Uniform(s.measures, len)
    requires 0 <= o < len
    ensures i < |s.measures| ==> PitchesAtPosition(s, i * len + o) == Ok(Some(SoundingPitches(s.measures[i].notes, o)))
    ensures i >= |s.measures| ==> PitchesAtPosition(s, i * len + o) == Ok(Some({}))
  {
    DivModUnique(i, len, o);
    if |s.measures| > 0 {
      assert s.measures[0].length == len;
    }
  }

  /**
   * The loop of `getRemainingMeasureDurationAtPosition` from a measure starting
   * at `start`: the first measure containing `pos` answers with what is left of
   * it, and -1 when none does.
   */
  function RemainingFrom(ms: seq<Measure>, start: int, pos: int): (r: int)
    ensures r == -1 || exists j :: 0 <= j < |ms| && 1 <= r <= ms[j].length
  {
    if |ms| == 0 then -1
    else if start <= pos < start + ms[0].length then ms[0].length - (pos - start)
    else
      var r := RemainingFrom(ms[1..], start + ms[0].length, pos);
      assert forall j :: 0 <= j < |ms| - 1 ==> ms[1..][j] == ms[j + 1];
      r
  }

  function RemainingMeasureDuration(s: Segment, pos: int): (r: int)
    ensures |s.measures| == 0 ==> r == -1
    ensures r == -1 || exists j :: 0 <= j < |s.measures| && 1 <= r <= s.measures[j].length
  {
    RemainingFrom(s.measures, 0, pos)
  }

  lemma {:induction false} RemainingFromInUniform(ms: seq<Measure>, len: int, start: int, i: int, o: int)
    requires len > 0 && Uniform(ms, len)
    requires 0 <= o < len
    ensures 0 <= i < |ms| ==> RemainingFrom(ms, start, start + i * len + o) == len - o
    ensures (i < 0 || i >= |ms|) ==> RemainingFrom(ms, start, start + i * len + o) == -1
  {
    var pos := start + i * len + o;
    if |ms| > 0 {
      assert ms[0].length == len;
      if i == 0 {
      } else {
        if i < 0 {
          assert i * len <= -1 * len;
        }
        assert Uniform(ms[1..], len) by {
          forall j | 0 <= j < |ms[1..]| ensures ms[1..][j].length == len {
            assert ms[1..][j] == ms[j + 1];
          }
        }
        RemainingFromInUniform(ms[1..], len, start + len, i - 1, o);
        assert (start + len) + (i - 1) * len + o == pos;
      }
    }
  }

  /**
   * With equal-length measures, the remaining duration `o` units into measure
   * `i` is the measure length minus `o`, and -1 for a position outside the
   * segment.
   */
  lemma RemainingInUniform(s: Segment, len: int, i: int, o: int)
    requires len > 0 && Uniform(s.measures, len)
    requires 0 <= o < len
    ensures 0 <= i < |s.measures| ==> RemainingMeasureDuration(s, i * len + o) == len - o
    ensures (i < 0 || i >= |s.measures|) ==> RemainingMeasureDuration(s, i * len + o) == -1
  {
    RemainingFromInUniform(s.measures, len, 0, i, o);
  }
}

=== FILE: fm_measure.dfy ===
/**
 * FMMeasure: one measure of a composition segment; its length in rhythm-value
 * units follows from its time signature, and it holds notes placed at start
 * positions inside it.
 */
module Measures {
  import opened Results
  import opened JavaLang
  import opened FMNotes
  import opened TimeSignatures

  /** A note object: Java compares notes by identity, so each carries an object id. */
  datatype NoteObject = NoteObject(id: nat, value: FMNote)

  datatype PositionedNote = PositionedNote(note: NoteObject, start: int)

  datatype Measure = Measure(numerator: int, denominator: int, length: int, notes: seq<PositionedNote>)

  function Duration(n: PositionedNote): int { n.note.value.duration }

  /** A measure as the constructor leaves it: the length is derived from the time signature. */
  predicate WellFormed(m: Measure)
  {
    m.denominator != 0 && m.length == JavaDiv(m.numerator * WHOLE_NOTE, m.denominator)
  }

  /**
   * `FMMeasure(num, denom)`: length `num * 384 / denom` in Java int arithmetic;
   * a zero denominator is an ArithmeticException. The denominator is not
   * otherwise validated.
   */
  function NewMeasure(num: int, denom: int): (r: Result<Measure>)
    ensures r.Fail? <==> denom == 0
    ensures r.Ok? ==> WellFormed(r.value) && r.value.notes == []
    ensures r.Ok? ==> r.value.numerator == num && r.value.denominator == denom
  {
    if denom == 0 then Fail("ArithmeticException")
    else Ok(Measure(num, denom, JavaDiv(num * WHOLE_NOTE, denom), []))
  }

  /** For every valid time-signature denominator the division is exact: the length is `num * (384 / denom)`. */
  lemma MeasureLengthIsExact(num: int, denom: int)
    requires ValidDenominator(denom)
    ensures NewMeasure(num, denom).Ok?
    ensures NewMeasure(num, denom).value.length == num * (WHOLE_NOTE / denom)
  {
    var q := WHOLE_NOTE / denom;
    assert q * denom == WHOLE_NOTE;
    assert num * WHOLE_NOTE == num * (q * denom) == (num * q) * denom;
    ExactJavaDiv(num * q, denom);
  }

  /** `FMMeasure()`: an empty 4/4 measure, 384 units long. */
  function DefaultMeasure(): (m: Measure)
    ensures m.numerator == 4 && m.denominator == 4
    ensures m.length == WHOLE_NOTE && m.notes == []
    ensures WellFormed(m)
  {
    NewMeasure(4, 4).value
  }

  /** Whether this very note object is already placed at `start`. */
  function AlreadyPlaced(notes: seq<PositionedNote>, note: NoteObject, start: int): (r: bool)
    ensures r <==> exists i :: 0 <= i < |notes| && notes[i].note.id == note.id && notes[i].start == start
  {
    if |notes| == 0 then false
    else if notes[0].note.id == note.id && notes[0].start == start then true
    else
      var rest := AlreadyPlaced(notes[1..], note, start);
      assert forall i :: 1 <= i < |notes| ==> notes[i] == notes[1..][i - 1];
      rest
  }

  /**
   * `addNote`: refused (false, nothing changes) when the same note object already
   * sits at that start, when the start is negative, or when the note would run
   * past the end of the measure; otherwise the positioned note is appended.
   */
  function AddNote(m: Measure, note: NoteObject, start: int): (r: (bool, Measure))
    ensures !r.0 <==>
      || (exists i :: 0 <= i < |m.notes| && m.notes[i].note.id == note.id && m.notes[i].start == start)
      || start < 0
      || start + note.value.duration > m.length
    ensures !r.0 ==> r.1 == m
    ensures r.0 ==> r.1.notes == m.notes + [PositionedNote(note, start)]
    ensures r.1.numerator == m.numerator && r.1.denominator == m.denominator && r.1.length == m.length
  {
    if AlreadyPlaced(m.notes, note, start) then (false, m)
    else if start < 0 then (false, m)
    else if start + note.value.duration > m.length then (false, m)
    else (true, m.(notes := m.notes + [PositionedNote(note, start)]))
  }

  /** Every note the measure holds was placed inside it. */
  predicate NotesInside(m: Measure)
  {
    forall i :: 0 <= i < |m.notes| ==> 0 <= m.notes[i].start && m.notes[i].start + Duration(m.notes[i]) <= m.length
  }

  /** `addNote` keeps every note inside the measure. */
  lemma AddNoteKeepsNotesInside(m: Measure, note: NoteObject, start: int)
    requires NotesInside(m)
    ensures NotesInside(AddNote(m, note, start).1)
  {
    var r := AddNote(m, note, start);
    if r.0 {
      forall i | 0 <= i < |r.1.notes|
        ensures 0 <= r.1.notes[i].start && r.1.notes[i].start + Duration(r.1.notes[i]) <= r.1.length
      {
        if i < |m.notes| {
          assert r.1.notes[i] == m.notes[i];
        }
      }
    }
  }

  /** The pitches of the notes sounding at `pos`: started at or before it and not yet ended. */
  function SoundingPitches(notes: seq<PositionedNote>, pos: int): (r: set<int>)
    ensures forall p :: p in r <==>
      exists i :: 0 <= i < |notes| && notes[i].start <= pos < notes[i].start + Duration(notes[i])
                  && notes[i].note.value.pitch == p
  {
    if |notes| == 0 then {}
    else
      var n := notes[|notes| - 1];
      var earlier := SoundingPitches(notes[..|notes| - 1], pos);
      assert forall i :: 0 <= i < |notes| - 1 ==> notes[i] == notes[..|notes| - 1][i];
      if n.start <= pos < n.start + Duration(n) then earlier + {n.note.value.pitch} else earlier
  }

  /**
   * `getPitchesAtPosition`: null (`None`) outside [0, length] (the end itself is
   * accepted), otherwise the set of sounding pitches.
   */
  function PitchesAt(m: Measure, pos: int): (r: Option<set<int>>)
    ensures r.None? <==> pos < 0 || pos > m.length
    ensures r.Some? ==> r.value == SoundingPitches(m.notes, pos)
  {
    if pos < 0 || pos > m.length then None else Some(SoundingPitches(m.notes, pos))
  }

  /**
   * `getRhythm`: start position to duration, for every note in insertion order,
   * so among notes with the same start the one added last wins.
   */
  function Rhythm(notes: seq<PositionedNote>): (r: map<int, int>)
    ensures forall s :: s in r <==> exists i :: 0 <= i < |notes| && notes[i].start == s
  {
    if |notes| == 0 then map[]
    else
      var n := notes[|notes| - 1];
      var earlier := Rhythm(notes[..|notes| - 1]);
      assert forall i :: 0 <= i < |notes| - 1 ==> notes[i] == notes[..|notes| - 1][i];
      earlier[n.start := Duration(n)]
  }

  /** The duration recorded at a start is that of the last note added there. */
  lemma {:induction false} RhythmLastWins(notes: seq<PositionedNote>, i: int)
    requires 0 <= i < |notes|
    requires forall j :: i < j < |notes| ==> notes[j].start != notes[i].start
    ensures notes[i].start in Rhythm(notes) && Rhythm(notes)[notes[i].start] == Duration(notes[i])
  {
    var last := |notes| - 1;
    if i < last {
      var init := notes[..last];
      assert init[i] == notes[i];
      forall j | i < j < |init| ensures init[j].start != init[i].start {
        assert init[j] == notes[j];
      }
      RhythmLastWins(init, i);
    }
  }

  /** With notes inside the measure and positive durations, every rhythm start lies in [0, length). */
  lemma RhythmInsideMeasure(m: Measure)
    requires NotesInside(m)
    requires forall i :: 0 <= i < |m.notes| ==> Duration(m.notes[i]) > 0
    ensures forall s :: s in Rhythm(m.notes) ==> 0 <= s < m.length
  {
  }
}

=== FILE: fm_note.dfy ===
/**
 * FMNote: an immutable note of the shared data model (pitch, duration in
 * rhythm-value units where a 128th note is 3, tie flag), together with the
 * rhythm-value constants, and the three setters MutableFMNote adds.
 */
module FMNotes {
  import opened Results

  datatype FMNote = FMNote(pitch: int, duration: int, tiedToNext: bool)

  /**
   * The three-argument constructor. A negative pitch other than `rest` (the
   * jMusic REST constant) is an IllegalArgumentException. The `tied` argument
   * is accepted but never stored, so the tie flag always starts false.
   */
  function NewNote(pitch: int, duration: int, tied: bool, rest: int): (r: Result<FMNote>)
    ensures r.Fail? <==> pitch < 0 && pitch != rest
    ensures r.Ok? ==> r.value.pitch == pitch && r.value.duration == duration
    ensures r.Ok? ==> !r.value.tiedToNext
  {
    if pitch < 0 && pitch != rest then Fail("IllegalArgumentException")
    else Ok(FMNote(pitch, duration, false))
  }

  /** The two-argument constructor delegates with `tied = false`. */
  function NewUntiedNote(pitch: int, duration: int, rest: int): (r: Result<FMNote>)
    ensures r.Fail? <==> pitch < 0 && pitch != rest
    ensures r.Ok? ==> r.value == FMNote(pitch, duration, false)
  {
    NewNote(pitch, duration, false, rest)
  }

  /** Because `tied` is never stored, both constructors build the same note whatever `tied` is. */
  lemma TiedArgumentIsIgnored(pitch: int, duration: int, tied: bool, rest: int)
    ensures NewNote(pitch, duration, tied, rest) == NewUntiedNote(pitch, duration, rest)
    ensures NewNote(pitch, duration, tied, rest).Ok? ==> !NewNote(pitch, duration, tied, rest).value.tiedToNext
  {
  }

  // Rhythm values, in units where a 128th note is 3.
  const ONE_TWENTY_EIGHTH_NOTE: int := 3
  const ONE_TWENTY_EIGHTH_NOTE_TRIPLET: int := 2
  const SIXTY_FOURTH_NOTE: int := 6
  const SIXTY_FOURTH_NOTE_TRIPLET: int := 4
  const DOTTED_SIXTY_FOURTH_NOTE: int := 9
  const THIRTY_SECOND_NOTE: int := 12
  const THIRTY_SECOND_NOTE_TRIPLET: int := 8
  const DOTTED_THIRTY_SECOND_NOTE: int := 18
  const SIXTEENTH_NOTE: int := 24
  const SIXTEENTH_NOTE_TRIPLET: int := 12
  const DOTTED_SIXTEENTH_NOTE: int := 36
  const EIGHTH_NOTE: int := 48
  const EIGHTH_NOTE_TRIPLET: int := 32
  const DOTTED_EIGHTH_NOTE: int := 72
  const QUARTER_NOTE: int := 96
  const QUARTER_NOTE_TRIPLET: int := 64
  const DOTTED_QUARTER_NOTE: int := 144
  const HALF_NOTE: int := 192
  const HALF_NOTE_TRIPLET: int := 128
  const DOTTED_HALF_NOTE: int := 288
  const WHOLE_NOTE: int := 384

  /** The plain values, each with its dotted form (none for the whole note) and its triplet form. */
  function PlainValues(): seq<int>
  {
    [ONE_TWENTY_EIGHTH_NOTE, SIXTY_FOURTH_NOTE, THIRTY_SECOND_NOTE, SIXTEENTH_NOTE,
     EIGHTH_NOTE, QUARTER_NOTE, HALF_NOTE, WHOLE_NOTE]
  }

  function DottedValues(): seq<int>
  {
    [DOTTED_SIXTY_FOURTH_NOTE, DOTTED_THIRTY_SECOND_NOTE, DOTTED_SIXTEENTH_NOTE,
     DOTTED_EIGHTH_NOTE, DOTTED_QUARTER_NOTE, DOTTED_HALF_NOTE]
  }

  function TripletValues(): seq<int>
  {
    [ONE_TWENTY_EIGHTH_NOTE_TRIPLET, SIXTY_FOURTH_NOTE_TRIPLET, THIRTY_SECOND_NOTE_TRIPLET,
     SIXTEENTH_NOTE_TRIPLET, EIGHTH_NOTE_TRIPLET, QUARTER_NOTE_TRIPLET, HALF_NOTE_TRIPLET]
  }

  /**
   * The whole note is 4 quarters and 8 eighths; each plain value doubles the
   * previous one; each dotted value is 3/2 of its plain value; every plain and
   * dotted value is a multiple of 3; every triplet value is 2/3 of its plain value
   * except the sixteenth-note triplet, which is 12 (the thirty-second note)
   * instead of 16.
   */
  lemma RhythmValueRelations()
    ensures WHOLE_NOTE == 384 == 4 * QUARTER_NOTE == 8 * EIGHTH_NOTE
    ensures forall i :: 0 < i < |PlainValues()| ==> PlainValues()[i] == 2 * PlainValues()[i - 1]
    ensures forall i :: 0 <= i < |DottedValues()| ==> 2 * DottedValues()[i] == 3 * PlainValues()[i + 1]
    ensures forall v :: v in PlainValues() + DottedValues() ==> v % 3 == 0
    ensures forall i :: 0 <= i < |TripletValues()| && i != 3 ==> 3 * TripletValues()[i] == 2 * PlainValues()[i]
    ensures SIXTEENTH_NOTE_TRIPLET == THIRTY_SECOND_NOTE && 3 * SIXTEENTH_NOTE_TRIPLET != 2 * SIXTEENTH_NOTE
  {
  }

  // ---------------------------------------------------------------------
  // MutableFMNote: same state, three setters, no validation in the setters.
  // ---------------------------------------------------------------------

  /** `setPitch`: replaces the pitch only; a negative pitch is not rejected here. */
  function SetPitch(n: FMNote, newPitch: int): (r: FMNote)
    ensures r.pitch == newPitch
    ensures r.duration == n.duration && r.tiedToNext == n.tiedToNext
  {
    n.(pitch := newPitch)
  }

  /** `setDuration`: replaces the duration only. */
  function SetDuration(n: FMNote, newDuration: int): (r: FMNote)
    ensures r.duration == newDuration
    ensures r.pitch == n.pitch && r.tiedToNext == n.tiedToNext
  {
    n.(duration := newDuration)
  }

  /** `setTiedToNext`: replaces the tie flag only. */
  function SetTiedToNext(n: FMNote, newTied: bool): (r: FMNote)
    ensures r.tiedToNext == newTied
    ensures r.pitch == n.pitch && r.duration == n.duration
  {
    n.(tiedToNext := newTied)
  }

  /**
   * The setters bypass the constructor's check: `setPitch` stores any pitch,
   * including every negative non-REST pitch the constructor refuses.
   */
  lemma SetPitchSkipsValidation(n: FMNote, p: int, rest: int)
    ensures SetPitch(n, p).pitch == p
    ensures p < 0 && p != rest ==> NewNote(SetPitch(n, p).pitch, n.duration, false, rest).Fail?
  {
  }
}

=== FILE: java_lang.dfy ===
/**
 * The few pieces of Java semantics the model depends on: 32-bit range,
 * truncating division and remainder, `Integer.parseInt`, `Integer.toString`,
 * and `String.indexOf` / `lastIndexOf` on a single character.
 */
module JavaLang {
  import opened Results

  const INT_MIN: int := -0x8000_0000
  const INT_MAX: int := 0x7fff_ffff

  predicate IsInt32(x: int) { INT_MIN <= x <= INT_MAX }

  function Abs(x: int): (r: nat)
    ensures r == x || r == -x
  {
    if x < 0 then -x else x
  }

  lemma {:induction false} MulAtLeast(d: int, k: int)
    requires d > 0 && k >= 1
    ensures d * k >= d
  {
    if k > 1 {
      MulAtLeast(d, k - 1);
      assert d * k == d * (k - 1) + d;
    }
  }

  /** Bounds on the quotient of non-negative by positive. */
  lemma DivBounds(a: int, b: int)
    requires a >= 0 && b > 0
    ensures 0 <= a / b <= a
    ensures a / b == 0 <==> a < b
  {
    var q := a / b;
    var r := a % b;
    assert a == b * q + r;
    if q < 0 {
      MulAtLeast(b, -q);
    }
    if q >= 1 {
      MulAtLeast(b, q);
      MulAtLeast(q, b);
    }
  }

  /** Java division of an exact multiple recovers the factor. */
  lemma ExactJavaDiv(k: int, d: int)
    requires d > 0
    ensures JavaDiv(k * d, d) == k
  {
    if k >= 0 {
      DivModUnique(k, d, 0);
    } else {
      assert Abs(k * d) == (-k) * d;
      DivModUnique(-k, d, 0);
    }
  }

  /** Euclidean division recovers quotient and remainder from `q * d + r`. */
  lemma DivModUnique(q: int, d: int, r: int)
    requires d > 0 && 0 <= r < d
    ensures (q * d + r) / d == q && (q * d + r) % d == r
  {
    var x := q * d + r;
    var q', r' := x / d, x % d;
    assert x == d * q' + r';
    if q' > q {
      MulAtLeast(d, q' - q);
    } else if q' < q {
      MulAtLeast(d, q - q');
    }
  }

  /** Java's `/` on `int`: the quotient is truncated toward zero. */
  function JavaDiv(a: int, b: int): (q: int)
    requires b != 0
    ensures (a >= 0) == (b > 0) ==> q == Abs(a) / Abs(b) && q >= 0
    ensures (a >= 0) != (b > 0) ==> q == -(Abs(a) / Abs(b)) && q <= 0
    ensures q == 0 <==> Abs(a) < Abs(b)
  {
    DivBounds(Abs(a), Abs(b));
    if (a >= 0) == (b > 0) then Abs(a) / Abs(b) else -(Abs(a) / Abs(b))
  }

  /** Java's `%` on `int`: the remainder takes the sign of the dividend. */
  function JavaRem(a: int, b: int): (r: int)
    requires b != 0
    ensures a == b * JavaDiv(a, b) + r
    ensures Abs(r) < Abs(b)
    ensures a >= 0 ==> 0 <= r
    ensures a < 0 ==> r <= 0
  {
    var m := Abs(a) % Abs(b);
    assert Abs(a) == Abs(b) * (Abs(a) / Abs(b)) + m;
    if a >= 0 then
      assert b * JavaDiv(a, b) == Abs(b) * (Abs(a) / Abs(b));
      m
    else
      assert b * JavaDiv(a, b) == -(Abs(b) * (Abs(a) / Abs(b)));
      -m
  }

  /** On a non-negative dividend and positive divisor Java and Dafny agree. */
  lemma NonNegativeDivision(a: int, b: int)
    requires a >= 0 && b > 0
    ensures JavaDiv(a, b) == a / b
    ensures JavaRem(a, b) == a % b
  {
  }

  // ---------------------------------------------------------------------
  // Decimal text
  // ---------------------------------------------------------------------

  predicate IsDigit(c: char) { '0' <= c <= '9' }

  function DigitValue(c: char): nat
    requires IsDigit(c)
  {
    (c as int) - ('0' as int)
  }

  function DigitChar(d: nat): (c: char)
    requires d < 10
    ensures IsDigit(c) && DigitValue(c) == d
  {
    (('0' as int) + d) as char
  }

  predicate AllDigits(s: string) {
    forall i :: 0 <= i < |s| ==> IsDigit(s[i])
  }

  /** The value of a string of decimal digits, most significant first. */
  function DigitsValue(s: string): nat
    requires AllDigits(s)
  {
    if |s| == 0 then 0 else 10 * DigitsValue(s[..|s| - 1]) + DigitValue(s[|s| - 1])
  }

  /** The decimal digits of a natural number, without leading zeros. */
  function NatToString(n: nat): (s: string)
    ensures |s| > 0 && AllDigits(s)
    ensures DigitsValue(s) == n
  {
    if n < 10 then [DigitChar(n)]
    else
      var s := NatToString(n / 10) + [DigitChar(n % 10)];
      assert s[..|s| - 1] == NatToString(n / 10);
      s
  }

  /** Java's `Integer.toString` (decimal, '-' for negatives). */
  function IntToString(n: int): (s: string)
    ensures |s| > 0
    ensures forall i :: 0 <= i < |s| ==> s[i] == '-' || IsDigit(s[i])
  {
    if n < 0 then "-" + NatToString(-n) else NatToString(n)
  }

  /**
   * Java's `Integer.parseInt` in radix 10: an optional '+' or '-' followed by at
   * least one digit, with a value inside the 32-bit range; anything else is a
   * `NumberFormatException`, modelled as `None`. Only the ASCII digits '0'..'9'
   * are digits here (Java also accepts the other Unicode decimal digits).
   */
  function ParseInt(s: string): (r: Option<int>)
    ensures r.Some? ==> IsInt32(r.value)
    ensures |s| == 0 ==> r.None?
    ensures r.Some? ==> forall i :: 0 < i < |s| ==> IsDigit(s[i])
    ensures r.Some? ==> IsDigit(s[0]) || ((s[0] == '-' || s[0] == '+') && |s| >= 2)
    ensures r.Some? && s[0] != '-' ==> r.value >= 0
    ensures |s| > 0 && AllDigits(s) ==> r == (if DigitsValue(s) <= INT_MAX then Some(DigitsValue(s)) else None)
  {
    if |s| == 0 then None
    else
      var negative := s[0] == '-';
      var digits := if s[0] == '-' || s[0] == '+' then s[1..] else s;
      if |digits| == 0 || !AllDigits(digits) then None
      else
        var d: int := DigitsValue(digits);
        var v := if negative then -d else d;
        if IsInt32(v) then Some(v) else None
  }

  /** `Integer.parseInt(Integer.toString(n)) == n` for every `int`. */
  lemma ParseIntToString(n: int)
    requires IsInt32(n)
    ensures ParseInt(IntToString(n)) == Some(n)
  {
    if n < 0 {
      assert IntToString(n)[1..] == NatToString(-n);
    }
  }

  // ---------------------------------------------------------------------
  // Character search
  // ---------------------------------------------------------------------

  /** `String.indexOf(c)`: the first position of `c`, or -1. */
  function IndexOf(s: string, c: char): (r: int)
    ensures -1 <= r < |s|
    ensures r == -1 <==> c !in s
    ensures r >= 0 ==> s[r] == c && c !in s[..r]
  {
    if |s| == 0 then -1
    else if s[0] == c then 0
    else
      var r := IndexOf(s[1..], c);
      assert c in s <==> c in s[1..] by {
        assert s == [s[0]] + s[1..];
      }
      if r == -1 then -1
      else
        assert s[..r + 1] == [s[0]] + s[1..][..r];
        r + 1
  }

  /** `String.lastIndexOf(c)`: the last position of `c`, or -1. */
  function LastIndexOf(s: string, c: char): (r: int)
    ensures -1 <= r < |s|
    ensures r == -1 <==> c !in s
    ensures r >= 0 ==> s[r] == c && c !in s[r + 1..]
  {
    if |s| == 0 then -1
    else if s[|s| - 1] == c then |s| - 1
    else
      var r := LastIndexOf(s[..|s| - 1], c);
      assert c in s <==> c in s[..|s| - 1] by {
        assert s == s[..|s| - 1] + [s[|s| - 1]];
      }
      if r >= 0 then
        assert s[r + 1..] == s[..|s| - 1][r + 1..] + [s[|s| - 1]];
        r
      else r
  }
}

=== FILE: key_signature.dfy ===
/**
 * KeySignature: the read interface every key offers (scale pitches, tonic,
 * scale size, membership of a pitch or a chord in the key).
 */
module KeySignatures {
  import opened Results
  import opened JavaLang

  const HALF_STEP: int := 1
  const WHOLE_STEP: int := 2
  const STEP_AND_A_HALF: int := 3
  const MAJOR: int := 0
  const MINOR: int := 1

  /**
   * The state KeySignature holds. `name` is `None` where the Java field stays
   * null. `quality` is MAJOR (0) or MINOR (1) for every key the constructors
   * build.
   */
  datatype Key = Key(scale: seq<int>, sharpsOrFlats: int, quality: int, name: Option<string>)

  /** Pitch classes as Java computes them: `%` keeps the sign of the pitch. */
  function PitchClass(p: int): (r: int)
    ensures -12 < r < 12
    ensures p >= 0 ==> r == p % 12
  {
    JavaRem(p, 12)
  }

  /** Scans the scale from position `i` for a pitch of the same class as `pitch`. */
  function MatchesFrom(scale: seq<int>, i: nat, pitch: int): (r: bool)
    requires i <= |scale|
    ensures r <==> exists j :: i <= j < |scale| && PitchClass(scale[j]) == PitchClass(pitch)
    decreases |scale| - i
  {
    if i == |scale| then false
    else if PitchClass(scale[i]) == PitchClass(pitch) then true
    else MatchesFrom(scale, i + 1, pitch)
  }

  /** `matchesKey`: some scale pitch has the same (Java) remainder mod 12 as `pitch`. */
  function MatchesKey(k: Key, pitch: int): (r: bool)
    ensures r <==> exists j :: 0 <= j < |k.scale| && PitchClass(k.scale[j]) == PitchClass(pitch)
  {
    MatchesFrom(k.scale, 0, pitch)
  }

  /** For non-negative pitches, key membership does not depend on the octave. */
  lemma MatchesKeyOctaveInvariant(k: Key, pitch: int)
    requires pitch >= 0
    ensures MatchesKey(k, pitch) == MatchesKey(k, pitch + 12)
  {
    assert PitchClass(pitch) == PitchClass(pitch + 12);
  }

  /** Below zero Java's remainder breaks octave invariance: -1 and 11 differ against a scale holding 11. */
  lemma NegativePitchOctaveCounterexample()
    ensures MatchesKey(Key([11], 0, MAJOR, None), 11)
    ensures !MatchesKey(Key([11], 0, MAJOR, None), -1)
  {
    assert PitchClass(11) == 11;
    assert PitchClass(-1) == -1;
  }

  /** `chordMatchesKey`: every pitch of the chord is in the key (so the empty chord is). */
  function ChordMatchesKey(k: Key, chord: seq<int>): (r: bool)
    ensures r <==> forall i :: 0 <= i < |chord| ==> MatchesKey(k, chord[i])
  {
    if |chord| == 0 then true
    else if !MatchesKey(k, chord[0]) then false
    else
      var rest := ChordMatchesKey(k, chord[1..]);
      assert forall i :: 1 <= i < |chord| ==> chord[i] == chord[1..][i - 1];
      rest
  }

  /** `getNthPitch`: scale degree `n`, 0 being the tonic. Every degree is in the key. */
  function NthPitch(k: Key, n: nat): (r: int)
    requires n < |k.scale|
    ensures r in k.scale && MatchesKey(k, r)
  {
    k.scale[n]
  }

  /** `getTonic`: the first pitch of the scale, which is in the key. */
  function Tonic(k: Key): (r: int)
    requires |k.scale| > 0
    ensures r == k.scale[0] && MatchesKey(k, r)
  {
    NthPitch(k, 0)
  }

  /**
   * `getScaleSize`: the number of scale pitches, so `getNthPitch` is defined
   * exactly below it, and every degree below it matches the key.
   */
  function ScaleSize(k: Key): (r: nat)
    ensures r == |k.scale|
    ensures forall n: nat :: n < r ==> n < |k.scale| && MatchesKey(k, NthPitch(k, n))
  {
    |k.scale|
  }

  /** The tonic is degree 0, which is the first scale pitch; the size is the scale length. */
  lemma TonicIsDegreeZero(k: Key)
    requires |k.scale| > 0
    ensures Tonic(k) == NthPitch(k, 0) == k.scale[0]
    ensures ScaleSize(k) == |k.scale|
  {
  }
}

=== FILE: located_note.dfy ===
/**
 * LocatedNote: a jMusic note (pitch, rhythm value) that also carries its start
 * time, ordered by start time only.
 */
module LocatedNotes {

  /** Rhythm value and time are Java doubles, modelled as reals. */
  datatype LocatedNote = LocatedNote(pitch: int, rhythm: real, time: real)

  /** `setTime`: replaces the start time and nothing else. */
  function SetTime(n: LocatedNote, newTime: real): (r: LocatedNote)
    ensures r.time == newTime
    ensures r.pitch == n.pitch && r.rhythm == n.rhythm
  {
    n.(time := newTime)
  }

  /** `compareTo`: `Double.compareTo` of the two start times (-1, 0 or 1). */
  function CompareTo(a: LocatedNote, b: LocatedNote): (r: int)
    ensures r < 0 <==> a.time < b.time
    ensures r == 0 <==> a.time == b.time
    ensures r > 0 <==> a.time > b.time
    ensures -1 <= r <= 1
  {
    if a.time < b.time then -1 else if a.time == b.time then 0 else 1
  }

  /**
   * `compareTo` is a total preorder that ignores pitch and rhythm: it is
   * reflexive, antisymmetric in sign, transitive, and two notes that start
   * together compare equal whatever their pitches.
   */
  lemma CompareToIsTimeOrder(a: LocatedNote, b: LocatedNote, c: LocatedNote)
    ensures CompareTo(a, a) == 0
    ensures CompareTo(a, b) == -CompareTo(b, a)
    ensures CompareTo(a, b) <= 0 && CompareTo(b, c) <= 0 ==> CompareTo(a, c) <= 0
    ensures CompareTo(a, b) <= 0 || CompareTo(b, a) <= 0
    ensures a.time == b.time ==> CompareTo(a, b) == 0
  {
  }
}

=== FILE: markov_chain.dfy ===
/**
 * The string side of the interval Markov-chain packet. A state is a list of
 * interval tokens joined by '|'; each token reads `<offset>X<duration>`, where
 * the offset is in semitones from the tonic. The model covers four things:
 * - detecting the chain's order from one state;
 * - the all-'~' start state;
 * - how a data row shifts a from-state into a to-state and updates the table;
 * - how the packet turns a state into a note, including the counter that
 *   stretches triplets over three notes.
 * The weighted draw and its key-preferring reweighting work in floating point
 * and are not modelled.
 */
module MarkovChains {
  import opened Results
  import opened JavaLang

  /** Separates the interval tokens of a state. */
  const SEPARATOR: char := '|'
  /** The token standing for "no note yet" in the start state. */
  const START: string := "~"
  /** Separates a token's pitch offset from its duration. */
  const DURATION_MARK: char := 'X'

  /** Outer keys are from-states; inner keys are to-states, mapped to probabilities. */
  type Row = map<string, real>
  type Table = map<string, Row>

  /** How many '|' characters `s` holds. */
  function Separators(s: string): (r: nat)
    ensures r <= |s|
    ensures r == 0 <==> SEPARATOR !in s
  {
    if |s| == 0 then 0
    else
      assert s == s[..|s| - 1] + [s[|s| - 1]];
      (if s[|s| - 1] == SEPARATOR then 1 else 0) + Separators(s[..|s| - 1])
  }

  lemma {:induction false} SeparatorsAppend(a: string, b: string)
    ensures Separators(a + b) == Separators(a) + Separators(b)
    decreases |b|
  {
    if |b| > 0 {
      var ab := a + b;
      assert ab[..|ab| - 1] == a + b[..|b| - 1];
      assert ab[|ab| - 1] == b[|b| - 1];
      SeparatorsAppend(a, b[..|b| - 1]);
    } else {
      assert a + b == a;
    }
  }

  // ---------------------------------------------------------------------
  // Order detection and the start state
  // ---------------------------------------------------------------------

  /**
   * `setOrder`: the order is one more than the number of separators in the
   * first state the table's key iterator yields; `states` lists the table's
   * from-states in that iteration order. An empty table has no first key.
   */
  function SetOrder(states: seq<string>): (r: Result<nat>)
    ensures r.Fail? <==> |states| == 0
    ensures r.Ok? ==> r.value >= 1
    ensures r.Ok? ==> (r.value == 1 <==> SEPARATOR !in states[0])
    ensures r.Ok? ==> r.value == 1 + Separators(states[0])
  {
    if |states| == 0 then Fail("NoSuchElementException")
    else Ok(1 + Separators(states[0]))
  }

  /**
   * When every state of the table has the same number of separators, as in
   * well-formed chain data, the detected order does not depend on the
   * iteration order of the keys.
   */
  lemma SetOrderIgnoresIterationOrder(a: seq<string>, b: seq<string>, k: nat)
    requires |a| > 0 && |b| > 0
    requires forall i :: 0 <= i < |a| ==> Separators(a[i]) == k
    requires forall i :: 0 <= i < |b| ==> Separators(b[i]) == k
    ensures SetOrder(a) == SetOrder(b) == Ok(k + 1)
  {
    assert Separators(a[0]) == k && Separators(b[0]) == k;
  }

  /** `String.join("|", nCopies(order, "~"))`. */
  function StartState(order: nat): (r: string)
    ensures |r| == if order == 0 then 0 else 2 * order - 1
    ensures forall i :: 0 <= i < |r| ==> r[i] == if i % 2 == 0 then START[0] else SEPARATOR
  {
    if order == 0 then ""
    else if order == 1 then START
    else StartState(order - 1) + [SEPARATOR] + START
  }

  lemma {:induction false} StartStateSeparators(order: nat)
    requires order >= 1
    ensures Separators(StartState(order)) == order - 1
  {
    StartHasNoSeparator();
    if order > 1 {
      StartStateSeparators(order - 1);
      assert StartState(order) == StartState(order - 1) + [SEPARATOR] + START;
      SeparatorsAround(StartState(order - 1), START);
    } else {
      assert StartState(order) == START;
    }
  }

  lemma StartHasNoSeparator()
    ensures Separators(START) == 0
  {
    assert START == "~" && SEPARATOR !in START;
  }

  /**
   * The start state built for a detected order has that order again: it has
   * `order` tokens and `order - 1` separators.
   */
  lemma StartStateRoundTrip(order: nat, others: seq<string>)
    requires order >= 1
    ensures SetOrder([StartState(order)] + others) == Ok(order)
  {
    StartStateSeparators(order);
    SetOrderOfFirst(StartState(order), others, order);
  }

  /** The order is read off the state the iteration gives first. */
  lemma SetOrderOfFirst(first: string, others: seq<string>, order: nat)
    requires order >= 1 && Separators(first) == order - 1
    ensures SetOrder([first] + others) == Ok(order)
  {
  }

  // ---------------------------------------------------------------------
  // Reading a data row
  // ---------------------------------------------------------------------

  /**
   * The to-state of a data row: the from-state after its first separator,
   * then '|' and the new token. A from-state without a separator is kept
   * whole, since `indexOf` gives -1 there.
   */
  function ShiftState(from: string, token: string): (r: string)
    ensures |r| > |token|
    ensures r[|r| - |token| - 1..] == [SEPARATOR] + token
    ensures SEPARATOR !in from ==> r == from + [SEPARATOR] + token
  {
    var r := from[IndexOf(from, SEPARATOR) + 1..] + [SEPARATOR] + token;
    assert r[|r| - |token| - 1..] == [SEPARATOR] + token;
    r
  }

  /** Shifting trades the from-state's first separator for the one before the token. */
  lemma ShiftSeparators(from: string, token: string)
    ensures Separators(ShiftState(from, token))
         == Separators(from) + Separators(token) + (if SEPARATOR in from then 0 else 1)
  {
    var i := IndexOf(from, SEPARATOR);
    var rest := from[i + 1..];
    assert ShiftState(from, token) == rest + [SEPARATOR] + token;
    SeparatorsAround(rest, token);
    if i >= 0 {
      SeparatorsSplit(from, i);
    } else {
      assert rest == from;
    }
  }

  /** Counting separators on both sides of position `i`. */
  lemma SeparatorsSplit(s: string, i: nat)
    requires i < |s| && s[i] == SEPARATOR && SEPARATOR !in s[..i]
    ensures Separators(s) == 1 + Separators(s[i + 1..])
  {
    assert s == s[..i] + [SEPARATOR] + s[i + 1..];
    SeparatorsAround(s[..i], s[i + 1..]);
  }

  lemma SeparatorsAround(a: string, b: string)
    ensures Separators(a + [SEPARATOR] + b) == Separators(a) + 1 + Separators(b)
  {
    SeparatorsAppend(a + [SEPARATOR], b);
    SeparatorsAppend(a, [SEPARATOR]);
    assert Separators([SEPARATOR]) == 1 by {
      assert [SEPARATOR][..0] == [];
    }
  }

  /** Shifting drops exactly the first token of the from-state. */
  lemma ShiftDropsFirstToken(head: string, tail: string, token: string)
    requires SEPARATOR !in head
    ensures ShiftState(head + [SEPARATOR] + tail, token) == tail + [SEPARATOR] + token
  {
    var from := head + [SEPARATOR] + tail;
    assert from[|head|] == SEPARATOR;
    assert from[..|head|] == head;
    assert IndexOf(from, SEPARATOR) == |head|;
    assert from[|head| + 1..] == tail;
  }

  /**
   * A to-state has as many separators as its from-state, so a chain keeps
   * its order, whenever the from-state has a separator and the token none.
   */
  lemma ShiftKeepsOrder(from: string, token: string)
    requires SEPARATOR in from && SEPARATOR !in token
    ensures Separators(ShiftState(from, token)) == Separators(from)
  {
    ShiftSeparators(from, token);
  }

  /**
   * `readIntoTable` on one line, already split at ", " into `tokens`.
   * `parseFloat` stands for `Scanner.nextFloat`: `None` when the third token
   * is not a number.
   */
  function ReadIntoTable(table: Table, tokens: seq<string>, parseFloat: string -> Option<real>): (r: Result<Table>)
    ensures |tokens| < 3 ==> r == Ok(table)
    ensures r.Fail? <==> |tokens| >= 3 && parseFloat(tokens[2]).None?
    ensures r.Ok? && |tokens| >= 3 ==>
      var from := tokens[0];
      var to := ShiftState(from, tokens[1]);
      && r.value.Keys == table.Keys + {from}
      && to in r.value[from]
      && r.value[from][to] == parseFloat(tokens[2]).value
      && r.value[from].Keys == (if from in table then table[from].Keys else {}) + {to}
      && (forall s :: s in table && s != from ==> r.value[s] == table[s])
      && (forall t :: from in table && t in table[from] && t != to ==> r.value[from][t] == table[from][t])
  {
    if |tokens| < 3 then Ok(table)
    else
      var from := tokens[0];
      var to := ShiftState(from, tokens[1]);
      match parseFloat(tokens[2])
      case None => Fail("InputMismatchException")
      case Some(p) =>
        var row := if from in table then table[from] else map[];
        Ok(table[from := row[to := p]])
  }

  /** A later line for the same transition overwrites the earlier probability. */
  lemma ReadTwiceLastWins(table: Table, first: seq<string>, second: seq<string>, parseFloat: string -> Option<real>)
    requires |first| >= 3 && |second| >= 3
    requires first[0] == second[0] && first[1] == second[1]
    requires parseFloat(first[2]).Some? && parseFloat(second[2]).Some?
    ensures ReadIntoTable(table, first, parseFloat).Ok?
    ensures
      var t1 := ReadIntoTable(table, first, parseFloat).value;
      var t2 := ReadIntoTable(t1, second, parseFloat);
      && t2.Ok?
      && t2.value.Keys == t1.Keys
      && t2.value[first[0]][ShiftState(first[0], first[1])] == parseFloat(second[2]).value
      && t2.value[first[0]].Keys == t1[first[0]].Keys
  {
  }

  // ---------------------------------------------------------------------
  // From state to note
  // ---------------------------------------------------------------------

  /** The last token of a state: everything after its last separator. */
  function LastToken(state: string): (r: string)
    ensures SEPARATOR !in r
    ensures SEPARATOR !in state ==> r == state
  {
    var i := LastIndexOf(state, SEPARATOR);
    assert i < 0 ==> state[i + 1..] == state;
    state[i + 1..]
  }

  /** Whatever follows the last separator is the last token. */
  lemma LastTokenAfterSeparator(head: string, token: string)
    requires SEPARATOR !in token
    ensures LastToken(head + [SEPARATOR] + token) == token
  {
    var s := head + [SEPARATOR] + token;
    assert s[|head|] == SEPARATOR;
    assert s[|head| + 1..] == token;
    assert LastIndexOf(s, SEPARATOR) == |head|;
  }

  /** The token a data row appends is the one the packet later plays. */
  lemma LastTokenOfShift(from: string, token: string)
    requires SEPARATOR !in token
    ensures LastToken(ShiftState(from, token)) == token
  {
    var s := ShiftState(from, token);
    var head := s[..|s| - |token| - 1];
    assert s == head + [SEPARATOR] + token;
    LastTokenAfterSeparator(head, token);
  }

  /**
   * The triplet counter. `inTriplet` and `remaining` are the packet's
   * `inTriplet` and `remainingTriplet`; `dur` is the duration every note of
   * the current triplet gets.
   */
  datatype TripletCounter = TripletCounter(inTriplet: bool, remaining: int, dur: real)

  const NO_TRIPLET: TripletCounter := TripletCounter(false, 0, 0.0)

  /** Notes a triplet still owes are counted by `remaining`, which is 0, 1 or 2. */
  predicate CounterValid(c: TripletCounter) {
    (c.inTriplet <==> c.remaining > 0) && 0 <= c.remaining <= 2
  }

  /** The eighth note played when a triplet does not fit in the measure. */
  const EIGHTH: real := 0.5

  /**
   * One note through the counter. `duration` is the parsed duration;
   * `tripletLength` says whether it rounds to a triplet length and `fits`
   * whether three of it fit in what is left of the measure. Returns the new
   * counter and the duration to play.
   */
  function TripletStep(c: TripletCounter, duration: real, tripletLength: bool, fits: bool): (r: (TripletCounter, real))
    ensures CounterValid(c) ==> CounterValid(r.0)
    ensures r.1 == duration || r.1 == c.dur || r.1 == EIGHTH
    ensures c.inTriplet && c.remaining > 0 ==> r.0.remaining == c.remaining - 1 && r.1 == c.dur
    ensures CounterValid(c) && !c.inTriplet ==>
      (r.0.inTriplet <==> tripletLength && fits) && (r.0.inTriplet ==> r.0.remaining == 2)
    ensures !(c.inTriplet && c.remaining > 0) ==>
      && (tripletLength && !fits ==> r == (c, EIGHTH))
      && (tripletLength && fits ==> r == (TripletCounter(true, 2, duration), duration))
      && (!tripletLength ==> r == (c, duration))
  {
    if c.inTriplet && c.remaining > 0 then
      var left := c.remaining - 1;
      (TripletCounter(if left == 0 then false else c.inTriplet, left, c.dur), c.dur)
    else if tripletLength then
      if !fits then (c, EIGHTH)
      else (TripletCounter(true, 2, duration), duration)
    else (c, duration)
  }

  /** The counter starts outside a triplet. */
  lemma InitialCounterValid()
    ensures CounterValid(NO_TRIPLET) && !NO_TRIPLET.inTriplet
  {
  }

  /**
   * A triplet that starts is played over exactly three notes of its first
   * note's duration, whatever the next two notes say, and the counter is
   * outside a triplet afterwards.
   */
  lemma TripletSpansThreeNotes(c: TripletCounter, d0: real, d1: real, d2: real,
                               l1: bool, l2: bool, f1: bool, f2: bool)
    requires CounterValid(c) && !c.inTriplet
    ensures
      var s0 := TripletStep(c, d0, true, true);
      var s1 := TripletStep(s0.0, d1, l1, f1);
      var s2 := TripletStep(s1.0, d2, l2, f2);
      && s0.1 == d0 && s1.1 == d0 && s2.1 == d0
      && s0.0.inTriplet && s1.0.inTriplet && !s2.0.inTriplet
      && s2.0.remaining == 0
  {
  }

  /** The note the packet plays for a state, and the counter after it. */
  datatype Played = Played(pitch: int, duration: real, counter: TripletCounter)

  /**
   * `addNote`. The last token of `state` is split at its last 'X' into a
   * pitch offset and a duration; a token without 'X' makes `substring`
   * throw. An offset or duration that does not parse is reported and the
   * tonic is played with duration 0, the counter untouched. Otherwise the
   * pitch is `rest` when the offset is the REST value and `tonic + offset`
   * otherwise. The tonic, the REST value, the duration parser and the two
   * triplet tests are parameters: they come from the composition, jMusic and
   * double arithmetic.
   */
  function AddNote(state: string, tonic: int, rest: int, parseDouble: string -> Option<real>,
                   c: TripletCounter, tripletLength: real -> bool, fits: bool): (r: Result<Played>)
    ensures r.Fail? <==> DURATION_MARK !in LastToken(state)
    ensures r.Ok? && CounterValid(c) ==> CounterValid(r.value.counter)
  {
    var token := LastToken(state);
    var x := LastIndexOf(token, DURATION_MARK);
    if x < 0 then Fail("StringIndexOutOfBoundsException")
    else
      match ParseInt(token[..x])
      case None => Ok(Played(tonic, 0.0, c))
      case Some(offset) =>
        match parseDouble(token[x + 1..])
        case None => Ok(Played(tonic, 0.0, c))
        case Some(d) =>
          var (c', played) := TripletStep(c, d, tripletLength(d), fits);
          Ok(Played(if offset == rest then rest else tonic + offset, played, c'))
  }

  /**
   * The pitch played for a state whose last token is `<offset>X<duration>`
   * is the tonic moved by that offset, or REST; a malformed offset plays the
   * tonic for no time.
   */
  lemma AddNoteReadsLastToken(head: string, offset: int, durationText: string, tonic: int, rest: int,
                              parseDouble: string -> Option<real>, c: TripletCounter,
                              tripletLength: real -> bool, fits: bool)
    requires IsInt32(offset)
    requires SEPARATOR !in durationText && DURATION_MARK !in durationText
    ensures
      var state := head + [SEPARATOR] + IntToString(offset) + [DURATION_MARK] + durationText;
      var r := AddNote(state, tonic, rest, parseDouble, c, tripletLength, fits);
      && r.Ok?
      && (parseDouble(durationText).Some? ==> r.value.pitch == if offset == rest then rest else tonic + offset)
      && (parseDouble(durationText).None? ==> r.value == Played(tonic, 0.0, c))
  {
    var text := IntToString(offset);
    var token := text + [DURATION_MARK] + durationText;
    NumberTextHasNoMarks(offset);
    assert SEPARATOR !in token by {
      assert token == text + ([DURATION_MARK] + durationText);
    }
    var state := head + [SEPARATOR] + text + [DURATION_MARK] + durationText;
    assert state == head + [SEPARATOR] + token;
    LastTokenAfterSeparator(head, token);
    ParseIntToString(offset);
    AddNoteOfToken(state, text, offset, durationText, tonic, rest, parseDouble, c, tripletLength, fits);
  }

  lemma AddNoteOfToken(state: string, offsetText: string, offset: int, durationText: string, tonic: int, rest: int,
                       parseDouble: string -> Option<real>, c: TripletCounter,
                       tripletLength: real -> bool, fits: bool)
    requires LastToken(state) == offsetText + [DURATION_MARK] + durationText
    requires ParseInt(offsetText) == Some(offset) && DURATION_MARK !in durationText
    ensures
      var r := AddNote(state, tonic, rest, parseDouble, c, tripletLength, fits);
      && r.Ok?
      && (parseDouble(durationText).Some? ==> r.value.pitch == if offset == rest then rest else tonic + offset)
      && (parseDouble(durationText).None? ==> r.value == Played(tonic, 0.0, c))
  {
    SplitAtDurationMark(offsetText, durationText);
  }

  lemma NumberTextHasNoMarks(n: int)
    ensures SEPARATOR !in IntToString(n) && DURATION_MARK !in IntToString(n)
  {
    var t := IntToString(n);
    forall i | 0 <= i < |t| ensures t[i] != SEPARATOR && t[i] != DURATION_MARK {
      assert t[i] == '-' || IsDigit(t[i]);
    }
  }

  /** A token splits at the 'X' between its offset and its duration. */
  lemma SplitAtDurationMark(offsetText: string, durationText: string)
    requires DURATION_MARK !in durationText
    ensures
      var token := offsetText + [DURATION_MARK] + durationText;
      var x := LastIndexOf(token, DURATION_MARK);
      x == |offsetText| && token[..x] == offsetText && token[x + 1..] == durationText
  {
    var token := offsetText + [DURATION_MARK] + durationText;
    assert token[|offsetText|] == DURATION_MARK;
    assert token[|offsetText| + 1..] == durationText;
    assert token[..|offsetText|] == offsetText;
  }
}

=== FILE: melodic_line_extractor.dfy ===
/**
 * MelodicLineExtractor: flattens the notes of one or more parts into located
 * notes (optionally smoothing each pitch with its neighbours), then keeps one
 * note per start time.
 */
module MelodicLines {
  import opened JavaLang
  import opened LocatedNotes
  import opened Sorting

  /**
   * A note of an input phrase: pitch, rhythm value, and the start time the
   * phrase reports for it (`getNoteStartTime`).
   */
  datatype SourceNote = SourceNote(pitch: int, rhythm: real, start: real)

  type Phrase = seq<SourceNote>
  type Part = seq<Phrase>

  /** First index of the smoothing window around note `i`. */
  function WindowLow(i: nat): nat { if i == 0 then 0 else i - 1 }

  /** One past the last index of the smoothing window around note `i` of `n`. */
  function WindowHigh(n: nat, i: nat): nat { if i + 1 == n then i + 1 else i + 2 }

  lemma TruncatedMeanOfTwo(a: int, b: int)
    ensures a <= b ==> a <= JavaDiv(a + b, 2) <= b
    ensures b <= a ==> b <= JavaDiv(a + b, 2) <= a
  {
  }

  lemma TruncatedMeanOfThree(a: int, b: int, c: int, lo: int, hi: int)
    requires lo <= a <= hi && lo <= b <= hi && lo <= c <= hi
    ensures lo <= JavaDiv(a + b + c, 3) <= hi
  {
  }

  /** The sum of the pitches of the notes at positions `lo` up to (not including) `hi`. */
  function WindowSum(notes: Phrase, lo: nat, hi: nat): int
    requires lo <= hi <= |notes|
    decreases hi - lo
  {
    if lo == hi then 0 else notes[lo].pitch + WindowSum(notes, lo + 1, hi)
  }

  /** The window around note `i` holds the note and whichever neighbours exist. */
  lemma WindowSumIsNeighbours(notes: Phrase, i: nat)
    requires i < |notes|
    ensures WindowHigh(|notes|, i) <= |notes|
    ensures WindowHigh(|notes|, i) - WindowLow(i) ==
      1 + (if |notes| != i + 1 then 1 else 0) + (if i != 0 then 1 else 0)
    ensures WindowSum(notes, WindowLow(i), WindowHigh(|notes|, i)) ==
      notes[i].pitch + (if |notes| != i + 1 then notes[i + 1].pitch else 0)
                     + (if i != 0 then notes[i - 1].pitch else 0)
  {
    var hi := WindowHigh(|notes|, i);
    assert WindowSum(notes, hi, hi) == 0;
    if i + 1 < |notes| {
      assert WindowSum(notes, i + 1, hi) == notes[i + 1].pitch;
    }
    assert WindowSum(notes, i, hi) == notes[i].pitch + (if |notes| != i + 1 then notes[i + 1].pitch else 0);
  }

  /**
   * The smoothed pitch of note `i`: the sum of its pitch and whichever
   * neighbours exist, divided (Java integer division) by how many there are.
   * It never leaves the range of the pitches it averages.
   */
  function SmoothedPitch(notes: Phrase, i: nat): (p: int)
    requires i < |notes|
    ensures exists j :: WindowLow(i) <= j < WindowHigh(|notes|, i) && notes[j].pitch <= p
    ensures exists j :: WindowLow(i) <= j < WindowHigh(|notes|, i) && p <= notes[j].pitch
    ensures WindowHigh(|notes|, i) <= |notes| && 1 <= WindowHigh(|notes|, i) - WindowLow(i) <= 3
    ensures p == JavaDiv(WindowSum(notes, WindowLow(i), WindowHigh(|notes|, i)), WindowHigh(|notes|, i) - WindowLow(i))
  {
    var hasNext := |notes| != i + 1;
    var hasPrev := 0 != i;
    var sum := notes[i].pitch + (if hasNext then notes[i + 1].pitch else 0)
                              + (if hasPrev then notes[i - 1].pitch else 0);
    var n := 1 + (if hasNext then 1 else 0) + (if hasPrev then 1 else 0);
    WindowSumIsNeighbours(notes, i);
    var p := JavaDiv(sum, n);
    if hasNext && hasPrev then
      var a, b, c := notes[i - 1].pitch, notes[i].pitch, notes[i + 1].pitch;
      var lo := if a <= b && a <= c then a else if b <= c then b else c;
      var hi := if a >= b && a >= c then a else if b >= c then b else c;
      TruncatedMeanOfThree(b, c, a, lo, hi);
      p
    else if hasNext then
      TruncatedMeanOfTwo(notes[i].pitch, notes[i + 1].pitch);
      p
    else if hasPrev then
      TruncatedMeanOfTwo(notes[i].pitch, notes[i - 1].pitch);
      p
    else
      p
  }

  /** A phrase whose pitches are all equal is left unchanged by smoothing. */
  lemma SmoothingKeepsConstantLine(notes: Phrase, i: nat, pitch: int)
    requires i < |notes|
    requires forall j :: 0 <= j < |notes| ==> notes[j].pitch == pitch
    ensures SmoothedPitch(notes, i) == pitch
  {
    var p := SmoothedPitch(notes, i);
    var j1 :| WindowLow(i) <= j1 < WindowHigh(|notes|, i) && notes[j1].pitch <= p;
    var j2 :| WindowLow(i) <= j2 < WindowHigh(|notes|, i) && p <= notes[j2].pitch;
  }

  /** The inner loop of `extractNotesFromPart` for one phrase. */
  function ExtractPhrase(notes: Phrase, smooth: bool): (r: seq<LocatedNote>)
    ensures |r| == |notes|
    ensures forall i :: 0 <= i < |notes| ==>
      r[i].rhythm == notes[i].rhythm && r[i].time == notes[i].start
    ensures !smooth ==> forall i :: 0 <= i < |notes| ==> r[i].pitch == notes[i].pitch
    ensures smooth ==> forall i :: 0 <= i < |notes| ==> r[i].pitch == SmoothedPitch(notes, i)
  {
    seq(|notes|, i requires 0 <= i < |notes| =>
      LocatedNote(if smooth then SmoothedPitch(notes, i) else notes[i].pitch, notes[i].rhythm, notes[i].start))
  }

  /** `extractNotesFromPart`: every phrase in order, each smoothed within itself. */
  function ExtractPart(part: Part, smooth: bool): (r: seq<LocatedNote>)
    ensures |r| == TotalNotes(part)
  {
    if |part| == 0 then [] else ExtractPart(part[..|part| - 1], smooth) + ExtractPhrase(part[|part| - 1], smooth)
  }

  function TotalNotes(part: Part): nat
  {
    if |part| == 0 then 0 else TotalNotes(part[..|part| - 1]) + |part[|part| - 1]|
  }

  /** The start times of the notes of every phrase of a part. */
  function PhraseTimes(part: Part): set<real>
  {
    if |part| == 0 then {}
    else PhraseTimes(part[..|part| - 1]) + set n | n in part[|part| - 1] :: n.start
  }

  /** The extracted notes start exactly at the input notes' start times. */
  lemma {:induction false} ExtractPartTimes(part: Part, smooth: bool)
    ensures Times(ExtractPart(part, smooth)) == PhraseTimes(part)
  {
    if |part| > 0 {
      var init := ExtractPart(part[..|part| - 1], smooth);
      var ph := part[|part| - 1];
      var last := ExtractPhrase(ph, smooth);
      ExtractPartTimes(part[..|part| - 1], smooth);
      TimesOfConcat(init, last);
      forall t | t in Times(last) ensures t in set n | n in ph :: n.start {
        var i :| 0 <= i < |last| && last[i].time == t;
        assert ph[i] in ph;
      }
      forall t | t in (set n | n in ph :: n.start) ensures t in Times(last) {
        var n :| n in ph && n.start == t;
        var i :| 0 <= i < |ph| && ph[i] == n;
        assert last[i].time == t;
      }
    }
  }

  /** The located notes of all parts, part after part; `Extract` states what survives of them. */
  function ExtractParts(parts: seq<Part>, smooth: bool): seq<LocatedNote>
  {
    if |parts| == 0 then [] else ExtractParts(parts[..|parts| - 1], smooth) + ExtractPart(parts[|parts| - 1], smooth)
  }

  function TimeOf(n: LocatedNote): real { n.time }

  /** The set of start times of a note list. */
  function Times(s: seq<LocatedNote>): set<real>
  {
    set i | 0 <= i < |s| :: s[i].time
  }

  lemma TimesOfConcat(a: seq<LocatedNote>, b: seq<LocatedNote>)
    ensures Times(a + b) == Times(a) + Times(b)
  {
    var c := a + b;
    forall t | t in Times(c) ensures t in Times(a) + Times(b) {
      var i :| 0 <= i < |c| && c[i].time == t;
      if i < |a| { assert c[i] == a[i]; } else { assert c[i] == b[i - |a|]; }
    }
    forall t | t in Times(a) + Times(b) ensures t in Times(c) {
      if t in Times(a) {
        var i :| 0 <= i < |a| && a[i].time == t;
        assert c[i] == a[i];
      } else {
        var i :| 0 <= i < |b| && b[i].time == t;
        assert c[|a| + i] == b[i];
      }
    }
  }

  predicate StrictlyIncreasing(s: seq<LocatedNote>)
  {
    forall i, j :: 0 <= i < j < |s| ==> s[i].time < s[j].time
  }

  /** How many leading notes of `s` start at time `t`. */
  function RunLength(s: seq<LocatedNote>, t: real): (n: nat)
    ensures n <= |s|
    ensures forall i :: 0 <= i < n ==> s[i].time == t
    ensures n < |s| ==> s[n].time != t
  {
    if |s| == 0 || s[0].time != t then 0 else 1 + RunLength(s[1..], t)
  }

  lemma SortedSuffix(s: seq<LocatedNote>, n: nat)
    requires SortedBy(s, TimeOf) && n <= |s|
    ensures SortedBy(s[n..], TimeOf)
  {
    var tail := s[n..];
    forall i, j | 0 <= i < j < |tail| ensures TimeOf(tail[i]) <= TimeOf(tail[j]) {
      assert tail[i] == s[n + i] && tail[j] == s[n + j];
    }
  }

  /** Putting a note before a strictly increasing list that starts later keeps it strictly increasing. */
  lemma ConsIncreasing(x: LocatedNote, rest: seq<LocatedNote>)
    requires StrictlyIncreasing(rest)
    requires |rest| > 0 ==> x.time < rest[0].time
    ensures StrictlyIncreasing([x] + rest)
  {
    var r := [x] + rest;
    forall i, j | 0 <= i < j < |r| ensures r[i].time < r[j].time {
      if i == 0 {
        assert r[j] == rest[j - 1];
        if j > 1 { assert rest[0].time < rest[j - 1].time; }
      } else {
        assert r[i] == rest[i - 1] && r[j] == rest[j - 1];
      }
    }
  }

  lemma TimesOfSingleton(x: LocatedNote)
    ensures Times([x]) == {x.time}
  {
    assert [x][0] == x;
  }

  /** A run of notes all at time `t` has the single start time `t`. */
  lemma TimesOfRun(s: seq<LocatedNote>, n: nat)
    requires 0 < n <= |s| && forall i :: 0 <= i < n ==> s[i].time == s[0].time
    ensures Times(s[..n]) == {s[0].time}
  {
    forall t | t in Times(s[..n]) ensures t == s[0].time {
      var i :| 0 <= i < n && s[..n][i].time == t;
    }
    assert s[..n][0] == s[0];
  }

  /**
   * The loop of `removeDuplicateNotes` over a list sorted by time: the notes
   * sharing the first start time are taken out, one of them (index
   * `pick(draw)` modulo their number: any of them) is put back, and the scan
   * continues after it.
   */
  function Dedup(s: seq<LocatedNote>, pick: nat -> nat, draw: nat): (r: seq<LocatedNote>)
    requires SortedBy(s, TimeOf)
    ensures StrictlyIncreasing(r)
    ensures |r| <= |s|
    ensures |r| > 0 ==> r[0].time == s[0].time
    decreases |s|
  {
    if |s| == 0 then []
    else
      var n := RunLength(s, s[0].time);
      var chosen := s[pick(draw) % n];
      var tail := s[n..];
      SortedSuffix(s, n);
      var rest := Dedup(tail, pick, draw + 1);
      var r := [chosen] + rest;
      assert |rest| > 0 ==> TimeOf(s[0]) <= TimeOf(s[n]);
      ConsIncreasing(chosen, rest);
      r
  }

  /** Every note `Dedup` keeps is one of its input notes. */
  lemma {:induction false} DedupKeepsInputNotes(s: seq<LocatedNote>, pick: nat -> nat, draw: nat)
    requires SortedBy(s, TimeOf)
    ensures forall x :: x in Dedup(s, pick, draw) ==> x in s
    decreases |s|
  {
    if |s| > 0 {
      var n := RunLength(s, s[0].time);
      var tail := s[n..];
      SortedSuffix(s, n);
      DedupKeepsInputNotes(tail, pick, draw + 1);
      assert Dedup(s, pick, draw) == [s[pick(draw) % n]] + Dedup(tail, pick, draw + 1);
    }
  }

  /** `Dedup` keeps every start time and invents none. */
  lemma {:induction false} DedupKeepsTimes(s: seq<LocatedNote>, pick: nat -> nat, draw: nat)
    requires SortedBy(s, TimeOf)
    ensures Times(Dedup(s, pick, draw)) == Times(s)
    decreases |s|
  {
    if |s| > 0 {
      var n := RunLength(s, s[0].time);
      var chosen := s[pick(draw) % n];
      var tail := s[n..];
      SortedSuffix(s, n);
      var rest := Dedup(tail, pick, draw + 1);
      DedupKeepsTimes(tail, pick, draw + 1);
      assert Dedup(s, pick, draw) == [chosen] + rest;
      assert s == s[..n] + tail;
      TimesOfConcat(s[..n], tail);
      TimesOfConcat([chosen], rest);
      TimesOfRun(s, n);
      TimesOfSingleton(chosen);
    }
  }

  /** A list with strictly increasing times has as many notes as distinct times. */
  lemma {:induction false} StrictlyIncreasingCount(s: seq<LocatedNote>)
    requires StrictlyIncreasing(s)
    ensures |Times(s)| == |s|
  {
    if |s| > 0 {
      var tail := s[1..];
      assert StrictlyIncreasing(tail) by {
        forall i, j | 0 <= i < j < |tail| ensures tail[i].time < tail[j].time {
          assert tail[i] == s[i + 1] && tail[j] == s[j + 1];
        }
      }
      StrictlyIncreasingCount(tail);
      assert s == [s[0]] + tail;
      TimesOfConcat([s[0]], tail);
      TimesOfSingleton(s[0]);
      forall i | 0 <= i < |tail| ensures tail[i].time != s[0].time {
        assert tail[i] == s[i + 1];
      }
    }
  }

  /**
   * `removeDuplicateNotes`: sort by time (stable), then keep one note per start
   * time. The result is strictly increasing in time, holds one note for each
   * distinct input start time, and every kept note is one of the input notes.
   */
  function RemoveDuplicates(notes: seq<LocatedNote>, pick: nat -> nat): (r: seq<LocatedNote>)
    ensures StrictlyIncreasing(r)
    ensures forall i :: 0 <= i < |r| ==> r[i] in notes
    ensures Times(r) == Times(notes)
    ensures |r| == |Times(notes)|
  {
    var sorted := SortBy(notes, TimeOf);
    SortBySorts(notes, TimeOf);
    SortByKeepsElements(notes, TimeOf);
    assert Times(sorted) == Times(notes) by {
      forall t | t in Times(sorted) ensures t in Times(notes) {
        var i :| 0 <= i < |sorted| && sorted[i].time == t;
        assert sorted[i] in notes;
      }
      forall t | t in Times(notes) ensures t in Times(sorted) {
        var i :| 0 <= i < |notes| && notes[i].time == t;
        assert notes[i] in sorted;
      }
    }
    var r := Dedup(sorted, pick, 0);
    DedupKeepsInputNotes(sorted, pick, 0);
    DedupKeepsTimes(sorted, pick, 0);
    StrictlyIncreasingCount(r);
    r
  }

  /**
   * The multi-part constructor: extract every part, then remove duplicates once
   * over all of them. The single-part constructor is the one-part case.
   */
  function Extract(parts: seq<Part>, smooth: bool, pick: nat -> nat): (r: seq<LocatedNote>)
    ensures StrictlyIncreasing(r)
    ensures forall i :: 0 <= i < |r| ==> r[i] in ExtractParts(parts, smooth)
    ensures |r| == |Times(ExtractParts(parts, smooth))|
  {
    RemoveDuplicates(ExtractParts(parts, smooth), pick)
  }

  /** With one part the multi-part constructor is the single-part one. */
  lemma SinglePartExtraction(part: Part, smooth: bool)
    ensures ExtractParts([part], smooth) == ExtractPart(part, smooth)
  {
    assert [part][..0] == [];
    assert ExtractParts([part], smooth) == [] + ExtractPart(part, smooth);
  }

  /** The kept start times are exactly the start times of the part's notes. */
  lemma ExtractedTimesOfPart(part: Part, smooth: bool, pick: nat -> nat)
    ensures Times(RemoveDuplicates(ExtractPart(part, smooth), pick)) == PhraseTimes(part)
  {
    ExtractPartTimes(part, smooth);
  }
}

=== FILE: results.dfy ===
/** Outcome of an operation that the Java code may abandon by throwing. */
module Results {

  /** `Ok` carries the value computed; `Fail` names the exception the Java code throws. */
  datatype Result<+T> = Ok(value: T) | Fail(reason: string) {
    predicate IsFailure() { Fail? }

    function PropagateFailure<U>(): Result<U>
      requires Fail?
    {
      Fail(reason)
    }

    function Extract(): T
      requires Ok?
    {
      value
    }
  }

  /** Java's `null` (or an absent value) is `None`. */
  datatype Option<+T> = None | Some(value: T)
}

=== FILE: simple_support.dfy ===
/**
 * The simple support packet: for every segment of a composition it plays the
 * segment's chords an octave down, either on the segment's own rhythm or on
 * every beat, and voices each chord whole, as its lowest note, or as the
 * lowest note plus an alternating upper one. A segment that occurs several
 * times is generated once and its part reused.
 */
module SimpleSupport {
  import opened Results
  import opened JavaLang
  import opened Sorting
  import opened TimeSignatures
  import opened CompositionSegments
  import FMNotes

  /** The pitch modes the options file can name; any other name plays like Basic. */
  datatype PitchMode = Basic | Low | LowAlt

  const LOW_PITCH_MODE: string := "Low"
  const LOW_ALT_PITCH_MODE: string := "Low+Alt"
  const BEAT_RHYTHM_MODE: string := "Beat"

  /** The support voice sounds one octave below the chord. */
  const OCTAVE: int := 12

  /** The `switch` on the pitch mode name, whose `default` falls into Basic. */
  function PitchModeOf(name: string): (r: PitchMode)
    ensures r == Low <==> name == LOW_PITCH_MODE
    ensures r == LowAlt <==> name == LOW_ALT_PITCH_MODE
  {
    if name == LOW_PITCH_MODE then Low
    else if name == LOW_ALT_PITCH_MODE then LowAlt
    else Basic
  }

  // ---------------------------------------------------------------------
  // Sets of pitches as arrays
  // ---------------------------------------------------------------------

  lemma HasMinimum(s: set<int>)
    requires s != {}
    ensures exists m :: m in s && forall y :: y in s ==> m <= y
  {
    assert exists z :: z in s by {
      if forall z :: z !in s {
        assert false;
      }
    }
    var x :| x in s;
    var rest := s - {x};
    if rest == {} {
      assert forall y :: y in s ==> y == x by {
        forall y | y in s ensures y == x {
          assert y !in rest;
        }
      }
    } else {
      HasMinimum(rest);
      var m :| m in rest && forall y :: y in rest ==> m <= y;
      var least := if x < m then x else m;
      assert forall y :: y in s ==> least <= y by {
        forall y | y in s ensures least <= y {
          if y != x { assert y in rest; }
        }
      }
    }
  }

  function Minimum(s: set<int>): (m: int)
    requires s != {}
    ensures m in s && forall y :: y in s ==> m <= y
  {
    HasMinimum(s);
    var m :| m in s && forall y :: y in s ==> m <= y;
    m
  }

  predicate StrictlyAscending(a: seq<int>) {
    forall i, j :: 0 <= i < j < |a| ==> a[i] < a[j]
  }

  /**
   * The elements of a set of pitches, listed in ascending order. The copy into
   * an `int[]` sees them in the `HashSet`'s bucket order, which is not
   * ascending in general ({60, 64, 67} comes out as 64, 67, 60); Low and
   * Low+Alt sort the array anyway, and Basic plays the same set of pitches.
   * `AscendingLists` states what the list holds.
   */
  function Ascending(s: set<int>): seq<int>
  {
    if s == {} then [] else [Minimum(s)] + Ascending(s - {Minimum(s)})
  }

  /** The ascending listing holds every element of the set once, in increasing order. */
  lemma AscendingLists(s: set<int>)
    ensures |Ascending(s)| == |s|
    ensures forall x :: x in Ascending(s) <==> x in s
    ensures StrictlyAscending(Ascending(s))
  {
    AscendingMembers(s);
    AscendingSorted(s);
  }

  lemma {:induction false} AscendingMembers(s: set<int>)
    ensures |Ascending(s)| == |s|
    ensures forall x :: x in Ascending(s) <==> x in s
  {
    if s != {} {
      var m := Minimum(s);
      AscendingMembers(s - {m});
      assert |s - {m}| == |s| - 1;
      var r := Ascending(s);
      assert r == [m] + Ascending(s - {m});
      forall x ensures x in r <==> x in s {
        assert x in r <==> x == m || x in Ascending(s - {m});
      }
    }
  }

  lemma {:induction false} AscendingSorted(s: set<int>)
    ensures StrictlyAscending(Ascending(s))
  {
    if s != {} {
      var m := Minimum(s);
      var rest := Ascending(s - {m});
      AscendingSorted(s - {m});
      AscendingMembers(s - {m});
      var r := Ascending(s);
      assert r == [m] + rest;
      forall i, j | 0 <= i < j < |r| ensures r[i] < r[j] {
        if i == 0 {
          assert r[j] in rest;
        } else {
          assert r[i] == rest[i - 1] && r[j] == rest[j - 1];
        }
      }
    }
  }

  /** `intArraySubtract(chord, 12)`. */
  function Lower(chord: seq<int>): (r: seq<int>)
    ensures |r| == |chord|
    ensures forall i :: 0 <= i < |r| ==> r[i] + OCTAVE == chord[i]
  {
    if |chord| == 0 then [] else [chord[0] - OCTAVE] + Lower(chord[1..])
  }

  /** Lowering every pitch by the same amount keeps their order. */
  lemma LowerKeepsOrder(chord: seq<int>)
    requires StrictlyAscending(chord)
    ensures StrictlyAscending(Lower(chord))
  {
    var r := Lower(chord);
    forall i, j | 0 <= i < j < |r| ensures r[i] < r[j] {
      assert r[i] + OCTAVE == chord[i] && r[j] + OCTAVE == chord[j];
    }
  }

  /**
   * The chord played at `time`: the segment's pitches sounding there, an
   * octave down. A missing set of pitches (`null`) makes the copy into an
   * array throw.
   */
  function ChordAt(s: Segment, time: int): (r: Result<seq<int>>)
    ensures r.Ok? <==> PitchesAtPosition(s, time).Ok? && PitchesAtPosition(s, time).value.Some?
    ensures r.Ok? ==> |r.value| == |PitchesAtPosition(s, time).value.value|
  {
    match PitchesAtPosition(s, time)
    case Fail(e) => Fail(e)
    case Ok(None) => Fail("NullPointerException")
    case Ok(Some(pitches)) =>
      AscendingLists(pitches);
      Ok(Lower(Ascending(pitches)))
  }

  /**
   * The chord at a position is the ascending list of the pitches sounding
   * there, each an octave down; it exists exactly when the segment yields a
   * set of pitches there.
   */
  lemma ChordAtContents(s: Segment, time: int)
    ensures ChordAt(s, time).Ok? <==> PitchesAtPosition(s, time).Ok? && PitchesAtPosition(s, time).value.Some?
    ensures ChordAt(s, time).Ok? ==> StrictlyAscending(ChordAt(s, time).value)
    ensures ChordAt(s, time).Ok? ==>
      forall p :: p in ChordAt(s, time).value <==> p + OCTAVE in PitchesAtPosition(s, time).value.value
  {
    if PitchesAtPosition(s, time).Ok? && PitchesAtPosition(s, time).value.Some? {
      var pitches := PitchesAtPosition(s, time).value.value;
      var chord := Ascending(pitches);
      assert ChordAt(s, time) == Ok(Lower(chord));
      AscendingLists(pitches);
      LowerKeepsOrder(chord);
      LowerMembers(chord);
      forall p ensures p in Lower(chord) <==> p + OCTAVE in pitches {
        assert p + OCTAVE in chord <==> p + OCTAVE in pitches;
      }
    }
  }

  /** The lowered chord holds exactly the pitches an octave below the chord's. */
  lemma LowerMembers(chord: seq<int>)
    ensures forall p :: p in Lower(chord) <==> p + OCTAVE in chord
  {
    var low := Lower(chord);
    forall p ensures p in low <==> p + OCTAVE in chord {
      if p in low {
        var i :| 0 <= i < |low| && low[i] == p;
        assert chord[i] == p + OCTAVE;
      }
      if p + OCTAVE in chord {
        var i :| 0 <= i < |chord| && chord[i] == p + OCTAVE;
        assert low[i] == p;
      }
    }
  }

  // ---------------------------------------------------------------------
  // Voicing one chord
  // ---------------------------------------------------------------------

  function AsReal(p: int): real { p as real }

  /** `Arrays.sort` on an `int[]`. */
  function SortPitches(chord: seq<int>): (r: seq<int>)
    ensures |r| == |chord|
  {
    SortBy(chord, AsReal)
  }

  /** The pitches one chord event plays, and the alternator after it. */
  datatype Voicing = Voicing(pitches: seq<int>, alternator: bool)

  /**
   * `addPitchesBasic` / `addPitchesLow` / `addPitchesLowAlt`. Low sorts the
   * chord and keeps its first pitch; Low+Alt keeps the first and the second
   * (alternator set) or third (alternator clear) and flips the alternator.
   * Reading past the end of the array is an ArrayIndexOutOfBoundsException.
   */
  function Voice(mode: PitchMode, chord: seq<int>, alternator: bool): (r: Result<Voicing>)
    ensures r.Fail? <==>
      (mode == Low && |chord| == 0) || (mode == LowAlt && |chord| < (if alternator then 2 else 3))
    ensures r.Ok? && mode == Basic ==> r.value.pitches == chord
    ensures r.Ok? && mode == Low ==> |r.value.pitches| == 1
    ensures r.Ok? && mode == LowAlt ==> |r.value.pitches| == 2
    ensures r.Ok? ==> r.value.alternator == (if mode == LowAlt then !alternator else alternator)
  {
    match mode
    case Basic => Ok(Voicing(chord, alternator))
    case Low =>
      var sorted := SortPitches(chord);
      if |sorted| == 0 then Fail("ArrayIndexOutOfBoundsException")
      else Ok(Voicing([sorted[0]], alternator))
    case LowAlt =>
      var sorted := SortPitches(chord);
      if |sorted| < (if alternator then 2 else 3) then Fail("ArrayIndexOutOfBoundsException")
      else Ok(Voicing([sorted[0], if alternator then sorted[1] else sorted[2]], !alternator))
  }

  /**
   * Low mode plays the lowest pitch of the chord, and Low+Alt plays the
   * lowest with the second-lowest (alternator set) or third-lowest
   * (alternator clear), "k-th lowest" meaning position k of any ascending
   * arrangement of the chord.
   */
  lemma VoiceTakesRanks(mode: PitchMode, chord: seq<int>, alternator: bool, sorted: seq<int>)
    requires mode != Basic && Voice(mode, chord, alternator).Ok?
    requires SortedBy(sorted, AsReal) && multiset(sorted) == multiset(chord) && |sorted| == |chord|
    ensures mode == Low ==> Voice(mode, chord, alternator).value.pitches == [sorted[0]]
    ensures mode == LowAlt ==>
      Voice(mode, chord, alternator).value.pitches == [sorted[0], sorted[if alternator then 1 else 2]]
  {
    var mine := SortPitches(chord);
    SortBySorts(chord, AsReal);
    SortedPermutationsAgree(sorted, mine, AsReal);
    assert forall i :: 0 <= i < |sorted| ==> sorted[i] == mine[i] by {
      forall i | 0 <= i < |sorted| ensures sorted[i] == mine[i] {
        assert AsReal(sorted[i]) == AsReal(mine[i]);
      }
    }
  }

  /** The pitch Low mode plays is one of the chord's and no higher than any of them. */
  lemma LowPlaysMinimum(chord: seq<int>, alternator: bool)
    requires Voice(Low, chord, alternator).Ok?
    ensures var p := Voice(Low, chord, alternator).value.pitches[0];
      p in chord && forall q :: q in chord ==> p <= q
  {
    var sorted := SortPitches(chord);
    SortBySorts(chord, AsReal);
    forall q | q in chord ensures sorted[0] <= q {
      assert q in multiset(sorted);
      var j :| 0 <= j < |sorted| && sorted[j] == q;
      assert AsReal(sorted[0]) <= AsReal(sorted[j]);
    }
    assert sorted[0] in multiset(chord);
  }

  /**
   * On an ascending chord of at least three pitches, two Low+Alt chords in a
   * row play the lowest pitch under the third and then under the second,
   * starting from the initial (clear) alternator, which is clear again after.
   */
  lemma LowAltAlternates(chord: seq<int>)
    requires |chord| >= 3 && StrictlyAscending(chord)
    ensures Voice(LowAlt, chord, false) == Ok(Voicing([chord[0], chord[2]], true))
    ensures Voice(LowAlt, chord, true) == Ok(Voicing([chord[0], chord[1]], false))
  {
    assert SortedBy(chord, AsReal);
    VoiceTakesRanks(LowAlt, chord, false, chord);
    VoiceTakesRanks(LowAlt, chord, true, chord);
  }

  // ---------------------------------------------------------------------
  // Rhythm
  // ---------------------------------------------------------------------

  /** `t` falls on a beat of the grid starting at `start`. */
  predicate OnBeat(t: int, start: int, beat: int)
    requires beat > 0
  {
    (t - start) % beat == 0
  }

  /** Moving the grid's start one beat on keeps the beats after it. */
  lemma StepMod(t: int, start: int, beat: int)
    requires beat > 0 && t >= start + beat
    ensures OnBeat(t, start, beat) <==> OnBeat(t, start + beat, beat)
  {
    var x := t - (start + beat);
    var q, rem := x / beat, x % beat;
    assert x + beat == (q + 1) * beat + rem;
    DivModUnique(q + 1, beat, rem);
  }

  /** Between two beats there is none. */
  lemma OffBeat(t: int, start: int, beat: int)
    requires beat > 0 && start < t < start + beat
    ensures !OnBeat(t, start, beat)
  {
    DivModUnique(0, beat, t - start);
  }

  /** Every onset of `r` lies in `[lo, hi)` and lasts `beat`. */
  predicate KeysWithin(r: map<int, int>, lo: int, hi: int, beat: int)
  {
    forall t :: t in r ==> lo <= t < hi && r[t] == beat
  }

  /** The beats from `start` on: one key per beat before `duration`. */
  function BeatsFrom(start: int, duration: int, beat: int): (r: map<int, int>)
    requires beat > 0
    ensures KeysWithin(r, start, duration, beat)
    decreases duration - start
  {
    if start >= duration then map[] else BeatsFrom(start + beat, duration, beat)[start := beat]
  }

  lemma {:induction false} BeatsFromKeys(start: int, duration: int, beat: int)
    requires beat > 0
    ensures forall t :: t in BeatsFrom(start, duration, beat) <==> start <= t < duration && OnBeat(t, start, beat)
    ensures forall t :: t in BeatsFrom(start, duration, beat) ==> BeatsFrom(start, duration, beat)[t] == beat
    decreases duration - start
  {
    if start < duration {
      BeatsFromKeys(start + beat, duration, beat);
      forall t | t >= start + beat ensures OnBeat(t, start, beat) <==> OnBeat(t, start + beat, beat) {
        StepMod(t, start, beat);
      }
      forall t | start < t < start + beat ensures !OnBeat(t, start, beat) {
        OffBeat(t, start, beat);
      }
    }
  }

  /** A beat is the whole note divided by the time signature's denominator. */
  function Beat(denominator: int): (b: int)
    requires ValidDenominator(denominator)
    ensures b > 0 && b * denominator == FMNotes.WHOLE_NOTE
  {
    FMNotes.WHOLE_NOTE / denominator
  }

  /**
   * The rhythm the part is played on: every beat of the segment in Beat
   * mode, the segment's own rhythm otherwise (see `PartRhythmIsBeatGrid`).
   */
  function PartRhythm(s: Segment, rhythmMode: string): (r: map<int, int>)
    requires rhythmMode == BEAT_RHYTHM_MODE ==> ValidDenominator(s.timeSig.bot)
  {
    if rhythmMode == BEAT_RHYTHM_MODE then BeatsFrom(0, CompositionSegments.Duration(s), Beat(s.timeSig.bot))
    else SegmentRhythm(s)
  }

  /**
   * In Beat mode the part has a chord at 0, b, 2b, ... before the segment's
   * duration, each one beat long; in any other mode it follows the
   * segment's rhythm.
   */
  lemma PartRhythmIsBeatGrid(s: Segment, rhythmMode: string)
    requires rhythmMode == BEAT_RHYTHM_MODE ==> ValidDenominator(s.timeSig.bot)
    ensures rhythmMode == BEAT_RHYTHM_MODE ==>
      var b := Beat(s.timeSig.bot);
      var r := PartRhythm(s, rhythmMode);
      && (forall t :: t in r <==> 0 <= t < CompositionSegments.Duration(s) && OnBeat(t, 0, b))
      && (forall t :: t in r ==> r[t] == b)
    ensures rhythmMode != BEAT_RHYTHM_MODE ==> PartRhythm(s, rhythmMode) == SegmentRhythm(s)
  {
    if rhythmMode == BEAT_RHYTHM_MODE {
      BeatsFromKeys(0, CompositionSegments.Duration(s), Beat(s.timeSig.bot));
    }
  }

  // ---------------------------------------------------------------------
  // One part
  // ---------------------------------------------------------------------

  /** One chord event: onset and duration in the packet's rhythm units. */
  datatype ChordEvent = ChordEvent(time: int, pitches: seq<int>, duration: int)

  /** The chords of a part and the alternator after the last of them. */
  datatype Part = Part(events: seq<ChordEvent>, alternator: bool)

  /** The loop over the rhythm's onsets in `createPart`, from the first of `times`. */
  function Play(s: Segment, rhythm: map<int, int>, times: seq<int>, mode: PitchMode, alternator: bool): (r: Result<Part>)
    requires forall i :: 0 <= i < |times| ==> times[i] in rhythm
    ensures r.Ok? ==> |r.value.events| == |times|
    ensures r.Ok? && |times| > 0 ==> r.value.events[0].time == times[0] && r.value.events[0].duration == rhythm[times[0]]
  {
    if |times| == 0 then Ok(Part([], alternator))
    else
      var t := times[0];
      match ChordAt(s, t)
      case Fail(e) => Fail(e)
      case Ok(chord) =>
        match Voice(mode, chord, alternator)
        case Fail(e) => Fail(e)
        case Ok(v) =>
          match Play(s, rhythm, times[1..], mode, v.alternator)
          case Fail(e) => Fail(e)
          case Ok(rest) => Ok(Part([ChordEvent(t, v.pitches, rhythm[t])] + rest.events, rest.alternator))
  }

  /** One event per onset, at that onset and as long as the rhythm says. */
  lemma {:induction false} PlayFollowsOnsets(s: Segment, rhythm: map<int, int>, times: seq<int>, mode: PitchMode,
                                             alternator: bool)
    requires forall i :: 0 <= i < |times| ==> times[i] in rhythm
    requires Play(s, rhythm, times, mode, alternator).Ok?
    ensures var events := Play(s, rhythm, times, mode, alternator).value.events;
      && |events| == |times|
      && forall i :: 0 <= i < |times| ==> events[i].time == times[i] && events[i].duration == rhythm[times[i]]
  {
    if |times| > 0 {
      PlayStep(s, rhythm, times, mode, alternator);
      var v := Voice(mode, ChordAt(s, times[0]).value, alternator).value;
      PlayFollowsOnsets(s, rhythm, times[1..], mode, v.alternator);
    }
  }

  /** `pitches` is a voicing of `chord` under one of the two alternator settings. */
  predicate VoicedFrom(mode: PitchMode, chord: seq<int>, pitches: seq<int>) {
    || (Voice(mode, chord, false).Ok? && Voice(mode, chord, false).value.pitches == pitches)
    || (Voice(mode, chord, true).Ok? && Voice(mode, chord, true).value.pitches == pitches)
  }

  /** A played onset: the chord there, its voicing, and the rest of the part after it. */
  lemma PlayStep(s: Segment, rhythm: map<int, int>, times: seq<int>, mode: PitchMode, alternator: bool)
    requires forall k :: 0 <= k < |times| ==> times[k] in rhythm
    requires |times| > 0 && Play(s, rhythm, times, mode, alternator).Ok?
    ensures ChordAt(s, times[0]).Ok? && Voice(mode, ChordAt(s, times[0]).value, alternator).Ok?
    ensures var v := Voice(mode, ChordAt(s, times[0]).value, alternator).value;
      && Play(s, rhythm, times[1..], mode, v.alternator).Ok?
      && Play(s, rhythm, times, mode, alternator).value.events
         == [ChordEvent(times[0], v.pitches, rhythm[times[0]])] + Play(s, rhythm, times[1..], mode, v.alternator).value.events
  {
  }

  /** Each event plays the voicing of the chord at its onset. */
  lemma {:induction false} PlayVoicesChords(s: Segment, rhythm: map<int, int>, times: seq<int>, mode: PitchMode,
                                            alternator: bool, i: nat)
    requires forall k :: 0 <= k < |times| ==> times[k] in rhythm
    requires Play(s, rhythm, times, mode, alternator).Ok? && i < |times|
    ensures ChordAt(s, times[i]).Ok?
    ensures var events := Play(s, rhythm, times, mode, alternator).value.events;
      i < |events| && VoicedFrom(mode, ChordAt(s, times[i]).value, events[i].pitches)
  {
    PlayStep(s, rhythm, times, mode, alternator);
    var v := Voice(mode, ChordAt(s, times[0]).value, alternator).value;
    if i > 0 {
      PlayVoicesChords(s, rhythm, times[1..], mode, v.alternator, i - 1);
      assert times[1..][i - 1] == times[i];
    }
  }

  /**
   * `createPart`: the chords of one segment on the chosen rhythm. What it
   * makes is stated by `CreatePartFollowsRhythm` and `PlayVoicesChords`.
   */
  function CreatePart(s: Segment, pitchModeName: string, rhythmMode: string, alternator: bool): (r: Result<Part>)
    requires rhythmMode == BEAT_RHYTHM_MODE ==> ValidDenominator(s.timeSig.bot)
  {
    var rhythm := PartRhythm(s, rhythmMode);
    AscendingLists(rhythm.Keys);
    Play(s, rhythm, Ascending(rhythm.Keys), PitchModeOf(pitchModeName), alternator)
  }

  /**
   * A part has one chord per onset of its rhythm, in ascending time order (a
   * `TreeMap`'s key order), each as long as the rhythm says.
   */
  lemma CreatePartFollowsRhythm(s: Segment, pitchModeName: string, rhythmMode: string, alternator: bool)
    requires rhythmMode == BEAT_RHYTHM_MODE ==> ValidDenominator(s.timeSig.bot)
    requires CreatePart(s, pitchModeName, rhythmMode, alternator).Ok?
    ensures var events := CreatePart(s, pitchModeName, rhythmMode, alternator).value.events;
      var rhythm := PartRhythm(s, rhythmMode);
      && |events| == |rhythm|
      && (forall i, j :: 0 <= i < j < |events| ==> events[i].time < events[j].time)
      && (forall t :: t in rhythm <==> exists i :: 0 <= i < |events| && events[i].time == t)
      && (forall i :: 0 <= i < |events| ==> events[i].time in rhythm && events[i].duration == rhythm[events[i].time])
  {
    var rhythm := PartRhythm(s, rhythmMode);
    var times := Ascending(rhythm.Keys);
    AscendingLists(rhythm.Keys);
    PlayFollowsOnsets(s, rhythm, times, PitchModeOf(pitchModeName), alternator);
    EventsOnOnsets(rhythm, CreatePart(s, pitchModeName, rhythmMode, alternator).value.events);
  }

  /** Events placed on the ascending onsets of a rhythm cover it in time order. */
  lemma EventsOnOnsets(rhythm: map<int, int>, events: seq<ChordEvent>)
    requires var times := Ascending(rhythm.Keys);
      && |events| == |times|
      && forall i :: 0 <= i < |times| ==>
           times[i] in rhythm && events[i].time == times[i] && events[i].duration == rhythm[times[i]]
    ensures |events| == |rhythm|
    ensures forall i, j :: 0 <= i < j < |events| ==> events[i].time < events[j].time
    ensures forall t :: t in rhythm <==> exists i :: 0 <= i < |events| && events[i].time == t
    ensures forall i :: 0 <= i < |events| ==> events[i].time in rhythm && events[i].duration == rhythm[events[i].time]
  {
    var times := Ascending(rhythm.Keys);
    AscendingLists(rhythm.Keys);
    assert |times| == |rhythm.Keys| == |rhythm|;
    forall i | 0 <= i < |events| ensures events[i].time in rhythm {
      assert times[i] in times;
    }
    forall t | t in rhythm ensures exists i :: 0 <= i < |events| && events[i].time == t {
      assert t in rhythm.Keys;
      var i :| 0 <= i < |times| && times[i] == t;
      assert events[i].time == t;
    }
  }

  // ---------------------------------------------------------------------
  // The whole composition
  // ---------------------------------------------------------------------

  /** A segment of the composition's list; `id` stands for the segment object's identity. */
  datatype Occurrence = Occurrence(id: nat, segment: Segment)

  /** One object is one segment. */
  predicate SameIdSameSegment(occ: seq<Occurrence>) {
    forall i, j :: 0 <= i < |occ| && 0 <= j < |occ| && occ[i].id == occ[j].id ==> occ[i].segment == occ[j].segment
  }

  predicate BeatsDefined(occ: seq<Occurrence>, rhythmMode: string) {
    rhythmMode == BEAT_RHYTHM_MODE ==> forall i :: 0 <= i < |occ| ==> ValidDenominator(occ[i].segment.timeSig.bot)
  }

  /** `events` is the part `createPart` makes for `s` under one of the two alternator settings. */
  predicate MadeFrom(s: Segment, events: seq<ChordEvent>, pitchModeName: string, rhythmMode: string)
    requires rhythmMode == BEAT_RHYTHM_MODE ==> ValidDenominator(s.timeSig.bot)
  {
    || (CreatePart(s, pitchModeName, rhythmMode, false).Ok? && CreatePart(s, pitchModeName, rhythmMode, false).value.events == events)
    || (CreatePart(s, pitchModeName, rhythmMode, true).Ok? && CreatePart(s, pitchModeName, rhythmMode, true).value.events == events)
  }

  /**
   * The state of `execute`'s loop: the generated parts by segment id, the
   * part of each occurrence so far, the ids whose parts were generated in
   * that order, the alternator, where each generated id first occurred, and,
   * for each generated part in order, the occurrence it was generated at and
   * the alternators it started from and left.
   */
  datatype Memo = Memo(parts: map<nat, seq<ChordEvent>>, out: seq<seq<ChordEvent>>, generated: seq<nat>,
                       alternator: bool, firstAt: map<nat, nat>, starts: seq<nat>, alts: seq<bool>,
                       nexts: seq<bool>)

  const EMPTY_MEMO: Memo := Memo(map[], [], [], false, map[], [], [], [])

  /**
   * The bookkeeping after the first `k` occurrences: every occurrence so far
   * has the part stored under its id, each stored id was generated once and
   * first occurred before `k`.
   */
  ghost predicate MemoIndexed(occ: seq<Occurrence>, k: nat, m: Memo) {
    && k <= |occ| && |m.out| == k
    && m.firstAt.Keys == m.parts.Keys
    && (forall id :: id in m.firstAt ==> m.firstAt[id] < k && occ[m.firstAt[id]].id == id)
    && (forall id :: id in m.parts <==> id in m.generated)
    && (forall a, b :: 0 <= a < b < |m.generated| ==> m.generated[a] != m.generated[b])
    && (forall i :: 0 <= i < k ==> occ[i].id in m.parts && m.out[i] == m.parts[occ[i].id])
    && (k == 0 ==> !m.alternator)
  }

  /** A segment seen before: its stored part is played again. */
  function Reuse(m: Memo, id: nat): Memo
    requires id in m.parts
  {
    m.(out := m.out + [m.parts[id]])
  }

  /** A segment seen for the first time (at `k`): its new part is stored and played. */
  function Remember(m: Memo, id: nat, k: nat, part: Part): Memo {
    Memo(m.parts[id := part.events], m.out + [part.events], m.generated + [id], part.alternator, m.firstAt[id := k],
         m.starts + [k], m.alts + [m.alternator], m.nexts + [part.alternator])
  }

  /** `createPart` for `s`, started from alternator `alt`, plays `events` and leaves the alternator at `next`. */
  predicate Generates(s: Segment, pitchModeName: string, rhythmMode: string, alt: bool, events: seq<ChordEvent>, next: bool)
    requires rhythmMode == BEAT_RHYTHM_MODE ==> ValidDenominator(s.timeSig.bot)
  {
    var made := CreatePart(s, pitchModeName, rhythmMode, alt);
    made.Ok? && made.value.events == events && made.value.alternator == next
  }

  /**
   * Where the parts were generated: the `g`th at the first occurrence of its
   * segment, in occurrence order; the first from a clear alternator, each
   * later one from the alternator the one before left, which is the current
   * alternator after the last.
   */
  predicate ChainShape(occ: seq<Occurrence>, k: nat, m: Memo)
  {
    && k <= |occ|
    && |m.starts| == |m.generated| && |m.alts| == |m.generated| && |m.nexts| == |m.generated|
    && m.alts + [m.alternator] == [false] + m.nexts
    && (forall g :: 0 <= g < |m.starts| ==> m.starts[g] < k && occ[m.starts[g]].id == m.generated[g])
    && (forall a, b :: 0 <= a < b < |m.starts| ==> m.starts[a] < m.starts[b])
    && (forall g, i :: 0 <= g < |m.starts| && 0 <= i < m.starts[g] ==> occ[i].id != m.generated[g])
  }

  /**
   * Each of the first `n` generated parts is `createPart` of the segment it
   * was generated at, started from alternator `alts[g]` and leaving `nexts[g]`.
   */
  predicate ChainMade(occ: seq<Occurrence>, starts: seq<nat>, alts: seq<bool>, nexts: seq<bool>, out: seq<seq<ChordEvent>>,
                      n: nat, pitchModeName: string, rhythmMode: string)
    requires n <= |starts| && |alts| == |starts| && |nexts| == |starts| && BeatsDefined(occ, rhythmMode)
    requires forall g :: 0 <= g < |starts| ==> starts[g] < |occ| && starts[g] < |out|
  {
    n == 0 ||
    (ChainMade(occ, starts, alts, nexts, out, n - 1, pitchModeName, rhythmMode) &&
     Generates(occ[starts[n - 1]].segment, pitchModeName, rhythmMode, alts[n - 1], out[starts[n - 1]], nexts[n - 1]))
  }

  lemma {:induction false} ChainMadePrefix(occ: seq<Occurrence>, starts: seq<nat>, alts: seq<bool>, nexts: seq<bool>,
                                           out: seq<seq<ChordEvent>>, starts': seq<nat>, alts': seq<bool>, nexts': seq<bool>,
                                           out': seq<seq<ChordEvent>>, n: nat, pitchModeName: string, rhythmMode: string)
    requires n <= |starts| && |alts| == |starts| && |nexts| == |starts| && BeatsDefined(occ, rhythmMode)
    requires forall g :: 0 <= g < |starts| ==> starts[g] < |occ| && starts[g] < |out|
    requires |starts| <= |starts'| && |alts'| == |starts'| && |nexts'| == |starts'| && |out| <= |out'|
    requires forall g :: 0 <= g < |starts'| ==> starts'[g] < |occ| && starts'[g] < |out'|
    requires forall g :: 0 <= g < |starts| ==> starts'[g] == starts[g] && alts'[g] == alts[g] && nexts'[g] == nexts[g]
    requires forall i :: 0 <= i < |out| ==> out'[i] == out[i]
    requires ChainMade(occ, starts, alts, nexts, out, n, pitchModeName, rhythmMode)
    ensures ChainMade(occ, starts', alts', nexts', out', n, pitchModeName, rhythmMode)
  {
    if n > 0 {
      ChainMadePrefix(occ, starts, alts, nexts, out, starts', alts', nexts', out', n - 1, pitchModeName, rhythmMode);
      assert out'[starts[n - 1]] == out[starts[n - 1]];
    }
  }

  lemma {:induction false} ChainMadeAt(occ: seq<Occurrence>, starts: seq<nat>, alts: seq<bool>, nexts: seq<bool>,
                                       out: seq<seq<ChordEvent>>, n: nat, g: nat, pitchModeName: string, rhythmMode: string)
    requires n <= |starts| && |alts| == |starts| && |nexts| == |starts| && BeatsDefined(occ, rhythmMode)
    requires forall g :: 0 <= g < |starts| ==> starts[g] < |occ| && starts[g] < |out|
    requires ChainMade(occ, starts, alts, nexts, out, n, pitchModeName, rhythmMode) && g < n
    ensures Generates(occ[starts[g]].segment, pitchModeName, rhythmMode, alts[g], out[starts[g]], nexts[g])
  {
    if g < n - 1 {
      ChainMadeAt(occ, starts, alts, nexts, out, n - 1, g, pitchModeName, rhythmMode);
    }
  }

  lemma ReuseKeepsChain(occ: seq<Occurrence>, k: nat, m: Memo, pitchModeName: string, rhythmMode: string)
    requires BeatsDefined(occ, rhythmMode) && k < |occ| && occ[k].id in m.parts && |m.out| == k
    requires ChainShape(occ, k, m)
    requires ChainMade(occ, m.starts, m.alts, m.nexts, m.out, |m.starts|, pitchModeName, rhythmMode)
    ensures ChainShape(occ, k + 1, Reuse(m, occ[k].id))
    ensures var m' := Reuse(m, occ[k].id);
      ChainMade(occ, m'.starts, m'.alts, m'.nexts, m'.out, |m'.starts|, pitchModeName, rhythmMode)
  {
    var m' := Reuse(m, occ[k].id);
    ChainMadePrefix(occ, m.starts, m.alts, m.nexts, m.out, m'.starts, m'.alts, m'.nexts, m'.out,
                    |m.starts|, pitchModeName, rhythmMode);
  }

  lemma RememberKeepsShape(occ: seq<Occurrence>, k: nat, m: Memo, part: Part)
    requires k < |occ| && |m.out| == k
    requires forall i :: 0 <= i < k ==> occ[i].id in m.parts
    requires occ[k].id !in m.parts
    requires ChainShape(occ, k, m)
    ensures ChainShape(occ, k + 1, Remember(m, occ[k].id, k, part))
  {
    forall i | 0 <= i < k ensures occ[i].id != occ[k].id {
      assert occ[i].id in m.parts;
    }
  }

  lemma RememberKeepsChain(occ: seq<Occurrence>, k: nat, m: Memo, pitchModeName: string, rhythmMode: string, part: Part)
    requires BeatsDefined(occ, rhythmMode) && k < |occ| && |m.out| == k
    requires ChainShape(occ, k, m) && ChainShape(occ, k + 1, Remember(m, occ[k].id, k, part))
    requires ChainMade(occ, m.starts, m.alts, m.nexts, m.out, |m.starts|, pitchModeName, rhythmMode)
    requires Generates(occ[k].segment, pitchModeName, rhythmMode, m.alternator, part.events, part.alternator)
    ensures var m' := Remember(m, occ[k].id, k, part);
      ChainMade(occ, m'.starts, m'.alts, m'.nexts, m'.out, |m'.starts|, pitchModeName, rhythmMode)
  {
    var m' := Remember(m, occ[k].id, k, part);
    var n := |m.starts|;
    ChainMadePrefix(occ, m.starts, m.alts, m.nexts, m.out, m'.starts, m'.alts, m'.nexts, m'.out,
                    n, pitchModeName, rhythmMode);
    assert m'.starts[n] == k && m'.alts[n] == m.alternator && m'.nexts[n] == part.alternator && m'.out[k] == part.events;
  }

  /** After the last occurrence, every generated part is a link of the chain. */
  lemma ChainComplete(occ: seq<Occurrence>, m: Memo, pitchModeName: string, rhythmMode: string)
    requires BeatsDefined(occ, rhythmMode) && |m.alts| == |m.starts| && |m.nexts| == |m.starts|
    requires forall g :: 0 <= g < |m.starts| ==> m.starts[g] < |occ| && m.starts[g] < |m.out|
    requires ChainMade(occ, m.starts, m.alts, m.nexts, m.out, |m.starts|, pitchModeName, rhythmMode)
    ensures forall g :: 0 <= g < |m.starts| ==>
      Generates(occ[m.starts[g]].segment, pitchModeName, rhythmMode, m.alts[g], m.out[m.starts[g]], m.nexts[g])
  {
    forall g | 0 <= g < |m.starts|
      ensures Generates(occ[m.starts[g]].segment, pitchModeName, rhythmMode, m.alts[g], m.out[m.starts[g]], m.nexts[g])
    {
      ChainMadeAt(occ, m.starts, m.alts, m.nexts, m.out, |m.starts|, g, pitchModeName, rhythmMode);
    }
  }

  /** The first generated part starts clear, and each later one where the one before left off. */
  lemma AlternatorsChain(alts: seq<bool>, nexts: seq<bool>, alternator: bool)
    requires alts + [alternator] == [false] + nexts
    ensures |alts| > 0 ==> !alts[0]
    ensures forall g :: 0 <= g < |alts| - 1 ==> alts[g + 1] == nexts[g]
  {
    if |alts| > 0 {
      assert (alts + [alternator])[0] == ([false] + nexts)[0];
    }
    forall g | 0 <= g < |alts| - 1 ensures alts[g + 1] == nexts[g] {
      assert (alts + [alternator])[g + 1] == ([false] + nexts)[g + 1];
    }
  }

  /** Every occurrence plays the part generated at the first occurrence of its segment. */
  lemma OccurrenceMade(occ: seq<Occurrence>, m: Memo, pitchModeName: string, rhythmMode: string, i: nat)
    requires SameIdSameSegment(occ) && BeatsDefined(occ, rhythmMode) && i < |occ|
    requires MemoIndexed(occ, |occ|, m) && ChainShape(occ, |occ|, m)
    requires forall g :: 0 <= g < |m.starts| ==>
      Generates(occ[m.starts[g]].segment, pitchModeName, rhythmMode, m.alts[g], m.out[m.starts[g]], m.nexts[g])
    ensures MadeFrom(occ[i].segment, m.out[i], pitchModeName, rhythmMode)
    ensures i == 0 ==>
      && CreatePart(occ[0].segment, pitchModeName, rhythmMode, false).Ok?
      && m.out[0] == CreatePart(occ[0].segment, pitchModeName, rhythmMode, false).value.events
  {
    var id := occ[i].id;
    assert id in m.generated;
    var g :| 0 <= g < |m.generated| && m.generated[g] == id;
    var j := m.starts[g];
    assert occ[j].id == id && occ[j].segment == occ[i].segment;
    assert m.out[i] == m.parts[id] == m.out[j];
    assert Generates(occ[j].segment, pitchModeName, rhythmMode, m.alts[g], m.out[j], m.nexts[g]);
    if i == 0 {
      assert j == 0;
      assert m.starts[0] <= m.starts[g];
      AlternatorsChain(m.alts, m.nexts, m.alternator);
    }
  }

  lemma ReuseKeepsIndexed(occ: seq<Occurrence>, k: nat, m: Memo)
    requires k < |occ| && MemoIndexed(occ, k, m) && occ[k].id in m.parts
    ensures MemoIndexed(occ, k + 1, Reuse(m, occ[k].id))
  {
  }

  lemma RememberKeepsIndexed(occ: seq<Occurrence>, k: nat, m: Memo, part: Part)
    requires k < |occ| && MemoIndexed(occ, k, m) && occ[k].id !in m.parts
    ensures MemoIndexed(occ, k + 1, Remember(m, occ[k].id, k, part))
  {
    var m' := Remember(m, occ[k].id, k, part);
    forall i | 0 <= i < k ensures occ[i].id in m'.parts && m'.out[i] == m'.parts[occ[i].id] {
      assert occ[i].id in m.parts && occ[i].id != occ[k].id;
    }
    forall a, b | 0 <= a < b < |m'.generated| ensures m'.generated[a] != m'.generated[b] {
      if b == |m.generated| {
        assert m.generated[a] in m.generated;
      }
    }
  }

  /** The whole state of `execute`'s loop after the first `k` occurrences. */
  ghost predicate MemoInvariant(occ: seq<Occurrence>, k: nat, m: Memo, pitchModeName: string, rhythmMode: string)
    requires BeatsDefined(occ, rhythmMode)
  {
    && MemoIndexed(occ, k, m)
    && ChainShape(occ, k, m)
    && ChainMade(occ, m.starts, m.alts, m.nexts, m.out, |m.starts|, pitchModeName, rhythmMode)
  }

  lemma ReuseKeepsInvariant(occ: seq<Occurrence>, k: nat, m: Memo, pitchModeName: string, rhythmMode: string)
    requires SameIdSameSegment(occ) && BeatsDefined(occ, rhythmMode)
    requires k < |occ| && MemoInvariant(occ, k, m, pitchModeName, rhythmMode) && occ[k].id in m.parts
    ensures MemoInvariant(occ, k + 1, Reuse(m, occ[k].id), pitchModeName, rhythmMode)
  {
    ReuseKeepsIndexed(occ, k, m);
    ReuseKeepsChain(occ, k, m, pitchModeName, rhythmMode);
  }

  lemma RememberKeepsInvariant(occ: seq<Occurrence>, k: nat, m: Memo, pitchModeName: string, rhythmMode: string)
    requires BeatsDefined(occ, rhythmMode)
    requires k < |occ| && MemoInvariant(occ, k, m, pitchModeName, rhythmMode) && occ[k].id !in m.parts
    requires CreatePart(occ[k].segment, pitchModeName, rhythmMode, m.alternator).Ok?
    ensures var part := CreatePart(occ[k].segment, pitchModeName, rhythmMode, m.alternator).value;
      MemoInvariant(occ, k + 1, Remember(m, occ[k].id, k, part), pitchModeName, rhythmMode)
  {
    var part := CreatePart(occ[k].segment, pitchModeName, rhythmMode, m.alternator).value;
    RememberKeepsIndexed(occ, k, m, part);
    RememberKeepsShape(occ, k, m, part);
    RememberKeepsChain(occ, k, m, pitchModeName, rhythmMode, part);
  }

  /**
   * The loop of `execute`: the memo after the last occurrence, or the first
   * failure of `createPart`.
   */
  method RunMemo(occ: seq<Occurrence>, pitchModeName: string, rhythmMode: string) returns (r: Result<Memo>)
    requires SameIdSameSegment(occ) && BeatsDefined(occ, rhythmMode)
    ensures (forall i, b :: 0 <= i < |occ| ==> CreatePart(occ[i].segment, pitchModeName, rhythmMode, b).Ok?) ==> r.Ok?
    ensures r.Ok? ==> MemoInvariant(occ, |occ|, r.value, pitchModeName, rhythmMode)
  {
    var m := EMPTY_MEMO;
    var k := 0;
    while k < |occ|
      invariant k <= |occ| && MemoInvariant(occ, k, m, pitchModeName, rhythmMode)
    {
      var o := occ[k];
      if o.id in m.parts {
        ReuseKeepsInvariant(occ, k, m, pitchModeName, rhythmMode);
        m := Reuse(m, o.id);
      } else {
        var made := CreatePart(o.segment, pitchModeName, rhythmMode, m.alternator);
        if made.Fail? {
          return Fail(made.reason);
        }
        RememberKeepsInvariant(occ, k, m, pitchModeName, rhythmMode);
        m := Remember(m, o.id, k, made.value);
      }
      k := k + 1;
    }
    return Ok(m);
  }

  /** After the last occurrence the memo holds the whole result. */
  lemma MemoComplete(occ: seq<Occurrence>, m: Memo, pitchModeName: string, rhythmMode: string)
    requires SameIdSameSegment(occ) && BeatsDefined(occ, rhythmMode)
    requires MemoInvariant(occ, |occ|, m, pitchModeName, rhythmMode)
    ensures |m.out| == |occ|
    ensures forall i, j :: 0 <= i < j < |occ| && occ[i].id == occ[j].id ==> m.out[i] == m.out[j]
    ensures forall i :: 0 <= i < |occ| ==> occ[i].id in m.generated
    ensures forall a, b :: 0 <= a < b < |m.generated| ==> m.generated[a] != m.generated[b]
    ensures forall i :: 0 <= i < |occ| ==> MadeFrom(occ[i].segment, m.out[i], pitchModeName, rhythmMode)
    ensures |occ| > 0 ==>
      && CreatePart(occ[0].segment, pitchModeName, rhythmMode, false).Ok?
      && m.out[0] == CreatePart(occ[0].segment, pitchModeName, rhythmMode, false).value.events
  {
    ChainComplete(occ, m, pitchModeName, rhythmMode);
    forall i | 0 <= i < |occ| ensures MadeFrom(occ[i].segment, m.out[i], pitchModeName, rhythmMode) {
      OccurrenceMade(occ, m, pitchModeName, rhythmMode, i);
    }
    if |occ| > 0 {
      OccurrenceMade(occ, m, pitchModeName, rhythmMode, 0);
    }
  }

  /**
   * `execute`: one part per occurrence, generating a segment's part only the
   * first time the segment occurs and reusing it after that. The
   * alternator carries over from one generated part to the next. Returns
   * the events of each occurrence's part and, for the parts that were
   * generated, in the order they were: the segment ids, the occurrences they
   * were generated at, and the alternators each started from and left.
   */
  method Execute(occ: seq<Occurrence>, pitchModeName: string, rhythmMode: string)
    returns (r: Result<seq<seq<ChordEvent>>>, generated: seq<nat>, starts: seq<nat>, alts: seq<bool>, nexts: seq<bool>)
    requires SameIdSameSegment(occ) && BeatsDefined(occ, rhythmMode)
    ensures (forall i, b :: 0 <= i < |occ| ==> CreatePart(occ[i].segment, pitchModeName, rhythmMode, b).Ok?) ==> r.Ok?
    ensures r.Ok? ==> |starts| == |generated| && |alts| == |generated| && |nexts| == |generated|
    ensures r.Ok? && |alts| > 0 ==> !alts[0]
    ensures r.Ok? ==> forall g :: 0 <= g < |alts| - 1 ==> alts[g + 1] == nexts[g]
    ensures r.Ok? ==> forall g :: 0 <= g < |starts| ==> starts[g] < |occ| && occ[starts[g]].id == generated[g]
    ensures r.Ok? ==> forall a, b :: 0 <= a < b < |starts| ==> starts[a] < starts[b]
    ensures r.Ok? ==> forall g, i :: 0 <= g < |starts| && 0 <= i < starts[g] ==> occ[i].id != generated[g]
    ensures r.Ok? ==> forall g :: 0 <= g < |starts| ==>
      (starts[g] < |occ| == |r.value| && |alts| == |nexts| == |starts| &&
       Generates(occ[starts[g]].segment, pitchModeName, rhythmMode, alts[g], r.value[starts[g]], nexts[g]))
    ensures r.Ok? ==> |r.value| == |occ|
    ensures r.Ok? ==> forall i, j :: 0 <= i < j < |occ| && occ[i].id == occ[j].id ==> r.value[i] == r.value[j]
    ensures r.Ok? ==> forall i :: 0 <= i < |occ| ==> occ[i].id in generated
    ensures r.Ok? ==> forall a, b :: 0 <= a < b < |generated| ==> generated[a] != generated[b]
    ensures r.Ok? ==> forall i :: 0 <= i < |occ| ==> MadeFrom(occ[i].segment, r.value[i], pitchModeName, rhythmMode)
    ensures r.Ok? && |occ| > 0 ==>
      && CreatePart(occ[0].segment, pitchModeName, rhythmMode, false).Ok?
      && r.value[0] == CreatePart(occ[0].segment, pitchModeName, rhythmMode, false).value.events
  {
    var run := RunMemo(occ, pitchModeName, rhythmMode);
    if run.Fail? {
      return Fail(run.reason), [], [], [], [];
    }
    var m := run.value;
    MemoComplete(occ, m, pitchModeName, rhythmMode);
    ChainComplete(occ, m, pitchModeName, rhythmMode);
    AlternatorsChain(m.alts, m.nexts, m.alternator);
    return Ok(m.out), m.generated, m.starts, m.alts, m.nexts;
  }
}

=== FILE: sorting.dfy ===
/**
 * Stable insertion sort by a real-valued key: the model of `Collections.sort`
 * (a stable sort) over a comparator that orders by one numeric field.
 */
module Sorting {

  predicate SortedBy<T>(s: seq<T>, key: T -> real)
  {
    forall i, j :: 0 <= i < j < |s| ==> key(s[i]) <= key(s[j])
  }

  /** A sorted sequence stays sorted under a head whose key is at most its first. */
  lemma ConsSorted<T>(h: T, rest: seq<T>, key: T -> real)
    requires SortedBy(rest, key) && (|rest| > 0 ==> key(h) <= key(rest[0]))
    ensures SortedBy([h] + rest, key)
  {
    var r := [h] + rest;
    forall i, j | 0 <= i < j < |r| ensures key(r[i]) <= key(r[j]) {
      assert r[j] == rest[j - 1];
      if i > 0 { assert r[i] == rest[i - 1]; }
    }
  }

  /** Inserts `x` before the first element whose key is not smaller, so equal keys keep their order. */
  function InsertBy<T>(x: T, s: seq<T>, key: T -> real): (r: seq<T>)
    ensures |r| == |s| + 1
    ensures r[0] == x || (|s| > 0 && r[0] == s[0])
  {
    if |s| == 0 || key(x) <= key(s[0]) then [x] + s
    else [s[0]] + InsertBy(x, s[1..], key)
  }

  /** Insertion adds exactly `x`, and keeps a sorted sequence sorted. */
  lemma {:induction false} InsertByInserts<T>(x: T, s: seq<T>, key: T -> real)
    ensures multiset(InsertBy(x, s, key)) == multiset(s) + multiset{x}
    ensures SortedBy(s, key) ==> SortedBy(InsertBy(x, s, key), key)
  {
    if |s| == 0 || key(x) <= key(s[0]) {
      if SortedBy(s, key) { ConsSorted(x, s, key); }
    } else {
      var rest := InsertBy(x, s[1..], key);
      InsertByInserts(x, s[1..], key);
      assert s == [s[0]] + s[1..];
      if SortedBy(s, key) {
        assert SortedBy(s[1..], key);
        ConsSorted(s[0], rest, key);
      }
    }
  }

  /** Insertion sort: a stable sort by `key`. */
  function SortBy<T>(s: seq<T>, key: T -> real): (r: seq<T>)
    ensures |r| == |s|
  {
    if |s| == 0 then [] else InsertBy(s[0], SortBy(s[1..], key), key)
  }

  /** Sorting yields a sorted arrangement of the same elements. */
  lemma {:induction false} SortBySorts<T>(s: seq<T>, key: T -> real)
    ensures SortedBy(SortBy(s, key), key)
    ensures multiset(SortBy(s, key)) == multiset(s)
  {
    if |s| > 0 {
      SortBySorts(s[1..], key);
      InsertByInserts(s[0], SortBy(s[1..], key), key);
      assert s == [s[0]] + s[1..];
    }
  }

  /** Sorting neither adds nor drops elements. */
  lemma SortByKeepsElements<T>(s: seq<T>, key: T -> real)
    ensures |SortBy(s, key)| == |s|
    ensures forall y :: y in SortBy(s, key) <==> y in s
  {
    var r := SortBy(s, key);
    SortBySorts(s, key);
    forall y ensures y in r <==> y in s {
      assert y in r <==> y in multiset(r);
      assert y in s <==> y in multiset(s);
    }
  }

  lemma SortedWithout<T>(b: seq<T>, k: int, key: T -> real)
    requires SortedBy(b, key) && 0 <= k < |b|
    ensures SortedBy(b[..k] + b[k + 1..], key)
  {
    var b' := b[..k] + b[k + 1..];
    forall i, j | 0 <= i < j < |b'| ensures key(b'[i]) <= key(b'[j]) {
      var bi := if i < k then i else i + 1;
      var bj := if j < k then j else j + 1;
      assert b'[i] == b[bi] && b'[j] == b[bj];
    }
  }

  /** Both sorted arrangements start with the least key. */
  lemma FirstKeysAgree<T>(a: seq<T>, b: seq<T>, key: T -> real) returns (ia: int)
    requires SortedBy(a, key) && SortedBy(b, key)
    requires multiset(a) == multiset(b) && |a| > 0
    ensures |b| > 0 && key(a[0]) == key(b[0])
    ensures 0 <= ia < |b| && b[ia] == a[0]
  {
    assert a[0] in multiset(b);
    assert b[0] in multiset(a);
    ia :| 0 <= ia < |b| && b[ia] == a[0];
    var ib :| 0 <= ib < |a| && a[ib] == b[0];
  }

  lemma MultisetWithout<T>(b: seq<T>, k: int)
    requires 0 <= k < |b|
    ensures multiset(b[..k] + b[k + 1..]) == multiset(b) - multiset{b[k]}
  {
    assert b == b[..k] + [b[k]] + b[k + 1..];
  }

  /**
   * If `b` is `a[0]`'s copy at `ia` plus an arrangement `rest` of `a[1..]`
   * agreeing key by key, then `a` and `b` agree key by key.
   */
  lemma AgreeAfterReinsert<T>(a: seq<T>, b: seq<T>, ia: int, key: T -> real)
    requires SortedBy(a, key) && SortedBy(b, key)
    requires |a| == |b| && 0 <= ia < |b| && b[ia] == a[0] && key(a[0]) == key(b[0])
    requires forall i :: 0 <= i < |a| - 1 ==> key(a[1..][i]) == key((b[..ia] + b[ia + 1..])[i])
    ensures forall i :: 0 <= i < |a| ==> key(a[i]) == key(b[i])
  {
    var b' := b[..ia] + b[ia + 1..];
    forall i | 1 <= i < |a| ensures key(a[i]) == key(b[i]) {
      assert key(a[1..][i - 1]) == key(b'[i - 1]);
      assert a[1..][i - 1] == a[i];
      if i <= ia {
        // Everything in b up to a[0]'s copy holds the least key.
        assert b'[i - 1] == b[i - 1];
        assert key(b[0]) <= key(b[i - 1]) <= key(b[ia]);
        assert key(b[i]) <= key(b[ia]);
      } else {
        assert b'[i - 1] == b[i];
      }
    }
  }

  /**
   * Takes `a[0]`'s copy out of `b`: what is left of `b` is a sorted
   * arrangement of `a[1..]`.
   */
  lemma TakeOutFirst<T>(a: seq<T>, b: seq<T>, key: T -> real) returns (ia: int)
    requires SortedBy(a, key) && SortedBy(b, key)
    requires multiset(a) == multiset(b) && |a| > 0
    ensures |a| == |b| && 0 <= ia < |b| && b[ia] == a[0] && key(a[0]) == key(b[0])
    ensures SortedBy(a[1..], key) && SortedBy(b[..ia] + b[ia + 1..], key)
    ensures multiset(a[1..]) == multiset(b[..ia] + b[ia + 1..])
  {
    assert |a| == |multiset(a)| == |multiset(b)| == |b|;
    ia := FirstKeysAgree(a, b, key);
    RestKeepsElements(a, b, ia);
    SortedWithout(b, ia, key);
  }

  lemma RestKeepsElements<T>(a: seq<T>, b: seq<T>, ia: int)
    requires multiset(a) == multiset(b) && 0 <= ia < |b| && |a| > 0 && b[ia] == a[0]
    ensures multiset(a[1..]) == multiset(b[..ia] + b[ia + 1..])
  {
    MultisetWithout(b, ia);
    assert a == [a[0]] + a[1..];
    assert multiset(a[1..]) == multiset(a) - multiset{a[0]};
  }

  /** Two sorted arrangements of the same elements agree key by key: the k-th smallest key is well defined. */
  lemma {:induction false} SortedPermutationsAgree<T>(a: seq<T>, b: seq<T>, key: T -> real)
    requires SortedBy(a, key) && SortedBy(b, key)
    requires multiset(a) == multiset(b)
    ensures |a| == |b|
    ensures forall i :: 0 <= i < |a| ==> key(a[i]) == key(b[i])
  {
    assert |a| == |multiset(a)| == |multiset(b)| == |b|;
    if |a| > 0 {
      var ia := TakeOutFirst(a, b, key);
      SortedPermutationsAgree(a[1..], b[..ia] + b[ia + 1..], key);
      AgreeAfterReinsert(a, b, ia, key);
    }
  }
}

=== FILE: time_signature.dfy ===
/** TimeSignature: a validated numerator / denominator pair, buildable from "n/d" text. */
module TimeSignatures {
  import opened Results
  import opened JavaLang

  /** `top` is beats per measure, `bot` the note value that gets a beat. */
  datatype TimeSig = TimeSig(top: int, bot: int)

  /** The denominators the constructors accept. */
  predicate ValidDenominator(d: int) {
    d == 1 || d == 2 || d == 4 || d == 8 || d == 16 || d == 32 || d == 64
  }

  function Pow2(k: nat): (r: nat)
    ensures r >= 1
  {
    if k == 0 then 1 else 2 * Pow2(k - 1)
  }

  /** The accepted denominators are exactly the powers of two up to 64. */
  lemma ValidDenominatorsArePowersOfTwo(d: int)
    ensures ValidDenominator(d) <==> exists k :: 0 <= k <= 6 && d == Pow2(k)
  {
    assert Pow2(0) == 1 && Pow2(1) == 2 && Pow2(2) == 4 && Pow2(3) == 8;
    assert Pow2(4) == 16 && Pow2(5) == 32 && Pow2(6) == 64;
  }

  /** `TimeSignature(int, int)`: any numerator, a validated denominator. */
  function NewTimeSignature(num: int, denom: int): (r: Result<TimeSig>)
    ensures r.Ok? <==> ValidDenominator(denom)
    ensures r.Ok? ==> r.value.top == num && r.value.bot == denom
  {
    if !ValidDenominator(denom) then Fail("Invalid Time Signature")
    else Ok(TimeSig(num, denom))
  }

  /**
   * `TimeSignature(String)`: splits at the first '/', which must exist and not
   * be the first character; both halves go through `Integer.parseInt`
   * (NumberFormatException otherwise) and the denominator is validated as above.
   */
  function ParseTimeSignature(sig: string): (r: Result<TimeSig>)
    ensures IndexOf(sig, '/') < 1 ==> r.Fail?
    ensures r.Ok? ==> ValidDenominator(r.value.bot) && IsInt32(r.value.top)
    ensures r.Ok? ==> 1 <= IndexOf(sig, '/')
                      && ParseInt(sig[..IndexOf(sig, '/')]) == Some(r.value.top)
                      && ParseInt(sig[IndexOf(sig, '/') + 1..]) == Some(r.value.bot)
  {
    var slash := IndexOf(sig, '/');
    if slash < 1 then Fail("Improperly Formatted TimeSignature")
    else
      match ParseInt(sig[..slash])
      case None => Fail("NumberFormatException")
      case Some(num) =>
        match ParseInt(sig[slash + 1..])
        case None => Fail("NumberFormatException")
        case Some(den) => NewTimeSignature(num, den)
  }

  /**
   * `toString`: "top/bot". The first '/' of the text is the one after the
   * numerator, so splitting there gives back the two numbers' texts.
   */
  function ToString(ts: TimeSig): (r: string)
    ensures IndexOf(r, '/') == |IntToString(ts.top)|
    ensures r[..IndexOf(r, '/')] == IntToString(ts.top)
    ensures r[IndexOf(r, '/') + 1..] == IntToString(ts.bot)
  {
    var a := IntToString(ts.top);
    var b := IntToString(ts.bot);
    var s := a + "/" + b;
    assert s[..|a|] == a;
    assert s[|a|] == '/';
    assert forall i :: 0 <= i < |a| ==> s[i] != '/';
    assert '/' !in s[..|a|];
    assert s[|a| + 1..] == b;
    s
  }

  /** Parsing the text of a valid signature gives back the same signature. */
  lemma ParseToString(ts: TimeSig)
    requires IsInt32(ts.top) && ValidDenominator(ts.bot)
    ensures ParseTimeSignature(ToString(ts)) == Ok(ts)
  {
    ParseIntToString(ts.top);
    ParseIntToString(ts.bot);
  }
}
